=== FILE: README.md ===
# A Dafny model of the plagiarism checker's core

The plagiarism checker is a dashboard. It takes a batch of uploaded source files and checks them:
- it strips each file down to a canonical form (comments and import boilerplate removed, lower-cased, whitespace collapsed);
- it compares every pair of cleaned files with a similarity ratio;
- it presents the scores as tables.

This project models the pure logic inside that pipeline and proves its properties:

- **Normalize**: `normalize_code`, the canonicalisation every dialect ends with. The properties proved are:
  - the output is the lower-cased input's words (`split()`) joined by single spaces;
  - the output has no upper-case ASCII letter;
  - its only whitespace is single spaces;
  - it has no whitespace at either end;
  - the pass is idempotent;
  - it introduces no character that was not there.
- **Boilerplate**: the three dialect passes `remove_python_boilerplate`, `remove_cpp_boilerplate` and `remove_java_boilerplate`.
  - Every regular expression is an explicit scan with Python's semantics:
    - `.` stops at a newline;
    - `\s` is Unicode whitespace;
    - `^` under `MULTILINE` is tracked as a beginning-of-line flag;
    - `.*;` is greedy to the last `;` of the line;
    - `/\*.*?\*/` under `DOTALL` ends at the first `*/`.
- **Paths**: the path functions the pipeline relies on:
  - `os.path.join`, `os.path.basename`, and the extension split off by `os.path.splitext` (POSIX);
  - pathlib's `name` and `suffix`.
- **Preprocessing**: `preprocess_file` and `run_parallel_preprocessing`.
  - `preprocess_file` dispatches on the exact extension, cleans the file and writes it under `data/preprocessed` with the same base name.
  - `run_parallel_preprocessing` applies the driver's case-sensitive filter to the upload directory's listing.
- **Pairs**: `generate_file_pairs`, which is `itertools.combinations(xs, 2)`. It is proved equal to an independent enumeration of the index pairs `a < b`.
- **Comparison**: `compare_pair` and `run_parallel_comparison`.
  - The ratio is a real in [0, 1].
  - The score `round(ratio * 100, 2)` is kept as integer hundredths of a percent.
- **Uploads**: the all-or-nothing validation of `process_uploaded_files` and the sanitised name (`safe_name`) each file is stored under.
- **Highlight**: the span loop of `highlight_matching_text`, and the function as it is actually written (see Findings).
- **Preview**: the truncated preview of `read_file_content`, with `str.splitlines` line boundaries.
- **Results**: the row logic of `display_summary`, `display_max_plagiarism_per_file` and `display_filtered_results`.
- **Dashboard**: how `process_uploaded_files` chains upload, preprocessing and comparison. It includes `total_pairs`, and the names the upload check accepts but the driver never preprocesses.

Files, the directory listing, the similarity ratio and difflib's matching blocks are parameters of the model.

The model follows the code:
- Results come back in input order, because `Pool.map` and `Pool.starmap` keep order.
- A file of exactly 10 MiB is accepted, because the check is `>`.

## Model

| member | source | states |
|---|---|---|
| Normalize.NormalizeCodeShape | utils/preprocessing.py:27-30 | The output of `normalize_code` is exactly the words of the lower-cased input (its maximal whitespace-free runs, `split()`) joined by single spaces. It is canonical: no upper-case ASCII letter, every whitespace character a single space with no two adjacent, and none at either end. Its non-whitespace characters are the input's, lower-cased, in order. |
| Normalize.NormalizeIdempotent | utils/preprocessing.py:27-30 | Normalising twice gives the same text as normalising once. |
| Normalize.CanonicalFixed | utils/preprocessing.py:27-30 | Any canonical text is left unchanged by `normalize_code`. |
| Normalize.NormalizeIntroducesNothing | utils/preprocessing.py:27-30 | A character that is not whitespace and not an ASCII letter appears in the output only if it appears in the input. |
| Normalize.CollapseShape | utils/preprocessing.py:29 | `re.sub(r'\s+', ' ', …)` leaves single spaces only and keeps the words of the text, in order, so every whitespace run between two words becomes one space. |
| Normalize.StripShape | utils/preprocessing.py:30 | `strip()` leaves no whitespace at either end. Its result is a slice `s[i:j]` of the input with only whitespace before `i` and after `j`, so the interior is kept as it is, and the words are the input's. |
| Normalize.StripSlice | utils/preprocessing.py:30 | `strip()` returns `s[i:j]` for some `i <= j` with only whitespace in `s[:i]` and in `s[j:]`. |
| Normalize.WordsCollapse | utils/preprocessing.py:29 | Replacing each whitespace run by one space leaves `split()` unchanged. |
| Normalize.WordsStrip | utils/preprocessing.py:30 | Stripping leaves `split()` unchanged. |
| Normalize.WordsAfterBlank | utils/preprocessing.py:29-30 | Whitespace in front of a text adds no word to `split()`. |
| Normalize.WordsBeforeBlank | utils/preprocessing.py:29-30 | Whitespace after a text adds no word to `split()`. |
| Normalize.CanonicalWords | utils/preprocessing.py:29-30 | A text with single spaces and nothing to strip is `" ".join` of its `split()`. |
| Boilerplate.PythonOutputHasNoHash | utils/preprocessing.py:7-11 | The Python pass leaves no `#` in its output. |
| Boilerplate.HashCommentsGone | utils/preprocessing.py:8 | `re.sub(r'#.*', '', …)` removes every `#`. |
| Boilerplate.DialectOutputsAreFixedPoints | utils/preprocessing.py:7-30 | The Python, C++ and Java passes all return canonical text that `normalize_code` leaves unchanged. |
| Boilerplate.CutCommentsPerLine | utils/preprocessing.py:7-25 | A line comment never reaches past its line: cutting comments in two lines is cutting them in each line. |
| Boilerplate.CutCommentsOneLine | utils/preprocessing.py:7-25 | On one line, the comment cut keeps exactly the text before the first comment opener. |
| Boilerplate.CutBlockDropsComment | utils/preprocessing.py:15-22 | A block comment is removed up to the first `*/` after its opener, even across lines. |
| Boilerplate.CutBlockKeepsPrefix | utils/preprocessing.py:15-22 | Text without a `/` in front of the rest is copied unchanged by the block-comment pass; only the rest is rewritten. |
| Boilerplate.CutDirectiveDropsLine | utils/preprocessing.py:9-16 | A line starting with optional whitespace and the keyword loses everything up to its newline. The newline and the lines after it stay. |
| Boilerplate.CutDirectiveDropsStatement | utils/preprocessing.py:17-24 | For `using namespace`, `import` and `package` statements, the match ends at the last `;` of the line: the text after it on that line stays. |
| Boilerplate.CutDirectiveMidLine | utils/preprocessing.py:9-24 | `^` only matches at the start of a line: text in the middle of a line is never cut, and matching resumes after the newline. |
| Boilerplate.CutDirectiveIdentity | utils/preprocessing.py:9-24 | Text without a matching line is left unchanged. |
| Boilerplate.PythonDropsImportAndComment | utils/preprocessing.py:7-11 | An `import` line followed by a comment line is removed entirely, and what follows is only canonicalised. |
| Boilerplate.PythonExample | utils/preprocessing.py:7-11 | `"import os\n#hi\nprint(1)"` becomes `"print(1)"`. |
| Boilerplate.CppDropsBlockComment | utils/preprocessing.py:13-18 | A one-line text with a block comment (which may span lines) between two slash-free parts becomes the canonical form of the two parts joined. |
| Boilerplate.CppExample | utils/preprocessing.py:13-18 | `"a /* x\ny */ b"` becomes `"a b"`. |
| Boilerplate.NormalizeExample | utils/preprocessing.py:29-30 | Two spaces between letters collapse to one. |
| Paths.BasenameOfJoin | utils/preprocessing.py:46-47 | A name without `/` joined onto a directory has that name as its basename again. |
| Paths.ExtOfName | utils/preprocessing.py:37 | `stem.tail`, with a non-empty dot-free stem, has the extension `.tail` in any directory. |
| Paths.ExtOfDotFile | utils/preprocessing.py:37 | A dot file such as `.py` has no extension. |
| Preprocessing.Clean | utils/preprocessing.py:38-45 | Every dialect's cleaned text is canonical and a fixed point of `normalize_code`. The Python dialect's text has no `#`. |
| Preprocessing.PreprocessFile | utils/preprocessing.py:33-54 | A file is written exactly when it can be read, the output can be written and the basename is non-empty. The output path is `os.path.join('data', 'preprocessed', basename)` of the input, and the output holds the dispatched dialect's cleaned, canonical text. The input path is always returned. |
| Preprocessing.AdmittedFiles | utils/preprocessing.py:58 | The driver keeps exactly the listed names it admits. If no name is admitted, nothing is kept. The order is given by `AdmittedFilesAppend`. |
| Preprocessing.AdmittedFilesAppend | utils/preprocessing.py:58 | The filter keeps listing order. Filtering two listings end to end gives the two filtered lists end to end. |
| Preprocessing.AdmittedFilesOne | utils/preprocessing.py:58 | A one-name listing keeps the name exactly when it is admitted; with `AdmittedFilesAppend`, this fixes the filtered list and its order. |
| Preprocessing.RunPreprocessing | utils/preprocessing.py:56-65 | Result `i` is `preprocess_file` on the path under `data/uploads` of the `i`-th admitted name, so there is one result per admitted name, in listing order. Every file written holds canonical text and keeps the listed name. |
| Preprocessing.UpperCaseNotAdmitted | utils/preprocessing.py:58 | The filter is case-sensitive: a name ending in an upper-case letter is never admitted. |
| Preprocessing.AdmittedEndsLower | utils/preprocessing.py:58 | Every admitted name ends in `.py`, `.cpp`, `.java` or `.h`, and so in a lower-case letter. |
| Preprocessing.DriverNeverSeesCcOrCxx | utils/preprocessing.py:40-58 | No admitted file has extension `.cc` or `.cxx`, so those two entries of the C++ branch are never used by the driver. |
| Preprocessing.HiddenPyIsGeneric | utils/preprocessing.py:37-58 | A file named `.py` is admitted but has no extension, so it is only canonicalised. |
| Preprocessing.AdmittedHasDialect | utils/preprocessing.py:37-58 | An admitted name with a plain stem is always dispatched to a cleaning dialect, never to plain canonicalisation. |
| Pairs.Combinations2 | utils/comparison.py:16-17 | `generate_file_pairs` returns n(n-1)/2 pairs. |
| Pairs.CombinationsAreIndexPairs | utils/comparison.py:16-17 | The result lists `(xs[a], xs[b])` for exactly the index pairs `a < b < n`, each once, in strictly increasing lexicographic order. For n = 0 or 1 it is empty. |
| Pairs.CombinationsDistinct | utils/comparison.py:16-17 | With distinct inputs, no pair has an element twice and no unordered pair appears twice in either orientation. |
| Pairs.PairsFromMembers | utils/comparison.py:17 | An index pair is enumerated exactly when both indices are in range and the first is smaller. |
| Pairs.PairsFromSorted | utils/comparison.py:17 | The index pairs are enumerated in strictly increasing lexicographic order. |
| Pairs.PairsFromCount | utils/comparison.py:17 | The enumeration has (n-i)(n-i-1)/2 pairs from row `i` on. |
| Comparison.RoundHalfEven | utils/comparison.py:13 | Python's `round` gives an integer within one half of its argument, and the even one on a tie. |
| Comparison.Score | utils/comparison.py:12-13 | The score in hundredths lies in [0, 10000] and within one half of `ratio × 10000`. |
| Comparison.ScoreMonotone | utils/comparison.py:13 | A higher ratio never gets a lower score. |
| Comparison.ScoreExtremes | utils/comparison.py:13 | Ratio 1 scores 100% and ratio 0 scores 0%. |
| Comparison.ComparePair | utils/comparison.py:6-14 | The row names the basenames of the two paths in argument order, and its score is `Score(ratio)`: `round(ratio * 100, 2)` percent, in hundredths, within 0-10000. |
| Comparison.RunComparison | utils/comparison.py:19-23 | There are n(n-1)/2 rows, each with a score in range. |
| Comparison.RunComparisonRows | utils/comparison.py:19-23 | Row `k` compares the paths at the `k`-th index pair `(a, b)`, `a < b`, in that order: every pair of positions once, in pair order. |
| Comparison.ComparePairNames | utils/comparison.py:14 | Comparing two files of one directory reports their plain names. |
| Uploads.Validate | app/helper.py:68-74 | The batch passes exactly when every file has a supported lower-cased suffix and is at most 10 MiB. Otherwise the rejection names the first failing file, with the type checked before the size. |
| Uploads.FirstProblem | app/helper.py:68-74 | The loop stops at the first failing file. All files before it pass both checks. |
| Uploads.ProcessUploads | app/helper.py:64-88 | An empty batch is rejected, and so is a batch with a failing file, before anything is written. Otherwise every file is stored in order under `data/uploads` with its sanitised name and its bytes. |
| Uploads.SafeName | app/helper.py:84 | The sanitised name contains no `/` and no `\`. |
| Uploads.SafeNameCanYieldDotDot | app/helper.py:84 | `safe_name` does not exclude `..`: the name `.\.` becomes `..`. |
| Uploads.SafeNameNoDotDot | app/helper.py:84 | Without a backslash in the uploaded name, the sanitised name contains no `..`. |
| Uploads.SafeNameKeepsPlainName | app/helper.py:84 | An ordinary file name (no separator, no `..`) is stored unchanged. |
| Uploads.RemoveDotDotNoPair | app/helper.py:84 | After `.replace("..", "")` no two adjacent dots remain. |
| Highlight.Side | app/helper.py:210-232 | One side of the span loop. With blocks that are in bounds, ascending and non-overlapping, the pieces without their markup spell out the text exactly, and each highlighted piece starts at its block's offset `a`. The highlighted pieces are exactly the slices `content[a:a+size]` of the blocks of positive size, in block order, so a zero-size block adds none. |
| Highlight.Highlight | app/helper.py:202-232 | Both texts are rendered from their pieces. Each side's pieces spell out its own text. On each side, the highlighted spans hold exactly that side's slices of the blocks of positive size, in block order, and with well-formed blocks each span sits at its block's start on that side. Both sides get the same number of spans. |
| Highlight.PositiveCountSizes | app/helper.py:219-226 | Both sides see the same number of positive-size blocks. |
| Highlight.HighlightAsWritten | app/helper.py:206-209 | As written, both returned texts are the same error text. Whenever `compare_pair` succeeds, that text is the unpacking error "not enough values to unpack (expected 6, got 3)". |
| Highlight.UnpackSixFromThree | app/helper.py:207 | Unpacking the three values of `compare_pair` into six names raises the message "not enough values to unpack (expected 6, got 3)". |
| Preview.SplitLines | app/helper.py:194-195 | `str.splitlines()` yields lines free of line boundaries, and only the empty text yields no line. |
| Preview.ReadFileContent | app/helper.py:185-197 | The truncation flag is set exactly when the file has more lines than the preview keeps. The preview re-splits into the file's first `preview_lines` lines (all of them when untruncated), except that a final empty line is lost. A read error gives the error text and no flag. |
| Preview.SplitJoin | app/helper.py:194-195 | Splitting lines joined with `\n` gives them back, except a final empty line. |
| Preview.PreviewIsPrefix | app/helper.py:194-195 | For text whose only line boundary is `\n`, every preview of whole lines is a prefix of the text. |
| Preview.PreviewOfPlainFile | app/helper.py:185-195 | For a file with `\n` line ends, the preview shown is the start of the file. |
| Results.Files | app/helper.py:248 | The file set is exactly the names in either column, at most two per row. |
| Results.Highest | app/helper.py:250 | The highest score is missing only for an empty table; otherwise it is reached by some row and exceeded by none. |
| Results.HighCount | app/helper.py:251 | The count of rows at or above 80% is zero exactly when every row is below it. |
| Results.Summarize | app/helper.py:244-257 | The file count is the number of distinct names in either column, and the pair count is the row count. The highest score is absent exactly when there are no rows; otherwise some row reaches it and none exceeds it. The high-similarity count is the number of rows at 80% or more, and it is positive exactly when the highest score reaches 80%. |
| Results.SummaryOfRun | app/helper.py:248-250 | For a run over two or more paths, the summary's files are exactly the paths' basenames. There are n(n-1)/2 pairs and a highest score. |
| Results.FilterRange | app/helper.py:325 | The filter keeps exactly the rows whose percentage lies in the closed range `[lo, hi]`. |
| Results.FilterRangeAppend | app/helper.py:325 | Filtering keeps table order: filtering two tables end to end gives the two filtered tables end to end. |
| Results.FilterRangeFull | app/helper.py:314-325 | The slider's full range 0–100 keeps every row of valid scores. |
| Results.HighCountIsRange | app/helper.py:251 | The summary's high-similarity count is the size of the table filtered to 80–100%. |
| Results.RowsOf | app/helper.py:305 | The mask of the detail view keeps exactly the rows naming the file in either column. The order is given by `RowsOfAppend`; the sort that follows is `DetailView`. |
| Results.RowsOfAppend | app/helper.py:305 | The selection keeps table order. Two tables end to end give their selections end to end. |
| Results.RowsOfOne | app/helper.py:305 | A one-row table keeps the row exactly when it names the file; with `RowsOfAppend`, this fixes the selection and its order. |
| Results.SortRows | app/helper.py:306 | Sorting rows by score descending yields a descending table holding the same rows, each as often as before. |
| Results.RowInsert | app/helper.py:306 | Inserting a row into a descending table keeps it descending and adds exactly that row. |
| Results.DetailView | app/helper.py:304-306 | The view shown for a selected file is descending by score and holds exactly the rows naming the file in either column, each as often as in the table. |
| Results.BestMatchIsHighest | app/helper.py:265-269 | The score of a file's chosen best match is the highest score among the rows naming that file. |
| Results.BestBefore | app/helper.py:269 | `idxmax` picks a highest-scoring row of the file, and the first one among equals. |
| Results.FileOrder | app/helper.py:269 | The grouping lists every file of either column exactly once. |
| Results.SortByScore | app/helper.py:270 | Sorting by score descending yields a descending table with the same rows. Distinct files stay distinct. |
| Results.MaxMatchPerFile | app/helper.py:265-270 | The intended per-file table is sorted by descending score, lists each file at most once, and holds exactly each file's best row. |
| Results.MaxMatchPerFileComplete | app/helper.py:265-270 | The intended table has one entry per file of either column. Each entry is a row of the two-way table that no other row of its file outscores. |
| Results.MaxMatchAsWritten | app/helper.py:265-270 | As written, the table is descending but has twice as many rows as files, all taken from the two-way table. |
| Results.AsWrittenDoublesRows | app/helper.py:265-270 | As written, the table has 2·(number of files) rows, against one per file in the intended table. |
| Results.OnePairTables | app/helper.py:265-270 | For one pair of files, the intended table has two entries. The table as written holds each orientation of the pair twice. |
| Dashboard.TotalPairs | app/helper.py:121 | `total_pairs` is the number of index pairs `a < b < n`. |
| Dashboard.SuccessfulOutputs | app/helper.py:102 | Exactly the non-empty output paths of successful results are kept. The order is given by `SuccessfulOutputsAppend`. |
| Dashboard.SuccessfulOutputsAppend | app/helper.py:102 | The comprehension keeps result order. Two result lists end to end give their outputs end to end. |
| Dashboard.SuccessfulOutputsOne | app/helper.py:102 | One result gives its path exactly when it has a non-empty output path; with `SuccessfulOutputsAppend`, this fixes the outputs and their order. |
| Dashboard.ProcessUploadedFiles | app/helper.py:62-129 | An empty or failing batch stops before anything else. A run with no usable preprocessed file stops after preprocessing. Otherwise the rows are `run_parallel_comparison` over the preprocessed outputs. They number exactly `total_pairs`, so the "fewer results" branch is never taken. |
| Dashboard.UploadAndDriverChecks | app/helper.py:69-84 | An upload named `stem.tail` is stored under that name. It passes the type check exactly when `.tail` lower-cased is supported. The driver admits it exactly when `tail` is `py`, `cpp`, `java` or `h` as written. |
| Dashboard.MismatchedSuffixes | app/helper.py:21 | `.cc`, `.cxx` and `.PY` pass the upload check, but none is among the driver's suffixes. |
| Dashboard.MismatchedBatchStops | app/helper.py:68-118 | When the upload directory holds only this batch, a batch of files that share such a suffix is accepted and stored, and the run then stops with nothing preprocessed. Files left by an earlier run are not covered: the directory is cleared only from the sidebar. |

## Left out

- File contents, the upload directory's listing (`os.listdir`), whether an output file can be written, and the similarity ratio are parameters. So are difflib's matching blocks. No I/O is modelled.
- `multiprocessing.Pool` is a sequential map, which gives the same results in the same order.
- `difflib.SequenceMatcher` (ratio and matching blocks) is a foreign library, so it is not modelled.
- Comparison.Score: the score is the exact real `ratio × 10000` rounded half to even. Python rounds the binary float `ratio * 100` to two decimals, which can differ in the last hundredth when the float is inexact.
- Comparison.ScoreMonotone: holds for exact real arithmetic, not for float rounding.
- Text.Lower: ASCII only. Python's `str.lower` also lower-cases non-ASCII letters.
- Decoding with `errors='ignore'` is not modelled: file contents are already text.
- Paths.Suffix uses pathlib's rule: the suffix starts at the last `.` of the name, when that dot is neither the first nor the last character. Names ending in `.` have no suffix; this has no effect on the upload check, because `.` alone is not a valid extension.
- `save_results_to_csv` and reading the CSV back are not modelled. The rows passed to the tables are the comparison rows, with percentages as hundredths.
- `prepare_pie_chart_data` (`pd.cut` binning) and the chart are left out, because they are plotting only.
- All Streamlit and Plotly rendering, widgets, session state and download buttons are left out. Only the rows the tables show are modelled.
- `st.cache_data` caching is left out; it does not change results.
- Timing, CPU monitoring (`psutil`) and the metrics table of `process_uploaded_files` are left out.
- `clear_directory`, `initialize_directories` and the progress file (`update_progress`) are left out, because they are I/O only.
- The progress branch at app/helper.py:103-106 only reports progress, so it is left out.
- The exception branches of `process_uploaded_files` (app/helper.py:110-113, 133-136, 148-151) are left out. They catch I/O failures of the pool and the CSV writer, which the model has no way to raise.
- Highlight.Highlight: the round-trip is stated on the list of pieces: their texts spell out the content, and the rendering wraps each marked piece. It is not stated as removing `<span>` markup from the rendered string, which would be ambiguous when the content itself contains that markup.
- Results.SortByScore: `sort_values` uses an unstable sort, so equal scores may come out in any order. The model fixes one such order.
- Results.SortRows: the same holds for the detail view's sort; the model fixes one order among equal scores.
- Results.FileOrder: pandas groups files in sorted name order, while the model uses order of first appearance. The difference only shows among equal scores after the sort.
- `app/app.py`, `main.py` and `utils/handwritten_pdf_handler.py` (OCR through `fitz` and `pytesseract`) are not part of this model.

## Findings

| source | as written | input that shows it | evidently intended | confidence | as-written member | corrected member |
|---|---|---|---|---|---|---|
| app/helper.py:207 | Six names are unpacked from `compare_pair`, which returns three values (utils/comparison.py:14). The `ValueError` falls into the `except` branch, so both returned texts are always "Error comparing files: not enough values to unpack (expected 6, got 3)". | Any two readable preprocessed files. | Build both highlighted texts from the contents and matching blocks with the span loop. | high; not executed | Highlight.HighlightAsWritten | Highlight.Highlight |
| app/helper.py:265-269 | `pd.concat` keeps both halves' index labels, so every label occurs twice. `.loc` with the labels returned by `idxmax` therefore selects both orientations of each best row. The table gets two rows per file and names files more than once. | One row (`a.py`, `b.py`, 50%) gives four rows: (`a.py`, `b.py`) twice and (`b.py`, `a.py`) twice. | One row per file with its best match. | medium (depends on pandas label semantics); not executed | Results.MaxMatchAsWritten, Results.OnePairTables | Results.MaxMatchPerFile |

=== FILE: boilerplate.dfy ===
/**
 The regular-expression passes of the three dialects, each written as an
 explicit left-to-right scan that reproduces what Python's `re.sub` does
 with that one pattern: matches are found leftmost first, never overlap,
 and each is replaced by the empty string.

 `.` matches any character except `'\n'`; `\s` is `Text.IsSpace`, which
 includes `'\n'`, so a `^\s*` prefix may run over blank lines. `^` under
 MULTILINE holds at index 0 and right after a `'\n'` of the text being
 scanned; the scans carry that fact as the flag `bol`.
 */
module Boilerplate {
  import opened Text
  import opened Normalize

  /** Drops the rest of the current line, keeping the `'\n'` that ends it. */
  function DropLine(s: string): (r: string)
    ensures r == s[LineLength(s)..]
  {
    if s == [] || s[0] == '\n' then s else DropLine(s[1..])
  }

  /**
   `re.sub(open + '.*', '', s)` for a comment opener without a newline:
   `'#'` for Python, `"//"` for C++ and Java.
   */
  function CutComments(s: string, open: string): (r: string)
    requires |open| > 0 && '\n' !in open
    ensures |r| <= |s|
    ensures forall c :: c in r ==> c in s
    decreases |s|
  {
    if s == [] then []
    else if StartsWith(s, open) then
      assert s[0] == open[0];
      CutComments(DropLine(s), open)
    else [s[0]] + CutComments(s[1..], open)
  }

  // re.sub(r'/\*.*?\*/', '', s, flags=re.DOTALL): each block opener, up to the
  // first block closer that starts after it, is deleted; an opener with no
  // closer after it stays.
  function CutBlockComments(s: string): (r: string)
    ensures |r| <= |s|
    ensures forall c :: c in r ==> c in s
    decreases |s|
  {
    if s == [] then []
    else if StartsWith(s, "/*") && Find(s[2..], "*/") < |s| - 2 then
      CutBlockComments(s[2..][Find(s[2..], "*/") + 2..])
    else [s[0]] + CutBlockComments(s[1..])
  }

  /**
   The line-anchored patterns. Every keyword starts with a non-space
   character and contains no newline, so the greedy `\s*` in front of it can
   only succeed at the end of the whitespace run.
   */
  datatype Directive =
    | ToLineEnd(keyword: string)        // ^\s*KEYWORD.*
    | ToLastSemicolon(keyword: string)  // ^\s*KEYWORD.*;
    | FromImport                        // ^\s*from .* import .*

  predicate ValidDirective(d: Directive) {
    d.FromImport? || (|d.keyword| > 0 && !IsSpace(d.keyword[0]) && '\n' !in d.keyword)
  }

  /** Index just past the last `';'` of `s`, or 0 when there is none. */
  function PastLastSemicolon(s: string): (k: nat)
    ensures k <= |s|
    ensures k > 0 ==> s[k - 1] == ';'
    ensures forall j :: k <= j < |s| ==> s[j] != ';'
  {
    LastIndexOf(s, ';') + 1
  }

  lemma KeywordWithinLine(s: string, kw: string)
    requires StartsWith(s, kw) && '\n' !in kw
    ensures LineLength(s) >= |kw|
  {
  }

  /** The length of the match of `d` at the start of `s`, assuming `^` holds there. */
  function MatchLength(s: string, d: Directive): (m: Option<nat>)
    requires ValidDirective(d)
    ensures m.Some? ==> 0 < m.value <= |s| && s[m.value - 1] != '\n'
  {
    var k := SpaceRun(s);
    var rest := s[k..];
    var line := LineLength(rest);
    match d
    case ToLineEnd(kw) =>
      if StartsWith(rest, kw) then
        KeywordWithinLine(rest, kw);
        Some(k + line)
      else None
    case ToLastSemicolon(kw) =>
      if StartsWith(rest, kw) then
        KeywordWithinLine(rest, kw);
        var j := PastLastSemicolon(rest[|kw|..line]);
        if j > 0 then Some(k + |kw| + j) else None
      else None
    case FromImport =>
      if StartsWith(rest, "from ") && 5 <= line && Contains(rest[5..line], " import ") then Some(k + line)
      else None
  }

  /** `re.sub(pattern, '', s, flags=re.MULTILINE)` for the pattern `d`. */
  function CutDirective(s: string, d: Directive, bol: bool): (r: string)
    requires ValidDirective(d)
    ensures |r| <= |s|
    ensures forall c :: c in r ==> c in s
    decreases |s|
  {
    if s == [] then []
    else if bol && MatchLength(s, d).Some? then
      var m := MatchLength(s, d).value;
      CutDirective(s[m..], d, s[m - 1] == '\n')
    else [s[0]] + CutDirective(s[1..], d, s[0] == '\n')
  }

  const PyImport := ToLineEnd("import ")
  const CppInclude := ToLineEnd("#include")
  const CppUsingNamespace := ToLastSemicolon("using namespace")
  const JavaImport := ToLastSemicolon("import ")
  const JavaPackage := ToLastSemicolon("package ")

  /** `remove_python_boilerplate`. */
  function RemovePython(code: string): string {
    var c1 := CutComments(code, "#");
    var c2 := CutDirective(c1, PyImport, true);
    var c3 := CutDirective(c2, FromImport, true);
    NormalizeCode(c3)
  }

  /** `remove_cpp_boilerplate`. */
  function RemoveCpp(code: string): string {
    var c1 := CutComments(code, "//");
    var c2 := CutBlockComments(c1);
    var c3 := CutDirective(c2, CppInclude, true);
    var c4 := CutDirective(c3, CppUsingNamespace, true);
    NormalizeCode(c4)
  }

  /** `remove_java_boilerplate`. */
  function RemoveJava(code: string): string {
    var c1 := CutComments(code, "//");
    var c2 := CutBlockComments(c1);
    var c3 := CutDirective(c2, JavaImport, true);
    var c4 := CutDirective(c3, JavaPackage, true);
    NormalizeCode(c4)
  }

  // ---------------------------------------------------------------------
  // Comment passes

  lemma StartsWithAcrossNewline(x: string, y: string, open: string)
    requires '\n' !in x && '\n' !in open
    ensures StartsWith(x + y, open) && |x| < |open| ==> y != [] && y[0] != '\n'
  {
    if StartsWith(x + y, open) && |x| < |open| {
      assert (x + y)[|x|] == open[|x|];
    }
  }

  lemma CutCommentsAtNewline(y: string, open: string)
    requires |open| > 0 && '\n' !in open
    ensures CutComments("\n" + y, open) == "\n" + CutComments(y, open)
  {
    var s := "\n" + y;
    assert s[0] == '\n';
    assert s[1..] == y;
  }

  lemma DropLineBeforeNewline(x: string, y: string)
    requires '\n' !in x
    ensures DropLine(x + "\n" + y) == "\n" + y
    ensures DropLine(x) == []
  {
    var s := x + "\n" + y;
    assert s[|x|] == '\n';
    assert forall j :: 0 <= j < |x| ==> s[j] == x[j];
    assert LineLength(s) == |x|;
    assert s[|x|..] == "\n" + y;
  }

  lemma StartsWithBeforeNewline(x: string, y: string, open: string)
    requires '\n' !in x && '\n' !in open
    ensures StartsWith(x + "\n" + y, open) == StartsWith(x, open)
  {
    var s := x + "\n" + y;
    if StartsWith(x, open) {
      assert s[..|open|] == x[..|open|];
    }
    assert s[|x|] == '\n';
    assert forall i :: 0 <= i < |open| ==> open[i] != '\n';
    if StartsWith(s, open) && |x| >= |open| {
      assert s[..|open|] == x[..|open|];
    }
  }

  /** A line comment ends at the newline: the pass acts on each line separately. */
  lemma {:induction false} CutCommentsPerLine(x: string, y: string, open: string)
    requires |open| > 0 && '\n' !in open
    requires '\n' !in x
    ensures CutComments(x + "\n" + y, open) == CutComments(x, open) + "\n" + CutComments(y, open)
    decreases |x|
  {
    var s := x + "\n" + y;
    StartsWithBeforeNewline(x, y, open);
    if x == [] {
      assert s == "\n" + y;
      CutCommentsAtNewline(y, open);
    } else if StartsWith(x, open) {
      DropLineBeforeNewline(x, y);
      CutCommentsAtNewline(y, open);
    } else {
      assert s[0] == x[0];
      assert s[1..] == x[1..] + "\n" + y;
      CutCommentsPerLine(x[1..], y, open);
    }
  }

  /** On one line, a comment pass keeps exactly the text before the first opener. */
  lemma {:induction false} CutCommentsOneLine(x: string, open: string)
    requires |open| > 0 && '\n' !in open
    requires '\n' !in x
    ensures CutComments(x, open) == x[..Find(x, open)]
    decreases |x|
  {
    if x != [] && !StartsWith(x, open) {
      CutCommentsOneLine(x[1..], open);
      assert x[..Find(x, open)] == [x[0]] + x[1..][..Find(x[1..], open)];
    } else if x != [] {
      assert DropLine(x) == [];
    }
  }

  /** No `'#'` survives the Python comment pass. */
  lemma {:induction false} HashCommentsGone(s: string)
    ensures '#' !in CutComments(s, "#")
    decreases |s|
  {
    if s != [] {
      if StartsWith(s, "#") {
        HashCommentsGone(DropLine(s));
      } else {
        assert s[0] != '#';
        HashCommentsGone(s[1..]);
      }
    }
  }

  /** The Python dialect's output contains no `'#'`. */
  lemma PythonOutputHasNoHash(code: string)
    ensures '#' !in RemovePython(code)
  {
    var c1 := CutComments(code, "#");
    HashCommentsGone(code);
    var c2 := CutDirective(c1, PyImport, true);
    var c3 := CutDirective(c2, FromImport, true);
    NormalizeIntroducesNothing(c3, '#');
  }

  /** Normalised text is canonical and normalises to itself. */
  lemma NormalizedIsFixed(p: string)
    ensures Canonical(NormalizeCode(p)) && NormalizeCode(NormalizeCode(p)) == NormalizeCode(p)
  {
    NormalizeIdempotent(p);
    NormalizeCodeShape(p);
  }

  lemma PythonIsNormalized(code: string) returns (p: string)
    ensures RemovePython(code) == NormalizeCode(p)
  {
    p := CutDirective(CutDirective(CutComments(code, "#"), PyImport, true), FromImport, true);
  }

  lemma CppIsNormalized(code: string) returns (p: string)
    ensures RemoveCpp(code) == NormalizeCode(p)
  {
    p := CutDirective(CutDirective(CutBlockComments(CutComments(code, "//")), CppInclude, true), CppUsingNamespace, true);
  }

  lemma JavaIsNormalized(code: string) returns (p: string)
    ensures RemoveJava(code) == NormalizeCode(p)
  {
    p := CutDirective(CutDirective(CutBlockComments(CutComments(code, "//")), JavaImport, true), JavaPackage, true);
  }

  /** Every dialect's output is in canonical form, so `normalize_code` leaves it unchanged. */
  lemma DialectOutputsAreFixedPoints(code: string)
    ensures Canonical(RemovePython(code)) && NormalizeCode(RemovePython(code)) == RemovePython(code)
    ensures Canonical(RemoveCpp(code)) && NormalizeCode(RemoveCpp(code)) == RemoveCpp(code)
    ensures Canonical(RemoveJava(code)) && NormalizeCode(RemoveJava(code)) == RemoveJava(code)
  {
    var p := PythonIsNormalized(code);
    NormalizedIsFixed(p);
    var c := CppIsNormalized(code);
    NormalizedIsFixed(c);
    var j := JavaIsNormalized(code);
    NormalizedIsFixed(j);
  }

  /** Text in which the opener never occurs passes through the comment pass unchanged. */
  lemma {:induction false} CutCommentsAbsent(s: string, open: string)
    requires |open| > 0 && '\n' !in open
    requires forall j :: 0 <= j < |s| ==> !StartsWith(s[j..], open)
    ensures CutComments(s, open) == s
    decreases |s|
  {
    if s != [] {
      assert !StartsWith(s[0..], open);
      assert forall j :: 0 <= j < |s| - 1 ==> s[1..][j..] == s[j + 1..];
      CutCommentsAbsent(s[1..], open);
    }
  }

  lemma HashAbsent(s: string)
    requires '#' !in s
    ensures CutComments(s, "#") == s
  {
    forall j | 0 <= j < |s|
      ensures !StartsWith(s[j..], "#")
    {
      assert s[j..][0] == s[j];
    }
    CutCommentsAbsent(s, "#");
  }

  // ---------------------------------------------------------------------
  // Block comments

  /** A character other than `'/'` cannot open a block comment, so it is copied. */
  lemma CutBlockCons(c: char, t: string)
    requires c != '/'
    ensures CutBlockComments([c] + t) == [c] + CutBlockComments(t)
  {
    var s := [c] + t;
    assert s[0] == c;
    assert !StartsWith(s, "/*") by {
      if |s| >= 2 {
        assert s[..2][0] == c;
      }
    }
    assert s[1..] == t;
  }

  /** A prefix without `'/'` cannot hold an opener, so it is copied unchanged. */
  lemma {:induction false} CutBlockKeepsPrefix(a: string, t: string)
    requires '/' !in a
    ensures CutBlockComments(a + t) == a + CutBlockComments(t)
    decreases |a|
  {
    if a == [] {
      assert a + t == t;
    } else {
      var rest := a[1..];
      ConsAppend(a, t);
      CutBlockCons(a[0], rest + t);
      assert '/' !in rest;
      CutBlockKeepsPrefix(rest, t);
      ConsAppend(a, CutBlockComments(t));
    }
  }

  lemma ConsAppend(a: string, u: string)
    requires a != []
    ensures [a[0]] + (a[1..] + u) == a + u
  {
  }

  lemma FindCloser(c: string, b: string)
    requires forall j :: 0 <= j < |c| ==> !StartsWith(c[j..], "*/")
    ensures Find(c + "*/" + b, "*/") == |c|
  {
    var u := c + "*/" + b;
    assert StartsWith(u[|c|..], "*/") by {
      assert u[|c|..][..2] == "*/";
    }
    forall j | 0 <= j < |c|
      ensures !StartsWith(u[j..], "*/")
    {
      if j + 1 < |c| {
        assert u[j..][..2] == c[j..][..2];
      } else {
        assert u[j + 1] == '*';
      }
    }
  }

  /**
   A complete block comment is deleted together with everything inside it,
   newlines included, and scanning resumes after the first closer.
   */
  lemma CutBlockDropsComment(c: string, b: string)
    requires forall j :: 0 <= j < |c| ==> !StartsWith(c[j..], "*/")
    ensures CutBlockComments("/*" + c + "*/" + b) == CutBlockComments(b)
  {
    var s := "/*" + c + "*/" + b;
    assert StartsWith(s, "/*");
    assert s[2..] == c + "*/" + b;
    FindCloser(c, b);
    assert s[2..][|c| + 2..] == b;
  }

  // ---------------------------------------------------------------------
  // Line-anchored directives

  /** Whether `^` holds at index `i` of `s` when it holds at index 0 exactly if `bol`. */
  predicate LineStartAt(s: string, i: nat, bol: bool)
    requires i < |s|
  {
    if i == 0 then bol else s[i - 1] == '\n'
  }

  /** No line of `s` matches the directive. */
  predicate NoMatchingLine(s: string, d: Directive, bol: bool)
    requires ValidDirective(d)
  {
    forall i :: 0 <= i < |s| && LineStartAt(s, i, bol) ==> MatchLength(s[i..], d).None?
  }

  /** Text with no matching line passes through a directive pass unchanged. */
  lemma {:induction false} CutDirectiveIdentity(s: string, d: Directive, bol: bool)
    requires ValidDirective(d)
    requires NoMatchingLine(s, d, bol)
    ensures CutDirective(s, d, bol) == s
    decreases |s|
  {
    if s != [] {
      assert LineStartAt(s, 0, bol) ==> MatchLength(s[0..], d).None?;
      assert s[0..] == s;
      forall i | 0 <= i < |s| - 1 && LineStartAt(s[1..], i, s[0] == '\n')
        ensures MatchLength(s[1..][i..], d).None?
      {
        assert LineStartAt(s, i + 1, bol);
        assert s[1..][i..] == s[i + 1..];
      }
      CutDirectiveIdentity(s[1..], d, s[0] == '\n');
    }
  }

  /** Inside a line `^` never holds, so the rest of the line is copied. */
  lemma {:induction false} CutDirectiveMidLine(x: string, y: string, d: Directive)
    requires ValidDirective(d)
    requires '\n' !in x
    ensures CutDirective(x + "\n" + y, d, false) == x + "\n" + CutDirective(y, d, true)
    decreases |x|
  {
    var s := x + "\n" + y;
    if x == [] {
      assert s == "\n" + y;
      assert s[1..] == y;
    } else {
      assert s[0] == x[0];
      assert s[1..] == x[1..] + "\n" + y;
      CutDirectiveMidLine(x[1..], y, d);
    }
  }

  lemma SpaceRunBefore(ws: string, t: string)
    requires forall j :: 0 <= j < |ws| ==> IsSpace(ws[j])
    requires t != [] && !IsSpace(t[0])
    ensures SpaceRun(ws + t) == |ws|
  {
    var s := ws + t;
    assert s[|ws|] == t[0];
    assert forall j :: 0 <= j < |ws| ==> s[j] == ws[j];
  }

  /**
   A line whose first non-blank text is the keyword is deleted from its
   start (blank lines in front of it included) up to, not including, its
   newline; the following line is again at a line start.
   */
  lemma CutDirectiveDropsLine(ws: string, kw: string, tail: string, rest: string)
    requires ValidDirective(ToLineEnd(kw))
    requires forall j :: 0 <= j < |ws| ==> IsSpace(ws[j])
    requires '\n' !in tail
    ensures CutDirective(ws + kw + tail + "\n" + rest, ToLineEnd(kw), true)
         == "\n" + CutDirective(rest, ToLineEnd(kw), true)
  {
    var d := ToLineEnd(kw);
    var s := ws + kw + tail + "\n" + rest;
    var m := |ws| + |kw| + |tail|;
    LineMatch(ws, kw, tail, rest);
    SuffixAfterLine(ws + kw + tail, rest);
    assert CutDirective(s, d, true) == CutDirective("\n" + rest, d, false);
    CutDirectiveMidLine([], rest, d);
    assert [] + "\n" + rest == "\n" + rest;
  }

  lemma SuffixAfterLine(x: string, rest: string)
    ensures (x + "\n" + rest)[|x|..] == "\n" + rest
  {
  }

  lemma LineMatch(ws: string, kw: string, tail: string, rest: string)
    requires ValidDirective(ToLineEnd(kw))
    requires forall j :: 0 <= j < |ws| ==> IsSpace(ws[j])
    requires '\n' !in tail
    ensures MatchLength(ws + kw + tail + "\n" + rest, ToLineEnd(kw)) == Some(|ws| + |kw| + |tail|)
  {
    var line := kw + tail;
    var s := ws + kw + tail + "\n" + rest;
    assert s == ws + line + "\n" + rest;
    BlankThenLine(ws, line, rest);
    KeywordLine(kw, tail, rest);
    ToLineEndMatch(s, kw);
  }

  lemma KeywordLine(kw: string, tail: string, rest: string)
    requires ValidDirective(ToLineEnd(kw))
    requires '\n' !in tail
    ensures StartsWith(kw + tail + "\n" + rest, kw)
    ensures LineLength(kw + tail + "\n" + rest) == |kw| + |tail|
  {
    var line := kw + tail;
    var r := line + "\n" + rest;
    assert r[..|kw|] == kw;
    assert '\n' !in line;
    LineLengthBefore(line, rest);
  }

  lemma ToLineEndMatch(s: string, kw: string)
    requires ValidDirective(ToLineEnd(kw))
    requires StartsWith(s[SpaceRun(s)..], kw)
    ensures MatchLength(s, ToLineEnd(kw)) == Some(SpaceRun(s) + LineLength(s[SpaceRun(s)..]))
  {
  }

  // ---------------------------------------------------------------------
  // Whole-dialect examples

  /** Blank text in front of a line does not change whether the line matches. */
  lemma MatchAfterBlank(ws: string, t: string, d: Directive)
    requires ValidDirective(d)
    requires forall j :: 0 <= j < |ws| ==> IsSpace(ws[j])
    ensures MatchLength(ws + t, d).None? == MatchLength(t, d).None?
  {
    SpaceRunAfterBlank(ws, t);
  }

  /** A single line that does not match passes through a directive pass, even after blank lines. */
  lemma CutDirectiveKeepsLastLine(ws: string, b: string, d: Directive)
    requires ValidDirective(d)
    requires forall j :: 0 <= j < |ws| ==> IsSpace(ws[j])
    requires '\n' !in b
    requires MatchLength(b, d).None?
    ensures CutDirective(ws + b, d, true) == ws + b
  {
    var s := ws + b;
    forall i | 0 <= i < |s| && LineStartAt(s, i, true)
      ensures MatchLength(s[i..], d).None?
    {
      NoMatchInLastLine(ws, b, d, i);
    }
    CutDirectiveIdentity(s, d, true);
  }

  lemma NoMatchInLastLine(ws: string, b: string, d: Directive, i: nat)
    requires ValidDirective(d)
    requires forall j :: 0 <= j < |ws| ==> IsSpace(ws[j])
    requires '\n' !in b
    requires MatchLength(b, d).None?
    requires i < |ws + b| && LineStartAt(ws + b, i, true)
    ensures MatchLength((ws + b)[i..], d).None?
  {
    var s := ws + b;
    if i <= |ws| {
      assert s[i..] == ws[i..] + b;
      MatchAfterBlank(ws[i..], b, d);
    }
  }

  /** Collapsing text that starts with blanks gives one space, then the text after them. */
  lemma CollapseBlankPrefix(w: string, x: string)
    requires w != [] && forall j :: 0 <= j < |w| ==> IsSpace(w[j])
    ensures CollapseSpaces(w + x) == " " + CollapseSpaces(DropSpaces(x))
  {
    assert (w + x)[0] == w[0];
    SpaceRunAfterBlank(w, x);
  }

  /** Collapsing keeps at most one space from a leading whitespace run. */
  lemma CollapseLead(x: string)
    ensures CollapseSpaces(x) == CollapseSpaces(DropSpaces(x))
         || CollapseSpaces(x) == " " + CollapseSpaces(DropSpaces(x))
  {
  }

  lemma StripLeadingSpace(c: string)
    ensures Strip(" " + c) == Strip(c)
  {
    SpaceRunAfterBlank(" ", c);
  }

  lemma LowerBlank(ws: string, t: string)
    requires forall j :: 0 <= j < |ws| ==> IsSpace(ws[j])
    ensures Lower(ws + t) == Lower(ws) + Lower(t)
    ensures |Lower(ws)| == |ws| && forall j :: 0 <= j < |ws| ==> IsSpace(Lower(ws)[j])
  {
  }

  lemma NormalizeDropsLeadingBlank(ws: string, t: string)
    requires forall j :: 0 <= j < |ws| ==> IsSpace(ws[j])
    ensures NormalizeCode(ws + t) == NormalizeCode(t)
  {
    if ws != [] {
      var lt := Lower(t);
      LowerBlank(ws, t);
      var c := CollapseSpaces(DropSpaces(lt));
      CollapseBlankPrefix(Lower(ws), lt);
      CollapseLead(lt);
      StripLeadingSpace(c);
    } else {
      assert ws + t == t;
    }
  }

  lemma HashCommentFirstLine(c: string, b: string)
    requires '\n' !in c
    requires '\n' !in b && '#' !in b
    ensures CutComments("#" + c + "\n" + b, "#") == "\n" + b
  {
    var y := "#" + c;
    HashAbsent(b);
    CutCommentsOneLine(y, "#");
    CutCommentsPerLine(y, b, "#");
  }

  lemma HashFreeFirstLine(x: string, t: string)
    requires '\n' !in x && '#' !in x
    ensures CutComments(x + "\n" + t, "#") == x + "\n" + CutComments(t, "#")
  {
    HashAbsent(x);
    CutCommentsPerLine(x, t, "#");
  }

  /** A comment line between two comment-free lines is emptied; its newlines stay. */
  lemma HashCommentLine(x: string, c: string, b: string)
    requires '\n' !in x && '#' !in x
    requires '\n' !in c
    requires '\n' !in b && '#' !in b
    ensures CutComments(x + "\n#" + c + "\n" + b, "#") == x + "\n\n" + b
  {
    var tail := "#" + c + "\n" + b;
    HashCommentFirstLine(c, b);
    HashFreeFirstLine(x, tail);
    CommentLineText(x, c, b);
  }

  lemma CommentLineText(x: string, c: string, b: string)
    ensures x + "\n#" + c + "\n" + b == x + "\n" + ("#" + c + "\n" + b)
    ensures x + "\n" + ("\n" + b) == x + "\n\n" + b
  {
    assert "\n#" == "\n" + "#";
    assert "\n\n" == "\n" + "\n";
  }

  lemma PythonImportStep(m: string, b: string)
    requires '\n' !in m
    requires '\n' !in b
    requires MatchLength(b, PyImport).None?
    ensures CutDirective("import " + m + "\n\n" + b, PyImport, true) == "\n\n" + b
  {
    ImportLineText(m, b);
    CutDirectiveDropsLine([], "import ", m, "\n" + b);
    CutDirectiveKeepsLastLine("\n", b, PyImport);
  }

  lemma ImportLineText(m: string, b: string)
    ensures "import " + m + "\n\n" + b == [] + "import " + m + "\n" + ("\n" + b)
    ensures "\n" + ("\n" + b) == "\n\n" + b
  {
    assert "\n\n" == "\n" + "\n";
  }

  /**
   An import line followed by a comment line is dropped entirely: the
   Python dialect maps `"import " + m + "\n#" + c + "\n" + b` to the
   canonical form of the last line `b` alone, whenever `b` is neither a
   comment nor an import of either form.
   */
  lemma PythonDropsImportAndComment(m: string, c: string, b: string)
    requires '\n' !in m && '#' !in m
    requires '\n' !in c
    requires '\n' !in b && '#' !in b
    requires MatchLength(b, PyImport).None? && MatchLength(b, FromImport).None?
    ensures RemovePython("import " + m + "\n#" + c + "\n" + b) == NormalizeCode(b)
  {
    assert '#' !in "import " + m;
    HashCommentLine("import " + m, c, b);
    PythonImportStep(m, b);
    CutDirectiveKeepsLastLine("\n\n", b, FromImport);
    NormalizeDropsLeadingBlank("\n\n", b);
  }

  lemma LineLengthBefore(x: string, y: string)
    requires '\n' !in x
    ensures LineLength(x + "\n" + y) == |x|
  {
    var s := x + "\n" + y;
    assert s[|x|] == '\n';
    assert forall j :: 0 <= j < |x| ==> s[j] == x[j];
  }

  lemma LastSemicolonBefore(mid: string, after: string)
    requires ';' !in after
    ensures PastLastSemicolon(mid + ";" + after) == |mid| + 1
  {
    var s := mid + ";" + after;
    assert s[|mid|] == ';';
    assert forall j :: |mid| < j < |s| ==> s[j] == after[j - |mid| - 1];
  }

  lemma StatementMatch(ws: string, kw: string, mid: string, after: string, rest: string)
    requires ValidDirective(ToLastSemicolon(kw))
    requires forall j :: 0 <= j < |ws| ==> IsSpace(ws[j])
    requires '\n' !in mid
    requires '\n' !in after && ';' !in after
    ensures MatchLength(ws + kw + mid + ";" + after + "\n" + rest, ToLastSemicolon(kw))
         == Some(|ws| + |kw| + |mid| + 1)
  {
    var r := StatementRest(ws, kw, mid, after, rest);
    LastSemicolonBefore(mid, after);
  }

  /** The text after the blank prefix of a statement line, and the line's length. */
  lemma StatementRest(ws: string, kw: string, mid: string, after: string, rest: string) returns (r: string)
    requires ValidDirective(ToLastSemicolon(kw))
    requires forall j :: 0 <= j < |ws| ==> IsSpace(ws[j])
    requires '\n' !in mid
    requires '\n' !in after
    ensures SpaceRun(ws + kw + mid + ";" + after + "\n" + rest) == |ws|
    ensures r == (ws + kw + mid + ";" + after + "\n" + rest)[|ws|..]
    ensures r == kw + mid + ";" + after + "\n" + rest
    ensures StartsWith(r, kw)
    ensures LineLength(r) == |kw + mid + ";" + after|
    ensures r[|kw|..|kw + mid + ";" + after|] == mid + ";" + after
  {
    var line := kw + mid + ";" + after;
    assert ws + kw + mid + ";" + after + "\n" + rest == ws + line + "\n" + rest;
    BlankThenLine(ws, line, rest);
    r := line + "\n" + rest;
    assert '\n' !in line;
    LineLengthBefore(line, rest);
    assert r[|kw|..|line|] == mid + ";" + after;
  }

  /** After a blank prefix, the match is tried on the line that follows it. */
  lemma BlankThenLine(ws: string, line: string, rest: string)
    requires forall j :: 0 <= j < |ws| ==> IsSpace(ws[j])
    requires line != [] && !IsSpace(line[0])
    ensures SpaceRun(ws + line + "\n" + rest) == |ws|
    ensures (ws + line + "\n" + rest)[|ws|..] == line + "\n" + rest
  {
    var s := ws + line + "\n" + rest;
    assert s == ws + (line + "\n" + rest);
    SpaceRunBefore(ws, line + "\n" + rest);
  }

  /**
   A statement line (`using namespace`, Java `import` or `package`) is
   deleted from its start up to and including the LAST `';'` on the line
   (`.*` is greedy); whatever follows that `';'` stays.
   */
  lemma CutDirectiveDropsStatement(ws: string, kw: string, mid: string, after: string, rest: string)
    requires ValidDirective(ToLastSemicolon(kw))
    requires forall j :: 0 <= j < |ws| ==> IsSpace(ws[j])
    requires '\n' !in mid
    requires '\n' !in after && ';' !in after
    ensures CutDirective(ws + kw + mid + ";" + after + "\n" + rest, ToLastSemicolon(kw), true)
         == after + "\n" + CutDirective(rest, ToLastSemicolon(kw), true)
  {
    var d := ToLastSemicolon(kw);
    var s := ws + kw + mid + ";" + after + "\n" + rest;
    var m := |ws| + |kw| + |mid| + 1;
    var tail := after + "\n" + rest;
    assert s == (ws + kw + mid + ";") + tail;
    StatementMatch(ws, kw, mid, after, rest);
    assert s[m..] == tail;
    assert s[m - 1] == ';';
    assert CutDirective(s, d, true) == CutDirective(tail, d, false);
    CutDirectiveMidLine(after, rest, d);
  }

  /** No two adjacent slashes. */
  predicate NoSlashPair(s: string) {
    forall j :: 0 <= j < |s| - 1 ==> !(s[j] == '/' && s[j + 1] == '/')
  }

  lemma NoSlashPairAppend(x: string, y: string)
    requires NoSlashPair(x) && NoSlashPair(y)
    requires x == [] || y == [] || x[|x| - 1] != '/' || y[0] != '/'
    ensures NoSlashPair(x + y)
  {
    var s := x + y;
    forall j | 0 <= j < |s| - 1
      ensures !(s[j] == '/' && s[j + 1] == '/')
    {
      if j + 1 < |x| {
        assert s[j] == x[j] && s[j + 1] == x[j + 1];
      } else if j + 1 == |x| {
        assert s[j] == x[|x| - 1] && s[j + 1] == y[0];
      } else {
        assert s[j] == y[j - |x|] && s[j + 1] == y[j + 1 - |x|];
      }
    }
  }

  lemma NoDoubleSlash(s: string)
    requires NoSlashPair(s)
    ensures CutComments(s, "//") == s
  {
    forall j | 0 <= j < |s|
      ensures !StartsWith(s[j..], "//")
    {
      if j + 1 < |s| {
        assert s[j..][..2] == [s[j], s[j + 1]];
      }
    }
    CutCommentsAbsent(s, "//");
  }

  lemma BlockSlashesSingle(a: string, c: string, b: string)
    requires '/' !in a && '/' !in c && '/' !in b
    ensures CutComments(a + "/*" + c + "*/" + b, "//") == a + "/*" + c + "*/" + b
  {
    var open: string := "/*";
    var close: string := "*/";
    assert NoSlashPair(a) && NoSlashPair(c) && NoSlashPair(b);
    assert NoSlashPair(open) && NoSlashPair(close);
    NoSlashPairAppend(a, open);
    NoSlashPairAppend(a + open, c);
    NoSlashPairAppend(a + open + c, close);
    NoSlashPairAppend(a + open + c + close, b);
    NoDoubleSlash(a + open + c + close + b);
  }

  lemma NoCloserIn(c: string)
    requires '/' !in c
    ensures forall j :: 0 <= j < |c| ==> !StartsWith(c[j..], "*/")
  {
    forall j | 0 <= j < |c|
      ensures !StartsWith(c[j..], "*/")
    {
      if j + 1 < |c| {
        assert c[j..][..2] == [c[j], c[j + 1]];
      }
    }
  }

  lemma CppBlockStep(a: string, c: string, b: string)
    requires '/' !in a && '/' !in c && '/' !in b
    ensures CutBlockComments(CutComments(a + "/*" + c + "*/" + b, "//")) == a + b
  {
    var t := "/*" + c + "*/" + b;
    var s := a + t;
    assert a + "/*" + c + "*/" + b == s;
    BlockSlashesSingle(a, c, b);
    CutBlockKeepsPrefix(a, t);
    NoCloserIn(c);
    CutBlockDropsComment(c, b);
    var e: string := [];
    CutBlockKeepsPrefix(b, e);
    assert b + e == b;
    assert CutBlockComments(e) == e;
  }

  lemma SingleLineUnchanged(b: string, d: Directive)
    requires ValidDirective(d)
    requires '\n' !in b
    requires MatchLength(b, d).None?
    ensures CutDirective(b, d, true) == b
  {
    CutDirectiveKeepsLastLine([], b, d);
    assert [] + b == b;
  }

  /**
   A block comment, newlines and all, disappears from a C++ line:
   `a + "/*" + c + "*/" + b` has the canonical form of `a + b`.
   */
  lemma CppDropsBlockComment(a: string, c: string, b: string)
    requires '/' !in a && '/' !in c && '/' !in b
    requires '\n' !in a + b
    requires MatchLength(a + b, CppInclude).None? && MatchLength(a + b, CppUsingNamespace).None?
    ensures RemoveCpp(a + "/*" + c + "*/" + b) == NormalizeCode(a + b)
  {
    var x := a + b;
    CppBlockStep(a, c, b);
    assert ValidDirective(CppInclude) && ValidDirective(CppUsingNamespace);
    SingleLineUnchanged(x, CppInclude);
    SingleLineUnchanged(x, CppUsingNamespace);
  }

  lemma NoDirectiveAtLetter(s: string, kw: string)
    requires s != [] && kw != [] && !IsSpace(s[0]) && s[0] != kw[0] && !IsSpace(kw[0]) && '\n' !in kw
    ensures MatchLength(s, ToLineEnd(kw)).None? && MatchLength(s, ToLastSemicolon(kw)).None?
  {
    assert SpaceRun(s) == 0;
    assert s[0..] == s;
  }

  lemma CollapseExample()
    ensures CollapseSpaces("a  b") == "a b"
  {
    assert DropSpaces("  b") == "b" by {
      assert "  b"[1..] == " b" && " b"[1..] == "b";
    }
    assert CollapseSpaces("b") == "b" by {
      assert "b"[1..] == [];
    }
    assert CollapseSpaces("  b") == " b";
    assert "a  b"[1..] == "  b";
  }

  lemma StripExample()
    ensures Strip("a b") == "a b"
  {
    assert DropSpaces("a b") == "a b";
    assert TrimEnd("a b") == "a b";
  }

  /** Two spaces between two letters canonicalise to one. */
  lemma NormalizeExample()
    ensures NormalizeCode("a  b") == "a b"
  {
    LowerExample();
    CollapseExample();
    StripExample();
  }

  lemma LowerExample()
    ensures Lower("a  b") == "a  b"
  {
    var s := "a  b";
    assert forall i :: 0 <= i < |s| ==> !IsUpper(s[i]);
  }

  /** A block comment spanning a line break is removed up to its first closer. */
  lemma CppExample()
    ensures RemoveCpp("a /* x\ny */ b") == "a b"
  {
    var a, c, b := "a ", " x\ny ", " b";
    assert a + "/*" + c + "*/" + b == "a /* x\ny */ b";
    assert a + b == "a  b";
    NoDirectiveAtLetter(a + b, "#include");
    NoDirectiveAtLetter(a + b, "using namespace");
    CppDropsBlockComment(a, c, b);
    NormalizeExample();
  }

  lemma NoFromImportAtLetter(s: string)
    requires s != [] && !IsSpace(s[0]) && s[0] != 'f'
    ensures MatchLength(s, FromImport).None?
  {
    assert SpaceRun(s) == 0;
    assert s[0..] == s;
  }

  lemma PrintCanonical(b: string)
    requires b == "print(1)"
    ensures NormalizeCode(b) == b
  {
    assert forall i :: 0 <= i < |b| ==> !IsSpace(b[i]) && !IsUpper(b[i]);
    CanonicalFixed(b);
  }

  /** `print(1)` is neither a comment nor an import line. */
  lemma PrintIsCode(b: string)
    requires b == "print(1)"
    ensures '\n' !in b && '#' !in b
    ensures MatchLength(b, PyImport).None? && MatchLength(b, FromImport).None?
  {
    assert b[0] == 'p' && !IsSpace('p');
    NoDirectiveAtLetter(b, "import ");
    NoFromImportAtLetter(b);
  }

  lemma PythonExampleText(m: string, c: string, b: string)
    requires m == "os" && c == "hi" && b == "print(1)"
    ensures "import " + m + "\n#" + c + "\n" + b == "import os\n#hi\nprint(1)"
    ensures '\n' !in m && '#' !in m && '\n' !in c
  {
  }

  /** The Python pass drops an import line and a comment line and keeps the code after them. */
  lemma PythonExample()
    ensures RemovePython("import os\n#hi\nprint(1)") == "print(1)"
  {
    var m, c, b := "os", "hi", "print(1)";
    PythonExampleText(m, c, b);
    PrintIsCode(b);
    PythonDropsImportAndComment(m, c, b);
    PrintCanonical(b);
  }
}

=== FILE: comparison.dfy ===
/**
 `compare_pair` and `run_parallel_comparison`. The similarity ratio of two
 files is what `difflib.SequenceMatcher.ratio` computes from their
 contents; it is a parameter here, a real number in [0, 1]. Scores are kept
 in integer hundredths of a percent: `round(ratio * 100, 2)` percent is
 `Score(ratio)` hundredths.
 */
module Comparison {
  import opened Text
  import opened Paths
  import opened Pairs

  type Ratio = r: real | 0.0 <= r <= 1.0

  /** One result row: the two base names in argument order and the score in hundredths of a percent. */
  datatype SimilarityRow = SimilarityRow(file1: string, file2: string, score: int)

  const MaxScore := 10000

  /** Python's `round` to an integer: the nearest integer, ties to the even one. */
  function RoundHalfEven(x: real): (n: int)
    ensures -0.5 <= n as real - x <= 0.5
    ensures (n as real - x == 0.5 || x - n as real == 0.5) ==> n % 2 == 0
  {
    var f := x.Floor;
    var d := x - f as real;
    if d < 0.5 then f
    else if d > 0.5 then f + 1
    else if f % 2 == 0 then f
    else f + 1
  }

  /** `round(ratio * 100, 2)`, in hundredths. */
  function Score(ratio: Ratio): (s: int)
    ensures 0 <= s <= MaxScore
    ensures -0.5 <= s as real - ratio * 10000.0 <= 0.5
  {
    RoundHalfEven(ratio * 10000.0)
  }

  /** `compare_pair`: the base names of the two paths, in argument order, and the score. */
  function ComparePair(path1: string, path2: string, ratio: Ratio): (r: SimilarityRow)
    ensures r.file1 == Basename(path1) && r.file2 == Basename(path2)
    ensures r.score == Score(ratio)
    ensures 0 <= r.score <= MaxScore
  {
    SimilarityRow(Basename(path1), Basename(path2), Score(ratio))
  }

  /**
   `run_parallel_comparison`: `compare_pair` over `generate_file_pairs(paths)`,
   one row per pair, in pair order (`starmap` keeps the order). `ratio`
   gives the similarity of the files at two paths.
   */
  function RunComparison(paths: seq<string>, ratio: (string, string) -> Ratio): (r: seq<SimilarityRow>)
    ensures |r| == |paths| * (|paths| - 1) / 2
    ensures forall k :: 0 <= k < |r| ==> 0 <= r[k].score <= MaxScore
  {
    var pairs := Combinations2(paths);
    var r := seq(|pairs|, k requires 0 <= k < |pairs| => ComparePair(pairs[k].0, pairs[k].1, ratio(pairs[k].0, pairs[k].1)));
    assert forall k :: 0 <= k < |r| ==> r[k] == ComparePair(pairs[k].0, pairs[k].1, ratio(pairs[k].0, pairs[k].1));
    r
  }

  // ---------------------------------------------------------------------
  // Lemmas

  /** Rounding never reverses the order of two numbers. */
  lemma RoundMonotone(x: real, y: real)
    requires x <= y
    ensures RoundHalfEven(x) <= RoundHalfEven(y)
  {
    var n := RoundHalfEven(x);
    var m := RoundHalfEven(y);
    assert n <= m + 1;
    assert n == m + 1 ==> n as real - x == 0.5 && y - m as real == 0.5;
  }

  /** A higher ratio never gets a lower score. */
  lemma ScoreMonotone(a: Ratio, b: Ratio)
    requires a <= b
    ensures Score(a) <= Score(b)
  {
    RoundMonotone(a * 10000.0, b * 10000.0);
  }

  /** Identical and wholly different files score 100% and 0%. */
  lemma ScoreExtremes()
    ensures Score(1.0) == MaxScore
    ensures Score(0.0) == 0
  {
  }

  /**
   Row `k` of the comparison compares the paths at the `k`-th index pair
   `(a, b)`, `a < b`, in that order: every pair of distinct positions is
   compared exactly once, earlier position first.
   */
  lemma RunComparisonRows(paths: seq<string>, ratio: (string, string) -> Ratio)
    ensures |RunComparison(paths, ratio)| == |IndexPairs(|paths|)|
    ensures forall k :: 0 <= k < |IndexPairs(|paths|)| ==>
      var (a, b) := IndexPairs(|paths|)[k];
      a < b < |paths|
      && RunComparison(paths, ratio)[k] == ComparePair(paths[a], paths[b], ratio(paths[a], paths[b]))
  {
    CombinationsAreIndexPairs(paths);
  }

  /** Comparing two files of one directory reports their plain names. */
  lemma ComparePairNames(dir: string, name1: string, name2: string, ratio: Ratio)
    requires '/' !in name1 && '/' !in name2
    ensures ComparePair(Join(dir, name1), Join(dir, name2), ratio).file1 == name1
    ensures ComparePair(Join(dir, name1), Join(dir, name2), ratio).file2 == name2
  {
    BasenameOfJoin(dir, name1);
    BasenameOfJoin(dir, name2);
  }
}

=== FILE: dashboard.dfy ===
/**
 The pipeline of `process_uploaded_files`: validate and store the upload
 batch, preprocess the upload directory, keep the successful outputs, and
 compare them pairwise. The directory listing the preprocessing driver
 sees, the file contents and the similarity ratio are parameters; saving
 the CSV, progress reporting and timing are not modelled.

 The upload check and the driver disagree on which names are source
 files: the upload accepts `.cc` and `.cxx` and any capitalisation of an
 accepted suffix, while the driver admits exactly `.py`, `.cpp`, `.java`
 and `.h`. The lemmas at the end show what happens to such files.
 */
module Dashboard {
  import opened Text
  import opened Paths
  import opened Pairs
  import opened Comparison
  import opened Preprocessing
  import opened Uploads

  /** `total_pairs`: the number of pairs the comparison should produce for `n` files. */
  function TotalPairs(n: nat): (p: nat)
    ensures p == |IndexPairs(n)|
  {
    PairsFromCount(0, n);
    n * (n - 1) / 2
  }

  /** A preprocessing result names a written file `p` (`if out_path`: a non-empty path). */
  predicate Written(r: Preprocessed, p: string) {
    r.output.Some? && r.output.value.path == p && p != []
  }

  /** `[out_path for _, out_path in preprocessed_files if out_path]`. */
  function SuccessfulOutputs(results: seq<Preprocessed>): (outs: seq<string>)
    ensures |outs| <= |results|
    ensures forall p :: p in outs <==> exists i :: 0 <= i < |results| && Written(results[i], p)
  {
    if results == [] then []
    else
      var rest := SuccessfulOutputs(results[1..]);
      assert forall i :: 1 <= i < |results| ==> results[i] == results[1..][i - 1];
      var r := results[0];
      (if r.output.Some? && r.output.value.path != [] then [r.output.value.path] else []) + rest
  }

  /**
   The comprehension keeps the results' order: two result lists end to end
   give their outputs end to end.
   */
  lemma {:induction false} SuccessfulOutputsAppend(a: seq<Preprocessed>, b: seq<Preprocessed>)
    ensures SuccessfulOutputs(a + b) == SuccessfulOutputs(a) + SuccessfulOutputs(b)
  {
    if a != [] {
      var rest := a[1..];
      assert (a + b)[0] == a[0];
      assert (a + b)[1..] == rest + b;
      SuccessfulOutputsAppend(rest, b);
    } else {
      assert a + b == b;
    }
  }

  /** A single result gives its path exactly when it names a written file. */
  lemma SuccessfulOutputsOne(r: Preprocessed)
    ensures SuccessfulOutputs([r]) == if r.output.Some? && r.output.value.path != [] then [r.output.value.path] else []
  {
    assert [r][1..] == [];
  }

  /** The files the preprocessing of a listing writes and the driver passes on. */
  function PreprocessedOutputs(listing: seq<string>, read: string -> Option<string>, writable: string -> bool)
    : (outs: seq<string>)
    ensures |outs| <= |AdmittedFiles(listing)|
    ensures forall p :: p in outs <==>
      exists i :: 0 <= i < |RunPreprocessing(listing, read, writable)| && Written(RunPreprocessing(listing, read, writable)[i], p)
  {
    SuccessfulOutputs(RunPreprocessing(listing, read, writable))
  }

  /** How a run of `process_uploaded_files` ends. */
  datatype RunOutcome =
    | Stopped(why: Rejection)
    | NothingPreprocessed
    | Compared(outputs: seq<string>, rows: seq<SimilarityRow>)

  /** The names the upload loop stores the batch under. */
  function StoredNames(files: seq<Upload>): (names: seq<string>)
    ensures |names| == |files|
    ensures forall i :: 0 <= i < |files| ==> names[i] == SafeName(files[i].name) && '/' !in names[i]
  {
    seq(|files|, i requires 0 <= i < |files| => SafeName(files[i].name))
  }

  /**
   `process_uploaded_files` up to the comparison. `listing` is what the
   upload directory holds when the driver lists it (the stored names, and
   whatever earlier runs left there). A rejected batch stops before
   anything else; a run without one usable preprocessed file stops after
   preprocessing; otherwise every pair of outputs is compared, and the
   number of rows is always `total_pairs`, so the "fewer results" branch
   after the comparison is never taken.
   */
  function ProcessUploadedFiles(
    files: seq<Upload>, listing: seq<string>,
    read: string -> Option<string>, writable: string -> bool, ratio: (string, string) -> Ratio)
    : (o: RunOutcome)
    ensures files == [] ==> o == Stopped(NoFiles)
    ensures o.Stopped? <==> ProcessUploads(files).Rejected?
    ensures o.Stopped? ==> o.why == ProcessUploads(files).why
    ensures !o.Stopped? ==> files != [] && Validate(files).None?
    ensures o.NothingPreprocessed? <==> !o.Stopped? && PreprocessedOutputs(listing, read, writable) == []
    ensures o.Compared? ==>
      && o.outputs == PreprocessedOutputs(listing, read, writable)
      && o.outputs != []
      && o.rows == RunComparison(o.outputs, ratio)
      && |o.rows| == TotalPairs(|o.outputs|)
  {
    match ProcessUploads(files)
    case Rejected(why) => Stopped(why)
    case Saved(_) =>
      var outs := PreprocessedOutputs(listing, read, writable);
      if outs == [] then NothingPreprocessed
      else
        var rows := RunComparison(outs, ratio);
        assert |rows| == TotalPairs(|outs|) by {
          PairsFromCount(0, |outs|);
        }
        Compared(outs, rows)
  }

  // ---------------------------------------------------------------------
  // Names that pass the upload check but not the driver's filter

  lemma SuffixOfStemTail(stem: string, tail: string)
    requires stem != [] && tail != [] && '.' !in stem && '.' !in tail
    ensures Suffix(stem + "." + tail) == "." + tail
  {
    var n := stem + "." + tail;
    assert n == stem + ['.'] + tail;
    LastIndexOfAt(stem, '.', tail);
    assert n[|stem|..] == "." + tail;
  }

  lemma OneDot(stem: string, tail: string)
    requires '.' !in stem && '.' !in tail
    ensures !Contains(stem + "." + tail, "..")
  {
    var n := stem + "." + tail;
    forall j | 0 <= j <= |n|
      ensures !StartsWith(n[j..], "..")
    {
      if j + 1 < |n| {
        assert n[j..][..2] == [n[j], n[j + 1]];
        assert n[j] == '.' ==> j == |stem|;
        assert n[j + 1] == '.' ==> j + 1 == |stem|;
      }
    }
  }

  /** The name `stem.tail` of an upload, for a stem and tail without dots or separators. */
  predicate PlainParts(stem: string, tail: string) {
    && stem != [] && tail != []
    && '.' !in stem && '/' !in stem && '\\' !in stem
    && '.' !in tail && '/' !in tail && '\\' !in tail
  }

  lemma PlainNameStored(stem: string, tail: string)
    requires PlainParts(stem, tail)
    ensures SafeName(stem + "." + tail) == stem + "." + tail
  {
    var n := stem + "." + tail;
    assert n[0] == stem[0];
    assert '/' !in n && '\\' !in n;
    OneDot(stem, tail);
    SafeNameKeepsPlainName(n);
  }

  lemma PlainNameType(stem: string, tail: string, bytes: seq<bv8>)
    requires PlainParts(stem, tail)
    ensures TypeOk(Upload(stem + "." + tail, bytes)) <==> Lower("." + tail) in ValidExtensions
  {
    var n := stem + "." + tail;
    assert n[0] == stem[0];
    assert '/' !in n;
    PathNamePlain(n);
    SuffixOfStemTail(stem, tail);
  }

  lemma EndsWithTail(stem: string, tail: string)
    ensures EndsWith(stem + "." + tail, "." + tail)
  {
    var n := stem + "." + tail;
    assert n[|n| - |tail| - 1..] == "." + tail;
  }

  lemma TailAdmitted(stem: string, tail: string)
    requires tail in ["py", "cpp", "java", "h"]
    ensures Admitted(stem + "." + tail)
  {
    EndsWithTail(stem, tail);
    if tail == "py" {
      assert "." + tail == ".py";
    } else if tail == "cpp" {
      assert "." + tail == ".cpp";
    } else if tail == "java" {
      assert "." + tail == ".java";
    } else {
      assert "." + tail == ".h";
    }
  }

  lemma PlainNameAdmitted(stem: string, tail: string)
    requires PlainParts(stem, tail)
    ensures Admitted(stem + "." + tail) <==> tail in ["py", "cpp", "java", "h"]
  {
    if Admitted(stem + "." + tail) {
      AdmittedTail(stem, tail);
    }
    if tail in ["py", "cpp", "java", "h"] {
      TailAdmitted(stem, tail);
    }
  }

  /**
   An upload named `stem.tail` is stored under that very name; it passes
   the type check exactly when its lower-cased suffix is supported, and the
   driver admits it exactly when the suffix is one of the four it lists,
   written in lower case.
   */
  lemma UploadAndDriverChecks(stem: string, tail: string, bytes: seq<bv8>)
    requires PlainParts(stem, tail)
    ensures SafeName(stem + "." + tail) == stem + "." + tail
    ensures TypeOk(Upload(stem + "." + tail, bytes)) <==> Lower("." + tail) in ValidExtensions
    ensures Admitted(stem + "." + tail) <==> tail in ["py", "cpp", "java", "h"]
  {
    PlainNameStored(stem, tail);
    PlainNameType(stem, tail, bytes);
    PlainNameAdmitted(stem, tail);
  }

  /** `.cc`, `.cxx` and an upper-case `.PY` pass the upload check, yet the driver admits none of them. */
  lemma MismatchedSuffixes()
    ensures Lower(".cc") in ValidExtensions && Lower(".cxx") in ValidExtensions && Lower(".PY") in ValidExtensions
    ensures "cc" !in ["py", "cpp", "java", "h"] && "cxx" !in ["py", "cpp", "java", "h"] && "PY" !in ["py", "cpp", "java", "h"]
  {
    assert Lower(".cc") == ".cc";
    assert Lower(".cxx") == ".cxx";
    assert Lower(".PY") == ".py";
  }

  /** A listing none of whose names the driver admits gives no usable output. */
  lemma NoneAdmittedNoOutputs(listing: seq<string>, read: string -> Option<string>, writable: string -> bool)
    requires forall i :: 0 <= i < |listing| ==> !Admitted(listing[i])
    ensures SuccessfulOutputs(RunPreprocessing(listing, read, writable)) == []
  {
    var results := RunPreprocessing(listing, read, writable);
    assert results == [];
  }

  /**
   A batch whose files all carry one suffix the upload accepts and the
   driver does not list (such as `.cc`, `.cxx` or `.PY`) is accepted and
   stored, and then the run stops because nothing was preprocessed, when
   the upload directory holds only this batch. The directory is cleared
   only from the sidebar, so admitted files left by an earlier run would
   still be preprocessed and the run would go on.
   */
  lemma MismatchedBatchStops(
    stems: seq<string>, tail: string, files: seq<Upload>,
    read: string -> Option<string>, writable: string -> bool, ratio: (string, string) -> Ratio)
    requires files != [] && |stems| == |files|
    requires forall i :: 0 <= i < |files| ==> PlainParts(stems[i], tail) && files[i].name == stems[i] + "." + tail
    requires forall i :: 0 <= i < |files| ==> SizeOk(files[i])
    requires Lower("." + tail) in ValidExtensions && tail !in ["py", "cpp", "java", "h"]
    ensures ProcessUploads(files).Saved?
    ensures ProcessUploadedFiles(files, StoredNames(files), read, writable, ratio) == NothingPreprocessed
  {
    var names := StoredNames(files);
    forall i | 0 <= i < |files|
      ensures TypeOk(files[i]) && !Admitted(names[i])
    {
      UploadAndDriverChecks(stems[i], tail, files[i].bytes);
      assert files[i] == Upload(stems[i] + "." + tail, files[i].bytes);
    }
    NoneAdmittedNoOutputs(names, read, writable);
  }
}

=== FILE: highlight.dfy ===
/**
 The span builder of `highlight_matching_text`: the matching blocks of two
 texts (what `SequenceMatcher.get_matching_blocks` returns, a parameter
 here) cut each text into unmatched slices and matched slices, and every
 matched slice is wrapped in a highlighting `<span>`.

 As written, the function never reaches the builder: it unpacks six values
 from `compare_pair`, which returns three, so it always returns the error
 text of its `except` branch (`HighlightAsWritten`). `Highlight` is the
 builder the function evidently intends.
 */
module Highlight {
  import opened Text
  import opened Comparison

  /** A difflib match: `a[i..i+size]` equals `b[j..j+size]`. */
  datatype Block = Block(a: nat, b: nat, size: nat)

  /** One piece of a highlighted text: an unmatched slice, or a matched one to wrap. */
  datatype Piece = Plain(text: string) | Marked(text: string)

  const SpanOpen := "<span style=\"background-color: #FFFF99;\">"
  const SpanClose := "</span>"

  /** Python's `s[i:j]` for non-negative bounds: both are clamped to the length. */
  function Slice(s: string, i: nat, j: nat): (r: string)
    ensures i <= j <= |s| ==> r == s[i..j]
    ensures j <= i ==> r == []
    ensures |r| <= |s|
  {
    var lo := if i < |s| then i else |s|;
    var hi := if j < |s| then j else |s|;
    if lo < hi then s[lo..hi] else []
  }

  /** The concatenated texts of the pieces, markup left out. */
  function Texts(ps: seq<Piece>): string {
    if ps == [] then [] else Texts(ps[..|ps| - 1]) + ps[|ps| - 1].text
  }

  /** `"".join(highlighted)`: the pieces with every matched one wrapped. */
  function Render(ps: seq<Piece>): string {
    if ps == [] then []
    else
      var p := ps[|ps| - 1];
      Render(ps[..|ps| - 1]) + (if p.Marked? then SpanOpen + p.text + SpanClose else p.text)
  }

  /** The number of pieces that are highlighted. */
  function MarkedCount(ps: seq<Piece>): nat {
    if ps == [] then 0 else MarkedCount(ps[..|ps| - 1]) + (if ps[|ps| - 1].Marked? then 1 else 0)
  }

  /** The texts of the highlighted pieces, in order. */
  function MarkedTexts(ps: seq<Piece>): seq<string> {
    if ps == [] then []
    else MarkedTexts(ps[..|ps| - 1]) + (if ps[|ps| - 1].Marked? then [ps[|ps| - 1].text] else [])
  }

  /** The highlighted slice `content[a:a + size]` of one block, if it has positive size. */
  function BlockText(content: string, run: (nat, nat)): seq<string> {
    if run.1 > 0 then [Slice(content, run.0, run.0 + run.1)] else []
  }

  /** The slice of every block of positive size, in block order. */
  function BlockTexts(content: string, runs: seq<(nat, nat)>): seq<string> {
    if runs == [] then [] else BlockTexts(content, runs[..|runs| - 1]) + BlockText(content, runs[|runs| - 1])
  }

  /** Where each highlighted piece starts in the text the pieces spell out, in order. */
  function MarkedStarts(ps: seq<Piece>): seq<nat> {
    if ps == [] then []
    else
      var init := ps[..|ps| - 1];
      MarkedStarts(init) + (if ps[|ps| - 1].Marked? then [|Texts(init)|] else [])
  }

  /** The start `a` of every block of positive size, in block order. */
  function BlockStarts(runs: seq<(nat, nat)>): seq<nat> {
    if runs == [] then []
    else BlockStarts(runs[..|runs| - 1]) + (if runs[|runs| - 1].1 > 0 then [runs[|runs| - 1].0] else [])
  }

  /** The number of blocks of positive size. */
  function PositiveCount(runs: seq<(nat, nat)>): nat {
    if runs == [] then 0 else PositiveCount(runs[..|runs| - 1]) + (if runs[|runs| - 1].1 > 0 then 1 else 0)
  }

  /** Blocks lie inside the text, in ascending order, without overlapping. */
  predicate WellFormed(content: string, runs: seq<(nat, nat)>) {
    && (forall k :: 0 <= k < |runs| ==> runs[k].0 + runs[k].1 <= |content|)
    && (forall k, l :: 0 <= k < l < |runs| ==> runs[k].0 + runs[k].1 <= runs[l].0)
  }

  lemma {:induction false} TextsConcat(ps: seq<Piece>, qs: seq<Piece>)
    ensures Texts(ps + qs) == Texts(ps) + Texts(qs)
    decreases |qs|
  {
    if qs == [] {
      assert ps + qs == ps;
    } else {
      var init := qs[..|qs| - 1];
      TextsConcat(ps, init);
      assert (ps + qs)[..|ps + qs| - 1] == ps + init;
    }
  }

  lemma {:induction false} MarkedCountConcat(ps: seq<Piece>, qs: seq<Piece>)
    ensures MarkedCount(ps + qs) == MarkedCount(ps) + MarkedCount(qs)
    decreases |qs|
  {
    if qs == [] {
      assert ps + qs == ps;
    } else {
      var init := qs[..|qs| - 1];
      MarkedCountConcat(ps, init);
      assert (ps + qs)[..|ps + qs| - 1] == ps + init;
    }
  }

  lemma {:induction false} MarkedTextsConcat(ps: seq<Piece>, qs: seq<Piece>)
    ensures MarkedTexts(ps + qs) == MarkedTexts(ps) + MarkedTexts(qs)
    decreases |qs|
  {
    if qs == [] {
      assert ps + qs == ps;
    } else {
      var init := qs[..|qs| - 1];
      MarkedTextsConcat(ps, init);
      assert (ps + qs)[..|ps + qs| - 1] == ps + init;
    }
  }

  /** The unmatched slice from `pos` to `a`, if it is not empty. */
  function Gap(content: string, pos: nat, a: nat): seq<Piece> {
    if pos < a then [Plain(Slice(content, pos, a))] else []
  }

  /** The matched slice of `size` characters at `a`, if it is not empty. */
  function Match(content: string, a: nat, size: nat): seq<Piece> {
    if size > 0 then [Marked(Slice(content, a, a + size))] else []
  }

  /** The pieces one block adds: the unmatched slice before it, then the block itself. */
  function Step(content: string, pos: nat, a: nat, size: nat): seq<Piece> {
    Gap(content, pos, a) + Match(content, a, size)
  }

  lemma StepMarked(content: string, pos: nat, a: nat, size: nat)
    ensures MarkedCount(Step(content, pos, a, size)) == if size > 0 then 1 else 0
  {
    var u := Gap(content, pos, a);
    var m := Match(content, a, size);
    MarkedCountConcat(u, m);
    assert MarkedCount(u) == 0 by {
      if pos < a {
        assert u[..0] == [];
      }
    }
    if size > 0 {
      assert m[..0] == [];
    }
  }

  lemma StepMarkedTexts(content: string, pos: nat, a: nat, size: nat)
    ensures MarkedTexts(Step(content, pos, a, size)) == BlockText(content, (a, size))
  {
    var u := Gap(content, pos, a);
    var m := Match(content, a, size);
    MarkedTextsConcat(u, m);
    assert MarkedTexts(u) == [] by {
      if pos < a {
        assert u[..0] == [];
      }
    }
    if size > 0 {
      assert m[..0] == [];
    }
  }

  lemma TextsSingle(p: Piece)
    ensures Texts([p]) == p.text
  {
    assert [p][..0] == [];
  }

  lemma GapTexts(content: string, pos: nat, a: nat)
    requires pos <= a <= |content|
    ensures Texts(Gap(content, pos, a)) == content[pos..a]
  {
    TextsSingle(Plain(Slice(content, pos, a)));
  }

  lemma MatchTexts(content: string, a: nat, size: nat)
    requires a + size <= |content|
    ensures Texts(Match(content, a, size)) == content[a..a + size]
  {
    TextsSingle(Marked(Slice(content, a, a + size)));
  }

  lemma StepTexts(content: string, pos: nat, a: nat, size: nat)
    requires pos <= a && a + size <= |content|
    ensures Texts(Step(content, pos, a, size)) == content[pos..a + size]
  {
    GapTexts(content, pos, a);
    MatchTexts(content, a, size);
    SliceSplit(content, pos, a, a + size);
    ConcatTexts(Gap(content, pos, a), Match(content, a, size), content[pos..a], content[a..a + size]);
  }

  lemma ConcatTexts(ps: seq<Piece>, qs: seq<Piece>, x: string, y: string)
    requires Texts(ps) == x && Texts(qs) == y
    ensures Texts(ps + qs) == x + y
  {
    TextsConcat(ps, qs);
  }

  lemma SliceSplit(s: string, i: nat, j: nat, k: nat)
    requires i <= j <= k <= |s|
    ensures s[i..k] == s[i..j] + s[j..k]
  {
  }

  /** The piece after the last block: the rest of the text, if any. */
  function Tail(content: string, pos: nat): seq<Piece> {
    if pos < |content| then [Plain(Slice(content, pos, |content|))] else []
  }

  lemma SliceJoin(s: string, i: nat, j: nat, k: nat)
    requires i <= j <= k <= |s|
    ensures s[..i] + s[i..k] == s[..k]
  {
  }

  lemma AdvanceTexts(content: string, pieces: seq<Piece>, pos: nat, a: nat, size: nat)
    requires pos <= a && a + size <= |content|
    requires Texts(pieces) == content[..pos]
    ensures Texts(pieces + Step(content, pos, a, size)) == content[..a + size]
  {
    var step := Step(content, pos, a, size);
    TextsConcat(pieces, step);
    StepTexts(content, pos, a, size);
    SliceJoin(content, pos, a, a + size);
  }

  lemma AdvanceCount(content: string, pieces: seq<Piece>, pos: nat, runs: seq<(nat, nat)>, i: nat)
    requires i < |runs|
    requires MarkedCount(pieces) == PositiveCount(runs[..i])
    ensures MarkedCount(pieces + Step(content, pos, runs[i].0, runs[i].1)) == PositiveCount(runs[..i + 1])
  {
    StepMarked(content, pos, runs[i].0, runs[i].1);
    MarkedCountConcat(pieces, Step(content, pos, runs[i].0, runs[i].1));
    assert runs[..i + 1][..i] == runs[..i];
  }

  lemma MarkedStartsSnoc(ps: seq<Piece>, p: Piece)
    ensures MarkedStarts(ps + [p]) == MarkedStarts(ps) + (if p.Marked? then [|Texts(ps)|] else [])
  {
    assert (ps + [p])[..|ps|] == ps;
  }

  lemma TextsSnoc(ps: seq<Piece>, p: Piece)
    ensures Texts(ps + [p]) == Texts(ps) + p.text
  {
    assert (ps + [p])[..|ps|] == ps;
  }

  /** An unmatched slice adds no highlighted piece, and brings the text up to the block. */
  lemma GapStarts(content: string, pieces: seq<Piece>, pos: nat, a: nat)
    requires pos <= a <= |content| && Texts(pieces) == content[..pos]
    ensures MarkedStarts(pieces + Gap(content, pos, a)) == MarkedStarts(pieces)
    ensures Texts(pieces + Gap(content, pos, a)) == content[..a]
  {
    if pos < a {
      MarkedStartsSnoc(pieces, Plain(Slice(content, pos, a)));
      TextsSnoc(pieces, Plain(Slice(content, pos, a)));
      SliceJoin(content, pos, pos, a);
    } else {
      assert pieces + Gap(content, pos, a) == pieces;
    }
  }

  /** A matched slice starts where the text so far ends. */
  lemma MatchStarts(content: string, pieces: seq<Piece>, a: nat, size: nat)
    ensures MarkedStarts(pieces + Match(content, a, size))
         == MarkedStarts(pieces) + (if size > 0 then [|Texts(pieces)|] else [])
  {
    if size > 0 {
      MarkedStartsSnoc(pieces, Marked(Slice(content, a, a + size)));
    } else {
      assert pieces + Match(content, a, size) == pieces;
    }
  }

  lemma BlockStartsNext(runs: seq<(nat, nat)>, i: nat)
    requires i < |runs|
    ensures BlockStarts(runs[..i + 1]) == BlockStarts(runs[..i]) + (if runs[i].1 > 0 then [runs[i].0] else [])
  {
    assert runs[..i + 1][..i] == runs[..i];
  }

  lemma AdvanceStarts(content: string, pieces: seq<Piece>, pos: nat, runs: seq<(nat, nat)>, i: nat)
    requires i < |runs| && pos <= runs[i].0 && runs[i].0 + runs[i].1 <= |content|
    requires Texts(pieces) == content[..pos]
    requires MarkedStarts(pieces) == BlockStarts(runs[..i])
    ensures MarkedStarts(pieces + Step(content, pos, runs[i].0, runs[i].1)) == BlockStarts(runs[..i + 1])
  {
    var (a, size) := runs[i];
    var g := pieces + Gap(content, pos, a);
    assert pieces + Step(content, pos, a, size) == g + Match(content, a, size);
    GapStarts(content, pieces, pos, a);
    MatchStarts(content, g, a, size);
    BlockStartsNext(runs, i);
  }

  lemma FinishStarts(content: string, pieces: seq<Piece>, pos: nat)
    ensures MarkedStarts(pieces + Tail(content, pos)) == MarkedStarts(pieces)
  {
    if pos < |content| {
      MarkedStartsSnoc(pieces, Plain(Slice(content, pos, |content|)));
    } else {
      assert pieces + Tail(content, pos) == pieces;
    }
  }

  lemma AdvanceMarked(content: string, pieces: seq<Piece>, pos: nat, runs: seq<(nat, nat)>, i: nat)
    requires i < |runs|
    requires MarkedTexts(pieces) == BlockTexts(content, runs[..i])
    ensures MarkedTexts(pieces + Step(content, pos, runs[i].0, runs[i].1)) == BlockTexts(content, runs[..i + 1])
  {
    var step := Step(content, pos, runs[i].0, runs[i].1);
    StepMarkedTexts(content, pos, runs[i].0, runs[i].1);
    MarkedTextsConcat(pieces, step);
    BlockTextsNext(content, runs, i);
  }

  lemma BlockTextsNext(content: string, runs: seq<(nat, nat)>, i: nat)
    requires i < |runs|
    ensures BlockTexts(content, runs[..i + 1]) == BlockTexts(content, runs[..i]) + BlockText(content, runs[i])
  {
    assert runs[..i + 1][..i] == runs[..i];
  }

  lemma FinishTexts(content: string, pieces: seq<Piece>, pos: nat)
    requires pos <= |content| && Texts(pieces) == content[..pos]
    ensures Texts(pieces + Tail(content, pos)) == content
  {
    TextsConcat(pieces, Tail(content, pos));
    if pos < |content| {
      TextsSingle(Plain(Slice(content, pos, |content|)));
      assert content == content[..pos] + content[pos..];
    } else {
      assert content[..pos] == content;
    }
  }

  lemma FinishCount(content: string, pieces: seq<Piece>, pos: nat)
    ensures MarkedCount(pieces + Tail(content, pos)) == MarkedCount(pieces)
  {
    MarkedCountConcat(pieces, Tail(content, pos));
    if pos < |content| {
      assert Tail(content, pos)[..0] == [];
    }
  }

  lemma FinishMarked(content: string, pieces: seq<Piece>, pos: nat)
    ensures MarkedTexts(pieces + Tail(content, pos)) == MarkedTexts(pieces)
  {
    MarkedTextsConcat(pieces, Tail(content, pos));
    if pos < |content| {
      assert Tail(content, pos)[..0] == [];
    }
  }

  /** A well-formed block ends inside the text and before every later block starts. */
  lemma NextBlock(content: string, runs: seq<(nat, nat)>, i: nat)
    requires WellFormed(content, runs) && i < |runs|
    ensures runs[i].0 + runs[i].1 <= |content|
    ensures forall l :: i < l < |runs| ==> runs[i].0 + runs[i].1 <= runs[l].0
  {
  }

  /** What the span loop knows after `i` blocks, having reached position `pos`. */
  predicate SideInv(content: string, runs: seq<(nat, nat)>, pieces: seq<Piece>, pos: nat, i: nat) {
    && i <= |runs|
    && MarkedCount(pieces) == PositiveCount(runs[..i])
    && MarkedTexts(pieces) == BlockTexts(content, runs[..i])
    && (WellFormed(content, runs) ==>
          && pos <= |content|
          && Texts(pieces) == content[..pos]
          && MarkedStarts(pieces) == BlockStarts(runs[..i])
          && forall l :: i <= l < |runs| ==> pos <= runs[l].0)
  }

  lemma Advance(content: string, runs: seq<(nat, nat)>, pieces: seq<Piece>, pos: nat, i: nat)
    requires SideInv(content, runs, pieces, pos, i) && i < |runs|
    ensures SideInv(content, runs, pieces + Step(content, pos, runs[i].0, runs[i].1), runs[i].0 + runs[i].1, i + 1)
  {
    var (a, size) := runs[i];
    AdvanceCount(content, pieces, pos, runs, i);
    AdvanceMarked(content, pieces, pos, runs, i);
    if WellFormed(content, runs) {
      NextBlock(content, runs, i);
      AdvanceTexts(content, pieces, pos, a, size);
      AdvanceStarts(content, pieces, pos, runs, i);
    }
  }

  lemma Finish(content: string, runs: seq<(nat, nat)>, pieces: seq<Piece>, pos: nat)
    requires SideInv(content, runs, pieces, pos, |runs|)
    ensures WellFormed(content, runs) ==> Texts(pieces + Tail(content, pos)) == content
    ensures MarkedCount(pieces + Tail(content, pos)) == PositiveCount(runs)
    ensures MarkedTexts(pieces + Tail(content, pos)) == BlockTexts(content, runs)
    ensures WellFormed(content, runs) ==> MarkedStarts(pieces + Tail(content, pos)) == BlockStarts(runs)
  {
    FinishStarts(content, pieces, pos);
    assert runs[..|runs|] == runs;
    FinishCount(content, pieces, pos);
    FinishMarked(content, pieces, pos);
    if WellFormed(content, runs) {
      FinishTexts(content, pieces, pos);
    }
  }

  /**
   One side of the span loop: `runs[k]` is the start and size of block `k`
   in this side's text. With well-formed blocks the pieces spell out the
   text exactly; in any case one highlighted piece is made per block of
   positive size, and the highlighted pieces are the blocks' slices of the
   text, in block order; with well-formed blocks each highlighted piece
   sits at its block's start.
   */
  method Side(content: string, runs: seq<(nat, nat)>) returns (pieces: seq<Piece>)
    ensures WellFormed(content, runs) ==> Texts(pieces) == content
    ensures MarkedCount(pieces) == PositiveCount(runs)
    ensures MarkedTexts(pieces) == BlockTexts(content, runs)
    ensures WellFormed(content, runs) ==> MarkedStarts(pieces) == BlockStarts(runs)
  {
    pieces := [];
    var pos: nat := 0;
    var i := 0;
    while i < |runs|
      invariant SideInv(content, runs, pieces, pos, i)
    {
      Advance(content, runs, pieces, pos, i);
      var (a, size) := runs[i];
      pieces := pieces + Step(content, pos, a, size);
      pos := a + size;
      i := i + 1;
    }
    Finish(content, runs, pieces, pos);
    pieces := pieces + Tail(content, pos);
  }

  /** `highlight_matching_text` as intended: both highlighted texts. */
  method Highlight(content1: string, content2: string, blocks: seq<Block>) returns (h1: string, h2: string, pieces1: seq<Piece>, pieces2: seq<Piece>)
    ensures h1 == Render(pieces1) && h2 == Render(pieces2)
    ensures WellFormed(content1, Runs1(blocks)) ==> Texts(pieces1) == content1
    ensures WellFormed(content2, Runs2(blocks)) ==> Texts(pieces2) == content2
    ensures MarkedCount(pieces1) == MarkedCount(pieces2) == PositiveCount(Runs1(blocks))
    ensures MarkedTexts(pieces1) == BlockTexts(content1, Runs1(blocks))
    ensures MarkedTexts(pieces2) == BlockTexts(content2, Runs2(blocks))
    ensures WellFormed(content1, Runs1(blocks)) ==> MarkedStarts(pieces1) == BlockStarts(Runs1(blocks))
    ensures WellFormed(content2, Runs2(blocks)) ==> MarkedStarts(pieces2) == BlockStarts(Runs2(blocks))
  {
    PositiveCountSizes(blocks);
    pieces1 := Side(content1, Runs1(blocks));
    pieces2 := Side(content2, Runs2(blocks));
    h1 := Render(pieces1);
    h2 := Render(pieces2);
  }

  /** The first text's start and size of every block. */
  function Runs1(blocks: seq<Block>): (r: seq<(nat, nat)>)
    ensures |r| == |blocks|
    ensures forall k :: 0 <= k < |blocks| ==> r[k] == (blocks[k].a, blocks[k].size)
  {
    seq(|blocks|, k requires 0 <= k < |blocks| => (blocks[k].a, blocks[k].size))
  }

  /** The second text's start and size of every block. */
  function Runs2(blocks: seq<Block>): (r: seq<(nat, nat)>)
    ensures |r| == |blocks|
    ensures forall k :: 0 <= k < |blocks| ==> r[k] == (blocks[k].b, blocks[k].size)
  {
    seq(|blocks|, k requires 0 <= k < |blocks| => (blocks[k].b, blocks[k].size))
  }

  lemma {:induction false} PositiveCountSizes(blocks: seq<Block>)
    ensures PositiveCount(Runs1(blocks)) == PositiveCount(Runs2(blocks))
  {
    if blocks != [] {
      var init := blocks[..|blocks| - 1];
      PositiveCountSizes(init);
      assert Runs1(blocks)[..|blocks| - 1] == Runs1(init);
      assert Runs2(blocks)[..|blocks| - 1] == Runs2(init);
    }
  }

  // ---------------------------------------------------------------------
  // The function as written

  const ErrorPrefix := "Error comparing files: "

  /** The message of the `ValueError` raised by unpacking `got` values into `expected` names. */
  function UnpackMessage(expected: nat, got: nat): string
    requires got != expected
  {
    if got < expected then
      "not enough values to unpack (expected " + NatToString(expected) + ", got " + NatToString(got) + ")"
    else
      "too many values to unpack (expected " + NatToString(expected) + ")"
  }

  /** Three values unpacked into six names: CPython's message says so. */
  lemma UnpackSixFromThree()
    ensures UnpackMessage(UnpackedArity, CompareArity) == "not enough values to unpack (expected 6, got 3)"
  {
    assert NatToString(6) == "6";
    assert NatToString(3) == "3";
  }

  /** Decimal digits of a natural number. */
  function NatToString(n: nat): (s: string)
    ensures |s| > 0
    ensures forall i :: 0 <= i < |s| ==> '0' <= s[i] <= '9'
    decreases n
  {
    var d := ['0' + (n % 10) as char];
    if n < 10 then d else NatToString(n / 10) + d
  }

  /** The number of values `compare_pair` returns: two names and a score. */
  const CompareArity := 3

  /** The number of values `highlight_matching_text` unpacks from it. */
  const UnpackedArity := 6

  /**
   What `highlight_matching_text` returns as written. `compared` is the
   outcome of `compare_pair` on the two preprocessed files: its row, or
   `None` when reading a file raises `ioError`. Either way the `except`
   branch returns the same error text twice; no span is ever built.
   */
  function HighlightAsWritten(compared: Option<SimilarityRow>, ioError: string): (r: (string, string))
    ensures r.0 == r.1
    ensures StartsWith(r.0, ErrorPrefix)
    ensures compared.Some? ==> r.0 == ErrorPrefix + UnpackMessage(UnpackedArity, CompareArity)
    ensures compared.Some? ==> r.0 == ErrorPrefix + "not enough values to unpack (expected 6, got 3)"
  {
    UnpackSixFromThree();
    var message := if compared.None? then ioError else UnpackMessage(UnpackedArity, CompareArity);
    (ErrorPrefix + message, ErrorPrefix + message)
  }
}

=== FILE: normalize.dfy ===
/**
 The canonicalisation pass every dialect ends with (`normalize_code`):
 lower-case the text, replace every run of whitespace by one space, and
 strip whitespace from both ends.
 */
module Normalize {
  import opened Text

  /** Drops the whitespace run that starts `s`. */
  function DropSpaces(s: string): (r: string)
    ensures r == s[SpaceRun(s)..]
  {
    if s == [] || !IsSpace(s[0]) then s else DropSpaces(s[1..])
  }

  /** Drops the whitespace run that ends `s`. */
  function TrimEnd(s: string): (r: string)
    ensures |r| <= |s| && r == s[..|r|]
    ensures r == [] || !IsSpace(r[|r| - 1])
    ensures forall j :: |r| <= j < |s| ==> IsSpace(s[j])
  {
    if s == [] || !IsSpace(s[|s| - 1]) then s else TrimEnd(s[..|s| - 1])
  }

  /** `str.strip()` with no argument. */
  function Strip(s: string): string {
    TrimEnd(DropSpaces(s))
  }

  /** `re.sub(r'\s+', ' ', s)`: every maximal whitespace run becomes a single space. */
  function CollapseSpaces(s: string): (r: string)
    ensures (|r| > 0) == (|s| > 0)
    ensures (|r| > 0 && IsSpace(r[0])) == (|s| > 0 && IsSpace(s[0]))
    decreases |s|
  {
    if s == [] then []
    else if IsSpace(s[0]) then " " + CollapseSpaces(DropSpaces(s))
    else [s[0]] + CollapseSpaces(s[1..])
  }

  /** `normalize_code`. */
  function NormalizeCode(s: string): string {
    Strip(CollapseSpaces(Lower(s)))
  }

  /** Every whitespace character is a plain space, and no two whitespace characters are adjacent. */
  predicate SingleSpaced(t: string) {
    forall i :: 0 <= i < |t| && IsSpace(t[i]) ==> t[i] == ' ' && (i + 1 < |t| ==> !IsSpace(t[i + 1]))
  }

  /** No whitespace at either end. */
  predicate Trimmed(t: string) {
    t == [] || (!IsSpace(t[0]) && !IsSpace(t[|t| - 1]))
  }

  /** The shape `normalize_code` produces. */
  predicate Canonical(t: string) {
    NoUpper(t) && SingleSpaced(t) && Trimmed(t)
  }

  /** Every character is whitespace. */
  predicate Blank(s: string) {
    forall j :: 0 <= j < |s| ==> IsSpace(s[j])
  }

  /** No character is whitespace. */
  predicate NoSpace(w: string) {
    w == [] || (!IsSpace(w[0]) && NoSpace(w[1..]))
  }

  /** The length of the run of non-whitespace characters that starts `s`. */
  function WordLen(s: string): (k: nat)
    ensures k <= |s|
    ensures k < |s| ==> IsSpace(s[k])
  {
    if s == [] || IsSpace(s[0]) then 0 else 1 + WordLen(s[1..])
  }

  /** `s.split()`: the maximal runs of non-whitespace characters, in order. */
  function Words(s: string): seq<string>
    decreases |s|
  {
    var t := DropSpaces(s);
    if t == [] then []
    else
      var k := WordLen(t);
      [t[..k]] + Words(t[k..])
  }

  /** `" ".join(ws)`. */
  function Unwords(ws: seq<string>): string {
    if ws == [] then []
    else if |ws| == 1 then ws[0]
    else ws[0] + " " + Unwords(ws[1..])
  }

  /** The text with every whitespace character deleted. */
  function Squeeze(s: string): string {
    if s == [] then [] else (if IsSpace(s[0]) then [] else [s[0]]) + Squeeze(s[1..])
  }

  lemma {:induction false} SqueezeAppend(a: string, b: string)
    ensures Squeeze(a + b) == Squeeze(a) + Squeeze(b)
  {
    if a != [] {
      var h: string := if IsSpace(a[0]) then [] else [a[0]];
      assert (a + b)[0] == a[0];
      assert (a + b)[1..] == a[1..] + b;
      SqueezeAppend(a[1..], b);
      calc {
        Squeeze(a + b);
        h + Squeeze(a[1..] + b);
        h + (Squeeze(a[1..]) + Squeeze(b));
        (h + Squeeze(a[1..])) + Squeeze(b);
      }
    } else {
      assert a + b == b;
    }
  }

  lemma {:induction false} SqueezeAllSpaces(s: string)
    requires forall j :: 0 <= j < |s| ==> IsSpace(s[j])
    ensures Squeeze(s) == []
  {
    if s != [] {
      SqueezeAllSpaces(s[1..]);
    }
  }

  lemma {:induction false} SqueezeMember(s: string, c: char)
    requires c in Squeeze(s)
    ensures c in s && !IsSpace(c)
  {
    if s != [] {
      if c in Squeeze(s[1..]) {
        SqueezeMember(s[1..], c);
      }
    }
  }

  lemma {:induction false} SqueezeLower(s: string)
    ensures Squeeze(Lower(s)) == Lower(Squeeze(s))
  {
    if s != [] {
      assert Lower(s)[1..] == Lower(s[1..]);
      SqueezeLower(s[1..]);
    }
  }

  lemma {:induction false} CollapseSingleSpaced(s: string)
    ensures SingleSpaced(CollapseSpaces(s))
    decreases |s|
  {
    if s == [] {
    } else if IsSpace(s[0]) {
      var d := DropSpaces(s);
      CollapseSingleSpaced(d);
      var t := CollapseSpaces(d);
      assert d == [] || !IsSpace(d[0]);
      assert forall i :: 1 <= i < |" " + t| ==> (" " + t)[i] == t[i - 1];
    } else {
      CollapseSingleSpaced(s[1..]);
      var t := CollapseSpaces(s[1..]);
      assert forall i :: 1 <= i < |[s[0]] + t| ==> ([s[0]] + t)[i] == t[i - 1];
    }
  }

  lemma {:induction false} CollapseSqueeze(s: string)
    ensures Squeeze(CollapseSpaces(s)) == Squeeze(s)
    decreases |s|
  {
    if s == [] {
    } else if IsSpace(s[0]) {
      var d := DropSpaces(s);
      var k := SpaceRun(s);
      CollapseSqueeze(d);
      assert s == s[..k] + d;
      SqueezeAppend(s[..k], d);
      SqueezeAllSpaces(s[..k]);
      SqueezeAppend(" ", CollapseSpaces(d));
    } else {
      CollapseSqueeze(s[1..]);
      SqueezeAppend([s[0]], CollapseSpaces(s[1..]));
      assert s == [s[0]] + s[1..];
      SqueezeAppend([s[0]], s[1..]);
    }
  }

  lemma {:induction false} CollapseNoUpper(s: string)
    requires NoUpper(s)
    ensures NoUpper(CollapseSpaces(s))
    decreases |s|
  {
    if s == [] {
    } else if IsSpace(s[0]) {
      var d := DropSpaces(s);
      assert forall i :: 0 <= i < |d| ==> d[i] == s[SpaceRun(s) + i];
      CollapseNoUpper(d);
    } else {
      assert forall i :: 0 <= i < |s[1..]| ==> s[1..][i] == s[i + 1];
      CollapseNoUpper(s[1..]);
    }
  }

  /**
   `re.sub(r'\s+', ' ', s)` leaves single plain spaces and keeps the words,
   in order, and so also every non-whitespace character.
   */
  lemma CollapseShape(s: string)
    ensures SingleSpaced(CollapseSpaces(s))
    ensures Words(CollapseSpaces(s)) == Words(s)
    ensures Squeeze(CollapseSpaces(s)) == Squeeze(s)
    ensures NoUpper(s) ==> NoUpper(CollapseSpaces(s))
  {
    CollapseSingleSpaced(s);
    WordsCollapse(s);
    CollapseSqueeze(s);
    if NoUpper(s) {
      CollapseNoUpper(s);
    }
  }

  lemma SingleSpacedSlice(t: string, a: nat, b: nat)
    requires a <= b <= |t|
    requires SingleSpaced(t)
    ensures SingleSpaced(t[a..b])
  {
    forall i | 0 <= i < b - a && IsSpace(t[a..b][i])
      ensures t[a..b][i] == ' ' && (i + 1 < b - a ==> !IsSpace(t[a..b][i + 1]))
    {
      assert t[a..b][i] == t[a + i];
      if i + 1 < b - a {
        assert t[a..b][i + 1] == t[a + i + 1];
      }
    }
  }

  lemma DropSpacesShape(s: string)
    ensures Squeeze(DropSpaces(s)) == Squeeze(s)
    ensures SingleSpaced(s) ==> SingleSpaced(DropSpaces(s))
    ensures NoUpper(s) ==> NoUpper(DropSpaces(s))
  {
    var k := SpaceRun(s);
    assert s == s[..k] + s[k..];
    SqueezeAppend(s[..k], s[k..]);
    SqueezeAllSpaces(s[..k]);
    if SingleSpaced(s) {
      SingleSpacedSlice(s, k, |s|);
    }
  }

  lemma TrimEndShape(d: string)
    ensures Squeeze(TrimEnd(d)) == Squeeze(d)
    ensures SingleSpaced(d) ==> SingleSpaced(TrimEnd(d))
    ensures NoUpper(d) ==> NoUpper(TrimEnd(d))
  {
    var r := TrimEnd(d);
    assert d == r + d[|r|..];
    SqueezeAppend(r, d[|r|..]);
    SqueezeAllSpaces(d[|r|..]);
    if SingleSpaced(d) {
      SingleSpacedSlice(d, 0, |r|);
    }
  }

  /**
   `str.strip()` cuts a blank prefix and a blank suffix and nothing else:
   the result is a slice of the input, and its words are the input's.
   */
  lemma StripShape(s: string)
    ensures Trimmed(Strip(s))
    ensures exists i, j :: 0 <= i <= j <= |s| && Strip(s) == s[i..j] && Blank(s[..i]) && Blank(s[j..])
    ensures Words(Strip(s)) == Words(s)
    ensures Squeeze(Strip(s)) == Squeeze(s)
    ensures SingleSpaced(s) ==> SingleSpaced(Strip(s))
    ensures NoUpper(s) ==> NoUpper(Strip(s))
  {
    var d := DropSpaces(s);
    DropSpacesShape(s);
    TrimEndShape(d);
    var r := TrimEnd(d);
    if r != [] {
      assert r[0] == d[0];
    }
    StripSlice(s);
    WordsStrip(s);
  }

  /** The slice `str.strip()` keeps, with the blank ends it cuts. */
  lemma StripSlice(s: string)
    ensures exists i, j :: 0 <= i <= j <= |s| && Strip(s) == s[i..j] && Blank(s[..i]) && Blank(s[j..])
  {
    var i := SpaceRun(s);
    var d := DropSpaces(s);
    var r := TrimEnd(d);
    var j := i + |r|;
    assert s[i..j] == d[..|r|];
    assert forall k :: 0 <= k < |s[j..]| ==> s[j..][k] == d[|r| + k];
    assert Blank(s[j..]);
    assert Blank(s[..i]);
  }

  /**
   The output of `normalize_code` has no upper-case letter, no whitespace
   other than single spaces between non-space characters, and nothing to
   strip; its non-whitespace characters are exactly the input's, lower-cased.
   It is the words of the lower-cased input joined by single spaces.
   */
  lemma NormalizeCodeShape(s: string)
    ensures Canonical(NormalizeCode(s))
    ensures Squeeze(NormalizeCode(s)) == Lower(Squeeze(s))
    ensures NormalizeCode(s) == Unwords(Words(Lower(s)))
  {
    CollapseShape(Lower(s));
    StripShape(CollapseSpaces(Lower(s)));
    SqueezeLower(s);
    CanonicalWords(NormalizeCode(s));
  }

  lemma {:induction false} CollapseCanonical(t: string)
    requires SingleSpaced(t)
    ensures CollapseSpaces(t) == t
    decreases |t|
  {
    if t != [] {
      SingleSpacedSlice(t, 1, |t|);
      CollapseCanonical(t[1..]);
      if IsSpace(t[0]) {
        assert DropSpaces(t) == t[1..];
      }
    }
  }

  /** A canonical text is left unchanged by `normalize_code`. */
  lemma CanonicalFixed(t: string)
    requires Canonical(t)
    ensures NormalizeCode(t) == t
  {
    assert Lower(t) == t;
    CollapseCanonical(t);
    assert DropSpaces(t) == t;
  }

  /** `normalize_code` is idempotent. */
  lemma NormalizeIdempotent(s: string)
    ensures NormalizeCode(NormalizeCode(s)) == NormalizeCode(s)
  {
    NormalizeCodeShape(s);
    CanonicalFixed(NormalizeCode(s));
  }

  /** A character that is neither whitespace nor a letter appears in the output of `normalize_code` only if it was in the input. */
  lemma NormalizeIntroducesNothing(s: string, c: char)
    requires !IsSpace(c) && !IsUpper(c) && !('a' <= c <= 'z')
    requires c !in s
    ensures c !in NormalizeCode(s)
  {
    NormalizeCodeShape(s);
    if c in NormalizeCode(s) {
      var i :| 0 <= i < |NormalizeCode(s)| && NormalizeCode(s)[i] == c;
      SqueezeKeeps(NormalizeCode(s), i);
      assert c in Lower(Squeeze(s));
      var j :| 0 <= j < |Squeeze(s)| && Lower(Squeeze(s))[j] == c;
      SqueezeMember(s, Squeeze(s)[j]);
    }
  }

  lemma {:induction false} SqueezeKeeps(s: string, i: nat)
    requires i < |s| && !IsSpace(s[i])
    ensures s[i] in Squeeze(s)
  {
    if i > 0 {
      SqueezeKeeps(s[1..], i - 1);
    }
  }

  // ---------------------------------------------------------------------
  // Words

  lemma SpaceRunAfterBlank(ws: string, t: string)
    requires forall j :: 0 <= j < |ws| ==> IsSpace(ws[j])
    ensures SpaceRun(ws + t) == |ws| + SpaceRun(t)
    ensures (ws + t)[SpaceRun(ws + t)..] == t[SpaceRun(t)..]
    decreases |ws|
  {
    if ws != [] {
      assert (ws + t)[0] == ws[0];
      assert (ws + t)[1..] == ws[1..] + t;
      SpaceRunAfterBlank(ws[1..], t);
    } else {
      assert ws + t == t;
    }
  }

  /** Whitespace in front of a text adds no word. */
  lemma WordsAfterBlank(ws: string, t: string)
    requires Blank(ws)
    ensures Words(ws + t) == Words(t)
  {
    SpaceRunAfterBlank(ws, t);
  }

  lemma {:induction false} WordLenNoSpace(s: string)
    ensures NoSpace(s[..WordLen(s)])
    decreases |s|
  {
    if s != [] && !IsSpace(s[0]) {
      WordLenNoSpace(s[1..]);
      SliceStep(s, WordLen(s));
    }
  }

  lemma {:induction false} WordLenCons(w: string, r: string)
    requires NoSpace(w)
    requires r == [] || IsSpace(r[0])
    ensures WordLen(w + r) == |w|
    decreases |w|
  {
    if w == [] {
      assert w + r == r;
    } else {
      assert (w + r)[0] == w[0];
      assert (w + r)[1..] == w[1..] + r;
      WordLenCons(w[1..], r);
    }
  }

  /** A text that starts with a non-whitespace character starts with a word. */
  lemma WordsFirst(t: string)
    requires t != [] && !IsSpace(t[0])
    ensures Words(t) == [t[..WordLen(t)]] + Words(t[WordLen(t)..])
  {
    assert DropSpaces(t) == t;
  }

  /** A word followed by nothing or by whitespace is the first word. */
  lemma WordsCons(w: string, r: string)
    requires w != [] && NoSpace(w)
    requires r == [] || IsSpace(r[0])
    ensures Words(w + r) == [w] + Words(r)
  {
    var s := w + r;
    assert s[0] == w[0];
    WordsFirst(s);
    WordLenCons(w, r);
    assert s[..|w|] == w;
    assert s[|w|..] == r;
  }

  lemma CollapseStep(t: string)
    requires t != [] && !IsSpace(t[0])
    ensures CollapseSpaces(t) == [t[0]] + CollapseSpaces(t[1..])
  {
  }

  lemma SliceStep(t: string, k: nat)
    requires 0 < k <= |t|
    ensures t[..k] == [t[0]] + t[1..][..k - 1]
    ensures t[1..][k - 1..] == t[k..]
  {
  }

  /** Collapsing leaves the first word of a text in place. */
  lemma {:induction false} CollapseWord(t: string)
    ensures CollapseSpaces(t) == t[..WordLen(t)] + CollapseSpaces(t[WordLen(t)..])
    decreases |t|
  {
    if t == [] || IsSpace(t[0]) {
      assert t[..0] == [] && t[0..] == t;
    } else {
      CollapseWord(t[1..]);
      CollapseStep(t);
      SliceStep(t, WordLen(t));
    }
  }

  /** Splitting a text at its first word. */
  lemma WordSplit(s: string)
    requires s != [] && !IsSpace(s[0])
    ensures 0 < WordLen(s)
    ensures NoSpace(s[..WordLen(s)])
    ensures s[WordLen(s)..] == [] || IsSpace(s[WordLen(s)..][0])
  {
    WordLenNoSpace(s);
  }

  /** Splitting a text at its whitespace prefix. */
  lemma SpaceSplit(s: string)
    ensures s == s[..SpaceRun(s)] + DropSpaces(s)
    ensures Blank(s[..SpaceRun(s)])
  {
    var k := SpaceRun(s);
    assert s == s[..k] + s[k..];
    assert forall j :: 0 <= j < k ==> s[..k][j] == s[j];
  }

  /** Splitting a text at its whitespace suffix. */
  lemma TrimEndSplit(d: string)
    ensures d == TrimEnd(d) + d[|TrimEnd(d)|..]
    ensures Blank(d[|TrimEnd(d)|..])
  {
    var r := TrimEnd(d);
    assert forall j :: 0 <= j < |d[|r|..]| ==> d[|r|..][j] == d[|r| + j];
  }

  lemma ConsSplit(x: string, sp: string)
    requires x != []
    ensures x == [x[0]] + x[1..]
    ensures x + sp == [x[0]] + (x[1..] + sp)
  {
  }

  lemma CutSplit(x: string, k: nat, sp: string)
    requires k <= |x|
    ensures x + sp == x[..k] + (x[k..] + sp)
  {
  }

  lemma BlankAfter(r: string, sp: string)
    requires r == [] || IsSpace(r[0])
    requires Blank(sp)
    ensures r + sp == [] || IsSpace((r + sp)[0])
  {
    if r == [] {
      assert r + sp == sp;
    }
  }

  /** Collapsing whitespace runs keeps the words. */
  lemma {:induction false} WordsCollapse(s: string)
    ensures Words(CollapseSpaces(s)) == Words(s)
    decreases |s|, 1
  {
    if s == [] {
    } else if IsSpace(s[0]) {
      WordsCollapseBlank(s);
    } else {
      WordsCollapseWord(s);
    }
  }

  /** A leading whitespace run collapses to one space, which adds no word. */
  lemma {:induction false} WordsCollapseBlank(s: string)
    requires s != [] && IsSpace(s[0])
    ensures Words(CollapseSpaces(s)) == Words(s)
    decreases |s|, 0
  {
    var d := DropSpaces(s);
    SpaceSplit(s);
    WordsAfterBlank(s[..SpaceRun(s)], d);
    WordsCollapse(d);
    WordsAfterBlank(" ", CollapseSpaces(d));
  }

  /** A leading word is kept and the rest collapses on its own. */
  lemma {:induction false} WordsCollapseWord(s: string)
    requires s != [] && !IsSpace(s[0])
    ensures Words(CollapseSpaces(s)) == Words(s)
    decreases |s|, 0
  {
    var k := WordLen(s);
    WordSplit(s);
    WordsFirst(s);
    CollapseWord(s);
    WordsCollapse(s[k..]);
    WordsCons(s[..k], CollapseSpaces(s[k..]));
  }

  /** Whitespace after a text adds no word. */
  lemma {:induction false} WordsBeforeBlank(x: string, sp: string)
    requires Blank(sp)
    ensures Words(x + sp) == Words(x)
    decreases |x|
  {
    if x == [] {
      assert x + sp == sp + [];
      WordsAfterBlank(sp, []);
    } else if IsSpace(x[0]) {
      ConsSplit(x, sp);
      WordsAfterBlank([x[0]], x[1..] + sp);
      WordsAfterBlank([x[0]], x[1..]);
      WordsBeforeBlank(x[1..], sp);
    } else {
      var k := WordLen(x);
      WordSplit(x);
      WordsFirst(x);
      CutSplit(x, k, sp);
      BlankAfter(x[k..], sp);
      WordsCons(x[..k], x[k..] + sp);
      WordsBeforeBlank(x[k..], sp);
    }
  }

  /** `str.strip()` keeps the words. */
  lemma WordsStrip(s: string)
    ensures Words(Strip(s)) == Words(s)
  {
    var d := DropSpaces(s);
    SpaceSplit(s);
    WordsAfterBlank(s[..SpaceRun(s)], d);
    TrimEndSplit(d);
    WordsBeforeBlank(TrimEnd(d), d[|TrimEnd(d)|..]);
  }

  lemma UnwordsCons(w: string, ws: seq<string>)
    requires ws != []
    ensures Unwords([w] + ws) == w + " " + Unwords(ws)
  {
    assert ([w] + ws)[1..] == ws;
  }

  lemma AroundChar(s: string, k: nat)
    requires k < |s|
    ensures s[..k] + [s[k]] + s[k + 1..] == s
    ensures s[k..] == [s[k]] + s[k + 1..]
  {
  }

  /** In a canonical text, the first word is followed by nothing or by one space and a non-space. */
  lemma CanonicalGap(t: string)
    requires SingleSpaced(t) && Trimmed(t)
    requires WordLen(t) < |t|
    ensures WordLen(t) + 1 < |t|
    ensures t[WordLen(t)] == ' ' && !IsSpace(t[WordLen(t) + 1])
  {
  }

  lemma TrimmedSuffix(t: string, a: nat)
    requires Trimmed(t) && a < |t| && !IsSpace(t[a])
    ensures Trimmed(t[a..])
  {
    assert t[a..][0] == t[a];
    assert t[a..][|t| - a - 1] == t[|t| - 1];
  }

  /** Past the first word of a canonical text come one space and a non-space. */
  lemma CanonicalRest(t: string)
    requires SingleSpaced(t) && Trimmed(t)
    requires WordLen(t) < |t|
    ensures WordLen(t) + 1 < |t|
    ensures t == t[..WordLen(t)] + " " + t[WordLen(t) + 1..]
    ensures t[WordLen(t)..] == " " + t[WordLen(t) + 1..]
    ensures t[WordLen(t) + 1..] != [] && !IsSpace(t[WordLen(t) + 1..][0])
  {
    CanonicalGap(t);
    AroundChar(t, WordLen(t));
  }

  /** The text past a space of a canonical text is canonical in shape. */
  lemma CanonicalSuffix(t: string, a: nat)
    requires SingleSpaced(t) && Trimmed(t)
    requires a < |t| && !IsSpace(t[a])
    ensures SingleSpaced(t[a..]) && Trimmed(t[a..])
  {
    SingleSpacedSlice(t, a, |t|);
    assert t[a..|t|] == t[a..];
    TrimmedSuffix(t, a);
  }

  /** A single-spaced, trimmed text is its words joined by single spaces. */
  lemma {:induction false} CanonicalWords(t: string)
    requires SingleSpaced(t) && Trimmed(t)
    ensures Unwords(Words(t)) == t
    decreases |t|, 1
  {
    if t == [] {
    } else if WordLen(t) == |t| {
      WordsFirst(t);
      assert t[..|t|] == t && t[|t|..] == [];
    } else {
      CanonicalWordsNext(t);
    }
  }

  /** The first word, one space, and the words of the canonical rest. */
  lemma {:induction false} CanonicalWordsNext(t: string)
    requires SingleSpaced(t) && Trimmed(t)
    requires t != [] && WordLen(t) < |t|
    ensures Unwords(Words(t)) == t
    decreases |t|, 0
  {
    var k := WordLen(t);
    var rest := t[k + 1..];
    CanonicalRest(t);
    CanonicalSuffix(t, k + 1);
    CanonicalWords(rest);
    WordsAfterSpace(t);
    WordsFirst(rest);
    UnwordsCons(t[..k], Words(rest));
  }

  lemma WordsAfterSpace(t: string)
    requires t != [] && !IsSpace(t[0])
    requires WordLen(t) + 1 <= |t| && t[WordLen(t)..] == " " + t[WordLen(t) + 1..]
    ensures Words(t) == [t[..WordLen(t)]] + Words(t[WordLen(t) + 1..])
  {
    WordsFirst(t);
    WordsAfterBlank(" ", t[WordLen(t) + 1..]);
  }
}

=== FILE: pairs.dfy ===
/**
 `generate_file_pairs`, i.e. `itertools.combinations(xs, 2)`: every pair
 `(xs[i], xs[j])` with `i < j`, in lexicographic order of `(i, j)`.
 */
module Pairs {

  /** The pairs `(x, ys[0]), (x, ys[1]), …`. */
  function PairWith<T>(x: T, ys: seq<T>): (r: seq<(T, T)>)
    ensures |r| == |ys|
    ensures forall k :: 0 <= k < |ys| ==> r[k] == (x, ys[k])
  {
    seq(|ys|, k requires 0 <= k < |ys| => (x, ys[k]))
  }

  /** `list(itertools.combinations(xs, 2))`. */
  function Combinations2<T>(xs: seq<T>): (r: seq<(T, T)>)
    ensures |r| == |xs| * (|xs| - 1) / 2
    decreases |xs|
  {
    if xs == [] then []
    else
      var rest := Combinations2(xs[1..]);
      var n := |xs|;
      assert n * (n - 1) / 2 == (n - 1) + (n - 1) * (n - 2) / 2 by {
        assert n * (n - 1) == 2 * (n - 1) + (n - 1) * (n - 2);
      }
      PairWith(xs[0], xs[1..]) + rest
  }

  // ---------------------------------------------------------------------
  // The index pairs, as an independent reference

  /** The index pairs `(i, i+1), …, (i, n-1)`. */
  function Row(i: nat, n: nat): (r: seq<(nat, nat)>)
    ensures |r| == if i < n then n - i - 1 else 0
    ensures forall k :: 0 <= k < |r| ==> r[k] == (i, i + 1 + k)
  {
    if i < n then seq(n - i - 1, k requires 0 <= k < n - i - 1 => (i, i + 1 + k)) else []
  }

  /** All index pairs `(a, b)` with `i <= a < b < n`, row by row. */
  function PairsFrom(i: nat, n: nat): seq<(nat, nat)>
    decreases n - i
  {
    if i >= n then [] else Row(i, n) + PairsFrom(i + 1, n)
  }

  /** The index pairs of a sequence of length `n`. */
  function IndexPairs(n: nat): seq<(nat, nat)> {
    PairsFrom(0, n)
  }

  predicate LexLess(p: (nat, nat), q: (nat, nat)) {
    p.0 < q.0 || (p.0 == q.0 && p.1 < q.1)
  }

  /** Each element strictly precedes every later one. */
  predicate StrictlySorted(s: seq<(nat, nat)>) {
    forall k, l :: 0 <= k < l < |s| ==> LexLess(s[k], s[l])
  }

  /** The elements named by a list of index pairs. */
  function Select<T>(xs: seq<T>, ps: seq<(nat, nat)>): (r: seq<(T, T)>)
    requires forall k :: 0 <= k < |ps| ==> ps[k].0 < |xs| && ps[k].1 < |xs|
    ensures |r| == |ps|
    ensures forall k :: 0 <= k < |ps| ==> r[k] == (xs[ps[k].0], xs[ps[k].1])
  {
    seq(|ps|, k requires 0 <= k < |ps| => (xs[ps[k].0], xs[ps[k].1]))
  }

  // ---------------------------------------------------------------------
  // Lemmas

  /** A pair of indices is listed exactly when both lie in range and the first is smaller. */
  lemma {:induction false} PairsFromMembers(i: nat, n: nat, a: nat, b: nat)
    ensures (a, b) in PairsFrom(i, n) <==> i <= a < b < n
    decreases n - i
  {
    if i < n {
      PairsFromMembers(i + 1, n, a, b);
      if a == i && a < b < n {
        assert Row(i, n)[b - i - 1] == (a, b);
      }
    }
  }

  lemma {:induction false} PairsFromBounds(i: nat, n: nat)
    ensures forall k :: 0 <= k < |PairsFrom(i, n)| ==> i <= PairsFrom(i, n)[k].0 < PairsFrom(i, n)[k].1 < n
    decreases n - i
  {
    if i < n {
      PairsFromBounds(i + 1, n);
      var r := Row(i, n);
      var t := PairsFrom(i + 1, n);
      assert forall k :: 0 <= k < |t| ==> (r + t)[|r| + k] == t[k];
    }
  }

  /** The index pairs are in strictly increasing lexicographic order, so none repeats. */
  lemma {:induction false} PairsFromSorted(i: nat, n: nat)
    ensures StrictlySorted(PairsFrom(i, n))
    decreases n - i
  {
    if i < n {
      PairsFromSorted(i + 1, n);
      PairsFromBounds(i + 1, n);
      var r := Row(i, n);
      var t := PairsFrom(i + 1, n);
      var s := r + t;
      forall k, l | 0 <= k < l < |s|
        ensures LexLess(s[k], s[l])
      {
        if l < |r| {
          assert s[k] == r[k] && s[l] == r[l];
        } else if k < |r| {
          assert s[k] == r[k] && s[l] == t[l - |r|];
        } else {
          assert s[k] == t[k - |r|] && s[l] == t[l - |r|];
        }
      }
    }
  }

  lemma {:induction false} PairsFromCount(i: nat, n: nat)
    requires i <= n
    ensures |PairsFrom(i, n)| == (n - i) * (n - i - 1) / 2
    decreases n - i
  {
    if i < n {
      PairsFromCount(i + 1, n);
      var m := n - i;
      assert m * (m - 1) == 2 * (m - 1) + (m - 1) * (m - 2);
    }
  }

  lemma SelectAppend<T>(xs: seq<T>, a: seq<(nat, nat)>, b: seq<(nat, nat)>)
    requires forall k :: 0 <= k < |a| ==> a[k].0 < |xs| && a[k].1 < |xs|
    requires forall k :: 0 <= k < |b| ==> b[k].0 < |xs| && b[k].1 < |xs|
    ensures forall k :: 0 <= k < |a + b| ==> (a + b)[k].0 < |xs| && (a + b)[k].1 < |xs|
    ensures Select(xs, a + b) == Select(xs, a) + Select(xs, b)
  {
    assert forall k :: 0 <= k < |a + b| ==> (a + b)[k] == if k < |a| then a[k] else b[k - |a|];
  }

  lemma RowSelect<T>(xs: seq<T>, i: nat)
    requires i < |xs|
    ensures PairWith(xs[i], xs[i + 1..]) == Select(xs, Row(i, |xs|))
  {
  }

  lemma CombinationsStep<T>(xs: seq<T>, i: nat)
    requires i < |xs|
    ensures Combinations2(xs[i..]) == PairWith(xs[i], xs[i + 1..]) + Combinations2(xs[i + 1..])
  {
    assert xs[i..][1..] == xs[i + 1..];
  }

  /**
   `combinations` of a suffix `xs[i..]` picks the elements at the index
   pairs `i <= a < b < |xs|`, in the same order.
   */
  lemma {:induction false} CombinationsSelect<T>(xs: seq<T>, i: nat)
    requires i <= |xs|
    ensures forall k :: 0 <= k < |PairsFrom(i, |xs|)| ==> PairsFrom(i, |xs|)[k].0 < |xs| && PairsFrom(i, |xs|)[k].1 < |xs|
    ensures Combinations2(xs[i..]) == Select(xs, PairsFrom(i, |xs|))
    decreases |xs| - i
  {
    PairsFromBounds(i, |xs|);
    if i < |xs| {
      CombinationsSelect(xs, i + 1);
      CombinationsStep(xs, i);
      RowSelect(xs, i);
      SelectAppend(xs, Row(i, |xs|), PairsFrom(i + 1, |xs|));
    } else {
      assert xs[i..] == [];
    }
  }

  /**
   `generate_file_pairs(xs)` lists `(xs[a], xs[b])` for exactly the index
   pairs `a < b`, each once, in lexicographic order; there are
   `n(n-1)/2` of them.
   */
  lemma CombinationsAreIndexPairs<T>(xs: seq<T>)
    ensures forall k :: 0 <= k < |IndexPairs(|xs|)| ==> IndexPairs(|xs|)[k].0 < IndexPairs(|xs|)[k].1 < |xs|
    ensures Combinations2(xs) == Select(xs, IndexPairs(|xs|))
    ensures StrictlySorted(IndexPairs(|xs|))
    ensures forall a: nat, b: nat :: (a, b) in IndexPairs(|xs|) <==> a < b < |xs|
  {
    CombinationsSelect(xs, 0);
    assert xs[0..] == xs;
    PairsFromBounds(0, |xs|);
    PairsFromSorted(0, |xs|);
    forall a: nat, b: nat
      ensures (a, b) in IndexPairs(|xs|) <==> a < b < |xs|
    {
      PairsFromMembers(0, |xs|, a, b);
    }
  }

  /**
   With distinct inputs no pair joins an element with itself and no
   unordered pair appears twice (in either orientation).
   */
  lemma CombinationsDistinct<T>(xs: seq<T>)
    requires forall a, b :: 0 <= a < b < |xs| ==> xs[a] != xs[b]
    ensures forall k :: 0 <= k < |Combinations2(xs)| ==> Combinations2(xs)[k].0 != Combinations2(xs)[k].1
    ensures forall k, l :: 0 <= k < l < |Combinations2(xs)| ==>
      Combinations2(xs)[k] != Combinations2(xs)[l]
      && Combinations2(xs)[k] != (Combinations2(xs)[l].1, Combinations2(xs)[l].0)
  {
    CombinationsAreIndexPairs(xs);
    var ps := IndexPairs(|xs|);
    var r := Combinations2(xs);
    forall k, l | 0 <= k < l < |r|
      ensures r[k] != r[l] && r[k] != (r[l].1, r[l].0)
    {
      assert LexLess(ps[k], ps[l]);
      assert r[k] == (xs[ps[k].0], xs[ps[k].1]);
      assert r[l] == (xs[ps[l].0], xs[ps[l].1]);
    }
  }
}

=== FILE: paths.dfy ===
/**
 POSIX path helpers used by the pipeline: `os.path.join`, `os.path.basename`,
 `os.path.splitext` (the extension half), and pathlib's `PurePath.name` and
 `PurePath.suffix`. The directory names are the constants the program uses.
 */
module Paths {
  import opened Text

  const UploadDir := "data/uploads"
  const PreprocessedDir := "data/preprocessed"

  /** `os.path.join(a, b)`: an absolute `b` replaces `a`; otherwise one `'/'` separates them. */
  function Join(a: string, b: string): (p: string)
    ensures StartsWith(b, "/") ==> p == b
    ensures !StartsWith(b, "/") ==> StartsWith(p, a) && EndsWith(p, b)
  {
    if StartsWith(b, "/") then b
    else if a == [] || EndsWith(a, "/") then a + b
    else a + "/" + b
  }

  /** `os.path.basename`: everything after the last `'/'`. */
  function Basename(p: string): (r: string)
    ensures '/' !in r
    ensures EndsWith(p, r)
    ensures r == p || p[|p| - |r| - 1] == '/'
  {
    var k := LastIndexOf(p, '/') + 1;
    assert forall j :: 0 <= j < |p[k..]| ==> p[k..][j] == p[k + j];
    p[k..]
  }

  /**
   The extension `os.path.splitext` splits off: from the last `'.'` of the
   last path component, provided that component has a character other
   than `'.'` before it (so `.py` and `..py` have no extension).
   */
  function Ext(p: string): (e: string)
    ensures e == [] || (e[0] == '.' && EndsWith(p, e) && '/' !in e && '.' !in e[1..])
  {
    var sep := LastIndexOf(p, '/');
    var dot := LastIndexOf(p, '.');
    if dot > sep && exists k :: sep < k < dot && p[k] != '.' then
      assert forall j :: 1 <= j < |p[dot..]| ==> p[dot..][j] == p[dot + j];
      p[dot..]
    else []
  }

  /** `PurePosixPath(s).name`: the last component once empty and `.` components are dropped. */
  function PathName(s: string): (r: string)
    ensures '/' !in r
    ensures r != "."
    ensures forall c :: c in r ==> c in s
    decreases |s|
  {
    var b := Basename(s);
    if b != [] && b != "." then b
    else if '/' !in s then []
    else PathName(s[..LastIndexOf(s, '/')])
  }

  /** `PurePath.suffix`: from the last `'.'` of the name, unless that dot is the first or the last character. */
  function Suffix(name: string): (r: string)
    ensures r == [] || (r[0] == '.' && |r| >= 2 && |r| < |name| && EndsWith(name, r) && '.' !in r[1..])
  {
    var i := LastIndexOf(name, '.');
    if 0 < i < |name| - 1 then
      assert forall j :: 1 <= j < |name[i..]| ==> name[i..][j] == name[i + j];
      name[i..]
    else []
  }

  // ---------------------------------------------------------------------
  // Lemmas

  lemma LastIndexOfAppend(a: string, b: string, c: char)
    requires c !in b
    ensures LastIndexOf(a + b, c) == LastIndexOf(a, c)
  {
    var k := LastIndexOf(a, c);
    var s := a + b;
    assert forall j :: |a| <= j < |s| ==> s[j] == b[j - |a|];
    assert forall j :: 0 <= j < |a| ==> s[j] == a[j];
    LastIndexOfUnique(s, c, k);
  }

  lemma LastIndexOfAt(a: string, c: char, b: string)
    requires c !in b
    ensures LastIndexOf(a + [c] + b, c) == |a|
  {
    LastIndexOfAppend(a + [c], b, c);
  }

  /** The file name a path was joined from is its basename again. */
  lemma BasenameOfJoin(dir: string, name: string)
    requires '/' !in name
    ensures Basename(Join(dir, name)) == name
  {
    var p := Join(dir, name);
    if dir == [] || EndsWith(dir, "/") {
      if dir != [] {
        assert dir == dir[..|dir| - 1] + ['/'];
        LastIndexOfAt(dir[..|dir| - 1], '/', name);
      } else {
        assert p == name;
        assert '/' !in p;
        assert LastIndexOf(p, '/') == -1;
      }
    } else {
      assert p == dir + ['/'] + name;
      LastIndexOfAt(dir, '/', name);
    }
  }

  /** A plain file name joined onto a directory sits under it and keeps its name. */
  lemma JoinName(dir: string, name: string)
    requires name != [] && '/' !in name
    ensures StartsWith(Join(dir, name), dir)
    ensures Basename(Join(dir, name)) == name
  {
    assert name[0] != '/';
    BasenameOfJoin(dir, name);
  }

  lemma ExtParts(pre: string, stem: string, tail: string)
    requires stem != [] && stem[0] != '.' && '/' !in stem
    requires '.' !in tail && '/' !in tail
    ensures Ext(pre + stem + ['.'] + tail) == ['.'] + tail
  {
    var p := pre + stem + ['.'] + tail;
    LastIndexOfAt(pre + stem, '.', tail);
    var dot := |pre| + |stem|;
    assert '/' !in stem + ['.'] + tail;
    assert p == pre + (stem + ['.'] + tail);
    LastIndexOfAppend(pre, stem + ['.'] + tail, '/');
    assert LastIndexOf(p, '/') < |pre|;
    assert p[|pre|] == stem[0];
    assert p[dot..] == ['.'] + tail;
  }

  /**
   A name `stem.tail` whose stem has a character and no dot has the
   extension `.tail`, whatever directory it sits in.
   */
  lemma ExtOfName(dir: string, stem: string, tail: string)
    requires stem != [] && '.' !in stem && '/' !in stem
    requires '.' !in tail && '/' !in tail
    ensures Ext(Join(dir, stem + "." + tail)) == "." + tail
  {
    var name := stem + "." + tail;
    assert name[0] == stem[0];
    var pre := if dir == [] || EndsWith(dir, "/") then dir else dir + "/";
    JoinPlain(dir, name);
    assert pre + name == pre + stem + ['.'] + tail;
    ExtParts(pre, stem, tail);
  }

  lemma ExtDotParts(pre: string, tail: string)
    requires pre == [] || pre[|pre| - 1] == '/'
    requires '.' !in tail && '/' !in tail
    ensures Ext(pre + ['.'] + tail) == []
  {
    var p := pre + ['.'] + tail;
    LastIndexOfAt(pre, '.', tail);
    assert '/' !in ['.'] + tail;
    assert p == pre + (['.'] + tail);
    LastIndexOfAppend(pre, ['.'] + tail, '/');
    if pre != [] {
      assert pre == pre[..|pre| - 1] + ['/'] + [];
      LastIndexOfAt(pre[..|pre| - 1], '/', []);
    }
  }

  /** A dot file such as `.py` has no extension. */
  lemma ExtOfDotFile(dir: string, tail: string)
    requires '.' !in tail && '/' !in tail
    ensures Ext(Join(dir, "." + tail)) == []
  {
    var name := "." + tail;
    var pre := if dir == [] || EndsWith(dir, "/") then dir else dir + "/";
    JoinPlain(dir, name);
    assert pre + name == pre + ['.'] + tail;
    assert pre == [] || pre[|pre| - 1] == '/';
    ExtDotParts(pre, tail);
  }

  /** A name without `'/'` other than `.` is its own pathlib name. */
  lemma PathNamePlain(n: string)
    requires n != [] && n != "." && '/' !in n
    ensures PathName(n) == n
  {
    assert Basename(n) == n by {
      assert LastIndexOf(n, '/') == -1;
    }
  }

  /** Joining a relative name puts at most one `'/'` between directory and name. */
  lemma JoinPlain(dir: string, name: string)
    requires name != [] && name[0] != '/'
    ensures Join(dir, name) == (if dir == [] || EndsWith(dir, "/") then dir else dir + "/") + name
  {
    assert !StartsWith(name, "/");
  }
}

=== FILE: preprocessing.dfy ===
/**
 The preprocessing driver: every admitted upload is read, dispatched to a
 dialect by its exact extension, cleaned, and written under the
 preprocessed directory with the same base name. The pool's `map` is a
 sequential map here (it returns results in input order); reading and
 writing are parameters.
 */
module Preprocessing {
  import opened Text
  import opened Normalize
  import opened Boilerplate
  import opened Paths

  datatype Dialect = Python | Cpp | Java | Generic

  /** The dispatch of `preprocess_file`, on the extension exactly as written. */
  function DialectFor(ext: string): Dialect {
    if ext == ".py" then Python
    else if ext in [".cpp", ".h", ".cc", ".cxx"] then Cpp
    else if ext == ".java" then Java
    else Generic
  }

  /** The cleaning pass of a dialect; `Generic` only canonicalises. */
  function Clean(d: Dialect, code: string): (r: string)
    ensures Canonical(r) && NormalizeCode(r) == r
    ensures d == Python ==> '#' !in r
  {
    DialectOutputsAreFixedPoints(code);
    NormalizeCodeShape(code);
    CanonicalFixed(NormalizeCode(code));
    PythonOutputHasNoHash(code);
    match d
    case Python => RemovePython(code)
    case Cpp => RemoveCpp(code)
    case Java => RemoveJava(code)
    case Generic => NormalizeCode(code)
  }

  datatype FileWrite = FileWrite(path: string, text: string)

  /** What `preprocess_file` returns: its input path and, on success, the file it wrote. */
  datatype Preprocessed = Preprocessed(input: string, output: Option<FileWrite>)

  /**
   `preprocess_file`. `content` is `None` when the file cannot be read and
   `writable` is false when the output file cannot be written; either
   error, and an input path with an empty base name (whose output path is
   the directory itself), gives a result without output.
   */
  function PreprocessFile(path: string, content: Option<string>, writable: bool): (r: Preprocessed)
    ensures r.input == path
    ensures r.output.Some? <==> content.Some? && writable && Basename(path) != []
    ensures r.output.Some? ==>
      && r.output.value.path == Join(PreprocessedDir, Basename(path))
      && Basename(r.output.value.path) == Basename(path)
      && StartsWith(r.output.value.path, PreprocessedDir)
      && r.output.value.text == Clean(DialectFor(Ext(path)), content.value)
      && Canonical(r.output.value.text)
  {
    var name := Basename(path);
    if content.None? || !writable || name == [] then Preprocessed(path, None)
    else
      JoinName(PreprocessedDir, name);
      Preprocessed(path, Some(FileWrite(Join(PreprocessedDir, name), Clean(DialectFor(Ext(path)), content.value))))
  }

  /** The driver's listing filter: case-sensitive, and without `.cc` or `.cxx`. */
  predicate Admitted(name: string) {
    EndsWith(name, ".py") || EndsWith(name, ".cpp") || EndsWith(name, ".java") || EndsWith(name, ".h")
  }

  /** The admitted names of a directory listing, in listing order. */
  function AdmittedFiles(listing: seq<string>): (r: seq<string>)
    ensures |r| <= |listing|
    ensures forall f :: f in r <==> f in listing && Admitted(f)
    ensures (forall i :: 0 <= i < |listing| ==> !Admitted(listing[i])) ==> r == []
  {
    if listing == [] then []
    else (if Admitted(listing[0]) then [listing[0]] else []) + AdmittedFiles(listing[1..])
  }

  /**
   The filter keeps the listing's order: filtering two listings end to end
   is filtering each and putting the results end to end.
   */
  lemma {:induction false} AdmittedFilesAppend(a: seq<string>, b: seq<string>)
    ensures AdmittedFiles(a + b) == AdmittedFiles(a) + AdmittedFiles(b)
  {
    if a != [] {
      var rest := a[1..];
      assert (a + b)[0] == a[0];
      assert (a + b)[1..] == rest + b;
      AdmittedFilesAppend(rest, b);
    } else {
      assert a + b == b;
    }
  }

  /** A single name is kept exactly when it is admitted. */
  lemma AdmittedFilesOne(name: string)
    ensures AdmittedFiles([name]) == if Admitted(name) then [name] else []
  {
    assert [name][1..] == [];
  }

  /** `preprocess_file` applied to one name of the upload directory's listing. */
  function PreprocessUpload(name: string, read: string -> Option<string>, writable: string -> bool): Preprocessed {
    var path := Join(UploadDir, name);
    PreprocessFile(path, read(path), writable(path))
  }

  /**
   `run_parallel_preprocessing` over the listing of the upload directory:
   one result per admitted name, in listing order; every file written keeps
   the name it was listed under and holds canonical text.
   */
  function RunPreprocessing(listing: seq<string>, read: string -> Option<string>, writable: string -> bool)
    : (r: seq<Preprocessed>)
    ensures |r| == |AdmittedFiles(listing)|
    ensures forall i :: 0 <= i < |r| ==> r[i].input == Join(UploadDir, AdmittedFiles(listing)[i])
    ensures forall i :: 0 <= i < |r| ==> r[i] == PreprocessUpload(AdmittedFiles(listing)[i], read, writable)
    ensures forall i :: 0 <= i < |r| && r[i].output.Some? ==>
      && Canonical(r[i].output.value.text)
      && ('/' !in AdmittedFiles(listing)[i] ==> Basename(r[i].output.value.path) == AdmittedFiles(listing)[i])
  {
    var files := AdmittedFiles(listing);
    var r := seq(|files|, i requires 0 <= i < |files| => PreprocessUpload(files[i], read, writable));
    forall i | 0 <= i < |r| && '/' !in files[i]
      ensures Basename(Join(UploadDir, files[i])) == files[i]
    {
      BasenameOfJoin(UploadDir, files[i]);
    }
    r
  }

  // ---------------------------------------------------------------------
  // Dispatch and filter properties

  /** Every name the driver admits ends in a lower-case letter. */
  lemma AdmittedEndsLower(name: string)
    requires Admitted(name)
    ensures |name| >= 2
    ensures name[|name| - 1] in "yph" || name[|name| - 2..] == "va"
  {
  }

  /** The driver filter is case-sensitive: a name ending in an upper-case letter is never admitted. */
  lemma UpperCaseNotAdmitted(name: string)
    requires name != [] && IsUpper(name[|name| - 1])
    ensures !Admitted(name)
  {
  }

  /**
   `.cc` and `.cxx` sit in the C++ branch of the dispatch, but no file the
   driver admits has either extension, so that branch is never taken for them.
   */
  lemma DriverNeverSeesCcOrCxx(name: string)
    requires Admitted(name)
    ensures Ext(Join(UploadDir, name)) != ".cc" && Ext(Join(UploadDir, name)) != ".cxx"
  {
    var p := Join(UploadDir, name);
    var e := Ext(p);
    AdmittedEndsLower(name);
    assert EndsWith(p, name);
    assert p[|p| - 1] == name[|name| - 1];
    assert p[|p| - 1] in "ypha";
    assert e != [] ==> e[|e| - 1] == p[|p| - 1];
  }

  /**
   A hidden file named `.py` passes the driver's filter but has no
   extension, so it is only canonicalised, not cleaned as Python.
   */
  lemma HiddenPyIsGeneric()
    ensures Admitted(".py")
    ensures DialectFor(Ext(Join(UploadDir, ".py"))) == Generic
  {
    ExtOfDotFile(UploadDir, "py");
    assert "." + "py" == ".py";
  }

  lemma EndsWithExt(stem: string, tail: string, x: string)
    requires '.' !in stem && '.' !in tail && '.' !in x
    requires EndsWith(stem + "." + tail, "." + x)
    ensures tail == x
  {
    var n := stem + "." + tail;
    var k := |n| - |x| - 1;
    assert n[k] == '.' by { assert n[k..] == "." + x; }
    assert forall j :: 0 <= j < |stem| ==> n[j] == stem[j];
    assert forall j :: |stem| < j < |n| ==> n[j] == tail[j - |stem| - 1];
    assert k == |stem|;
    assert n[k + 1..] == tail;
    assert n[k..][1..] == x;
  }

  lemma AdmittedTail(stem: string, tail: string)
    requires '.' !in stem && '.' !in tail
    requires Admitted(stem + "." + tail)
    ensures tail == "py" || tail == "cpp" || tail == "java" || tail == "h"
  {
    var n := stem + "." + tail;
    if EndsWith(n, ".py") {
      EndsWithExt(stem, tail, "py");
    } else if EndsWith(n, ".cpp") {
      EndsWithExt(stem, tail, "cpp");
    } else if EndsWith(n, ".java") {
      EndsWithExt(stem, tail, "java");
    } else {
      EndsWithExt(stem, tail, "h");
    }
  }

  lemma DialectOfTail(tail: string)
    requires tail == "py" || tail == "cpp" || tail == "java" || tail == "h"
    ensures DialectFor("." + tail) != Generic
  {
    if tail == "py" {
      assert "." + tail == ".py";
    } else if tail == "cpp" {
      assert "." + tail == ".cpp";
    } else if tail == "java" {
      assert "." + tail == ".java";
    } else {
      assert "." + tail == ".h";
    }
  }

  /** Every admitted name with a plain stem is dispatched to a cleaning dialect, never to `Generic`. */
  lemma AdmittedHasDialect(stem: string, tail: string)
    requires stem != [] && '.' !in stem && '/' !in stem
    requires '.' !in tail && '/' !in tail
    requires Admitted(stem + "." + tail)
    ensures DialectFor(Ext(Join(UploadDir, stem + "." + tail))) != Generic
  {
    ExtOfName(UploadDir, stem, tail);
    AdmittedTail(stem, tail);
    DialectOfTail(tail);
  }
}

=== FILE: preview.dfy ===
/**
 The preview of `read_file_content`: the first `preview_lines` lines of a
 file joined with `'\n'`, and whether lines were cut off. Lines are split
 as `str.splitlines` splits them.
 */
module Preview {
  import opened Text

  const DefaultPreviewLines := 500

  /** The line boundaries of `str.splitlines`. */
  predicate IsLineBreak(c: char) {
    || c == '\n' || c == '\r' || c == '\U{000B}' || c == '\U{000C}'
    || c == '\U{001C}' || c == '\U{001D}' || c == '\U{001E}'
    || c == '\U{0085}' || c == '\U{2028}' || c == '\U{2029}'
  }

  predicate NoBreak(s: string) {
    forall i :: 0 <= i < |s| ==> !IsLineBreak(s[i])
  }

  /** The index of the first line boundary in `s`, or `|s|`. */
  function BreakAt(s: string): (k: nat)
    ensures k <= |s|
    ensures k < |s| ==> IsLineBreak(s[k])
    ensures NoBreak(s[..k])
  {
    if s == [] || IsLineBreak(s[0]) then 0
    else
      var k := 1 + BreakAt(s[1..]);
      assert forall i :: 1 <= i < k ==> s[..k][i] == s[1..][..k - 1][i - 1];
      k
  }

  /** `str.splitlines()`: `"\r\n"` is one boundary, and a final boundary adds no empty line. */
  function SplitLines(s: string): (ls: seq<string>)
    ensures forall i :: 0 <= i < |ls| ==> NoBreak(ls[i])
    ensures s == [] <==> ls == []
    decreases |s|
  {
    if s == [] then []
    else
      var k := BreakAt(s);
      if k == |s| then [s]
      else
        var skip := if s[k] == '\r' && k + 1 < |s| && s[k + 1] == '\n' then 2 else 1;
        [s[..k]] + SplitLines(s[k + skip..])
  }

  /** `"\n".join(ls)`. */
  function JoinLines(ls: seq<string>): string
    decreases |ls|
  {
    if ls == [] then []
    else if |ls| == 1 then ls[0]
    else ls[0] + "\n" + JoinLines(ls[1..])
  }

  /** The lines without a final empty one. */
  function DropTrailingEmpty(ls: seq<string>): (r: seq<string>)
    ensures |r| <= |ls|
  {
    if ls != [] && ls[|ls| - 1] == [] then ls[..|ls| - 1] else ls
  }

  /**
   `read_file_content` once the file is open (`content` is `None` when it
   cannot be read, `error` the exception's text): the preview, and a flag
   that is set exactly when the file has more lines than the preview keeps.
   */
  function ReadFileContent(fileName: string, content: Option<string>, error: string, previewLines: nat)
    : (r: (string, bool))
    ensures content.None? ==> !r.1 && r.0 == "Error reading file " + fileName + ": " + error
    ensures content.Some? ==> (r.1 <==> |SplitLines(content.value)| > previewLines)
    ensures content.Some? ==> |SplitLines(r.0)| <= previewLines
    ensures content.Some? && !r.1 ==> SplitLines(r.0) == DropTrailingEmpty(SplitLines(content.value))
    ensures content.Some? && r.1 ==> SplitLines(r.0) == DropTrailingEmpty(SplitLines(content.value)[..previewLines])
  {
    match content
    case None => ("Error reading file " + fileName + ": " + error, false)
    case Some(text) =>
      var lines := SplitLines(text);
      var kept := if |lines| <= previewLines then lines else lines[..previewLines];
      SplitJoin(kept);
      (JoinLines(kept), |lines| > previewLines)
  }

  // ---------------------------------------------------------------------
  // Lemmas

  lemma SplitLinesNoBreak(x: string)
    requires x != [] && NoBreak(x)
    ensures SplitLines(x) == [x]
  {
    assert BreakAt(x) == |x|;
  }

  lemma BreakAtNewline(x: string, y: string)
    requires NoBreak(x)
    ensures BreakAt(x + "\n" + y) == |x|
    decreases |x|
  {
    if x != [] {
      assert (x + "\n" + y)[1..] == x[1..] + "\n" + y;
      BreakAtNewline(x[1..], y);
    }
  }

  lemma SplitLinesNewline(x: string, y: string)
    requires NoBreak(x)
    ensures SplitLines(x + "\n" + y) == [x] + SplitLines(y)
  {
    var s := x + "\n" + y;
    BreakAtNewline(x, y);
    assert s[|x|] == '\n';
    assert s[..|x|] == x;
    assert s[|x| + 1..] == y;
  }

  lemma DropTrailingEmptyCons(x: string, rest: seq<string>)
    requires rest != []
    ensures DropTrailingEmpty([x] + rest) == [x] + DropTrailingEmpty(rest)
  {
    var ls := [x] + rest;
    assert ls[|ls| - 1] == rest[|rest| - 1];
    if rest[|rest| - 1] == [] {
      assert ls[..|ls| - 1] == [x] + rest[..|rest| - 1];
    }
  }

  /** Splitting joined lines gives them back, except that a final empty line is lost. */
  lemma {:induction false} SplitJoin(ls: seq<string>)
    requires forall i :: 0 <= i < |ls| ==> NoBreak(ls[i])
    ensures SplitLines(JoinLines(ls)) == DropTrailingEmpty(ls)
    decreases |ls|
  {
    if |ls| == 1 {
      if ls[0] != [] {
        SplitLinesNoBreak(ls[0]);
      }
    } else if |ls| > 1 {
      var rest := ls[1..];
      SplitJoin(rest);
      assert JoinLines(ls) == ls[0] + "\n" + JoinLines(rest);
      SplitLinesNewline(ls[0], JoinLines(rest));
      assert ls == [ls[0]] + rest;
      DropTrailingEmptyCons(ls[0], rest);
    }
  }

  predicate OnlyNewlines(s: string) {
    forall i :: 0 <= i < |s| ==> IsLineBreak(s[i]) ==> s[i] == '\n'
  }

  /** At a `'\n'`, `splitlines` takes the line before it and goes on after it. */
  lemma NewlineSplit(s: string, k: nat)
    requires OnlyNewlines(s) && k == BreakAt(s) && k < |s|
    ensures s[k] == '\n'
    ensures SplitLines(s) == [s[..k]] + SplitLines(s[k + 1..])
  {
    assert IsLineBreak(s[k]);
  }

  lemma OnlyNewlinesSuffix(s: string, j: nat)
    requires OnlyNewlines(s) && j <= |s|
    ensures OnlyNewlines(s[j..])
  {
    assert forall i :: 0 <= i < |s[j..]| ==> s[j..][i] == s[j + i];
  }

  lemma AroundNewline(s: string, k: nat)
    requires k < |s| && s[k] == '\n'
    ensures s[..k] + "\n" + s[k + 1..] == s
  {
  }

  /** Joining a line in front of a prefix of the rest gives a prefix of the whole. */
  lemma JoinPrefix(x: string, rest: string, tail: seq<string>)
    requires StartsWith(rest, JoinLines(tail))
    ensures StartsWith(x + "\n" + rest, JoinLines([x] + tail))
  {
    var s := x + "\n" + rest;
    if tail == [] {
      assert JoinLines([x]) == x;
      assert s[..|x|] == x;
    } else {
      assert ([x] + tail)[1..] == tail;
      var j := JoinLines(tail);
      assert JoinLines([x] + tail) == x + "\n" + j;
      assert rest[..|j|] == j;
      assert s[..|x| + 1 + |j|] == x + "\n" + rest[..|j|];
    }
  }

  /**
   For a file whose only line boundary is `'\n'`, every preview is a prefix
   of the file itself: the preview cuts, it never rewrites.
   */
  lemma {:induction false} PreviewIsPrefix(s: string, m: nat)
    requires OnlyNewlines(s)
    ensures m <= |SplitLines(s)| ==> StartsWith(s, JoinLines(SplitLines(s)[..m]))
    decreases |s|
  {
    var ls := SplitLines(s);
    if s != [] && m <= |ls| && m > 0 {
      var k := BreakAt(s);
      if k < |s| {
        NewlineSplit(s, k);
        var rest := s[k + 1..];
        OnlyNewlinesSuffix(s, k + 1);
        PreviewIsPrefix(rest, m - 1);
        var tail := SplitLines(rest)[..m - 1];
        assert ls[..m] == [s[..k]] + tail;
        JoinPrefix(s[..k], rest, tail);
        AroundNewline(s, k);
      } else {
        assert ls == [s];
        assert ls[..m] == [s];
      }
    }
  }

  /** For a file with `'\n'` line ends, the preview `read_file_content` shows is the start of the file. */
  lemma PreviewOfPlainFile(fileName: string, text: string, error: string, previewLines: nat)
    requires OnlyNewlines(text)
    ensures StartsWith(text, ReadFileContent(fileName, Some(text), error, previewLines).0)
  {
    var lines := SplitLines(text);
    if |lines| <= previewLines {
      assert lines[..|lines|] == lines;
      PreviewIsPrefix(text, |lines|);
    } else {
      PreviewIsPrefix(text, previewLines);
    }
  }
}

=== FILE: results.dfy ===
/**
 The tables the dashboard derives from the comparison rows: the summary
 figures of `display_summary`, each file's best match of
 `display_max_plagiarism_per_file`, and the score-range filter of
 `display_filtered_results`. Scores are hundredths of a percent, so the
 percentage threshold `80` is `8000` here.
 */
module Results {
  import opened Text
  import opened Paths
  import opened Pairs
  import opened Comparison

  /** `display_summary` counts a pair as highly similar from 80%. */
  const HighThreshold := 8000

  /** The slider's range in whole percent and its initial value. */
  const SliderMin := 0
  const SliderMax := 100
  const DefaultRange := (20, 60)

  /** The files named in either column of the first `n` rows. */
  function FilesBefore(rows: seq<SimilarityRow>, n: nat): (fs: set<string>)
    requires n <= |rows|
    ensures forall f :: f in fs <==> exists k :: 0 <= k < n && (rows[k].file1 == f || rows[k].file2 == f)
    ensures |fs| <= 2 * n
  {
    if n == 0 then {}
    else
      var fs := FilesBefore(rows, n - 1);
      var last := {rows[n - 1].file1, rows[n - 1].file2};
      assert |last| <= 2;
      UnionBound(fs, last);
      fs + last
  }

  lemma UnionBound(a: set<string>, b: set<string>)
    ensures |a + b| <= |a| + |b|
  {
    assert |a + b| + |a * b| == |a| + |b|;
  }

  /** The files named in either column: `set(df["File 1"]).union(df["File 2"])`. */
  function Files(rows: seq<SimilarityRow>): (fs: set<string>)
    ensures forall f :: f in fs <==> exists k :: 0 <= k < |rows| && (rows[k].file1 == f || rows[k].file2 == f)
    ensures |fs| <= 2 * |rows|
  {
    FilesBefore(rows, |rows|)
  }

  // ---------------------------------------------------------------------
  // display_summary

  datatype Summary = Summary(totalFiles: nat, totalPairs: nat, highest: Option<int>, highPairs: nat)

  /** The largest score, `None` (pandas' NaN) for an empty table. */
  function Highest(rows: seq<SimilarityRow>): (m: Option<int>)
    ensures m.None? <==> rows == []
    ensures m.Some? ==> forall k :: 0 <= k < |rows| ==> rows[k].score <= m.value
    ensures m.Some? ==> exists k :: 0 <= k < |rows| && rows[k].score == m.value
  {
    if rows == [] then None
    else
      var m := Highest(rows[1..]);
      if m.None? || rows[0].score >= m.value then
        Some(rows[0].score)
      else
        var k :| 0 <= k < |rows[1..]| && rows[1..][k].score == m.value;
        assert rows[k + 1].score == m.value;
        m
  }

  /** The number of rows scoring at least 80%. */
  function HighCount(rows: seq<SimilarityRow>): (n: nat)
    ensures n <= |rows|
    ensures n == 0 <==> forall k :: 0 <= k < |rows| ==> rows[k].score < HighThreshold
  {
    if rows == [] then 0
    else
      var n := HighCount(rows[1..]);
      assert forall k :: 1 <= k < |rows| ==> rows[k] == rows[1..][k - 1];
      (if rows[0].score >= HighThreshold then 1 else 0) + n
  }

  /**
   `display_summary`: the distinct files of both columns, the number of
   rows, the best score, and how many rows reach the 80% threshold.
   */
  function Summarize(rows: seq<SimilarityRow>): (s: Summary)
    ensures s.totalFiles == |Files(rows)| && s.totalFiles <= 2 * s.totalPairs
    ensures s.totalPairs == |rows|
    ensures s.highest == Highest(rows) && s.highPairs == HighCount(rows)
    ensures s.highest.Some? ==> forall k :: 0 <= k < |rows| ==> rows[k].score <= s.highest.value
    ensures s.highest.Some? ==> exists k :: 0 <= k < |rows| && rows[k].score == s.highest.value
    ensures s.highPairs <= s.totalPairs
    ensures s.highest.None? <==> rows == []
    ensures s.highest.Some? ==> (s.highPairs > 0 <==> s.highest.value >= HighThreshold)
  {
    var m := Highest(rows);
    Summary(|Files(rows)|, |rows|, m, HighCount(rows))
  }

  // ---------------------------------------------------------------------
  // display_filtered_results

  /**
   The rows whose percentage lies in the slider's closed range
   `[lo, hi]`, in table order.
   */
  function FilterRange(rows: seq<SimilarityRow>, lo: int, hi: int): (r: seq<SimilarityRow>)
    ensures |r| <= |rows|
    ensures forall x :: x in r <==> x in rows && lo * 100 <= x.score <= hi * 100
  {
    if rows == [] then []
    else
      var keep := lo * 100 <= rows[0].score <= hi * 100;
      (if keep then [rows[0]] else []) + FilterRange(rows[1..], lo, hi)
  }

  /** Filtering keeps the table's order: the filter of two tables end to end is the two filters end to end. */
  lemma {:induction false} FilterRangeAppend(a: seq<SimilarityRow>, b: seq<SimilarityRow>, lo: int, hi: int)
    ensures FilterRange(a + b, lo, hi) == FilterRange(a, lo, hi) + FilterRange(b, lo, hi)
  {
    if a != [] {
      assert (a + b)[1..] == a[1..] + b;
      FilterRangeAppend(a[1..], b, lo, hi);
    } else {
      assert a + b == b;
    }
  }

  /** The slider's full range keeps every row of a table of valid scores. */
  lemma {:induction false} FilterRangeFull(rows: seq<SimilarityRow>)
    requires forall k :: 0 <= k < |rows| ==> 0 <= rows[k].score <= MaxScore
    ensures FilterRange(rows, SliderMin, SliderMax) == rows
  {
    if rows != [] {
      var rest := rows[1..];
      assert forall k :: 0 <= k < |rest| ==> rest[k] == rows[k + 1];
      FilterRangeFull(rest);
      assert SliderMin * 100 <= rows[0].score <= SliderMax * 100;
      assert rows == [rows[0]] + rest;
    }
  }

  /** The summary's high-similarity count is the size of the table filtered to 80–100%. */
  lemma {:induction false} HighCountIsRange(rows: seq<SimilarityRow>)
    requires forall k :: 0 <= k < |rows| ==> rows[k].score <= MaxScore
    ensures HighCount(rows) == |FilterRange(rows, 80, 100)|
  {
    if rows != [] {
      HighCountIsRange(rows[1..]);
    }
  }

  // ---------------------------------------------------------------------
  // The summary of a comparison run

  /** The base names of a list of paths. */
  function Basenames(paths: seq<string>): set<string> {
    set i | 0 <= i < |paths| :: Basename(paths[i])
  }

  /** Row `k` of a run names the base names of the paths at some positions `a < b`. */
  lemma RowOfRun(paths: seq<string>, ratio: (string, string) -> Ratio, k: nat) returns (a: nat, b: nat)
    requires k < |RunComparison(paths, ratio)|
    ensures a < b < |paths|
    ensures RunComparison(paths, ratio)[k].file1 == Basename(paths[a])
    ensures RunComparison(paths, ratio)[k].file2 == Basename(paths[b])
  {
    RunComparisonRows(paths, ratio);
    a, b := IndexPairs(|paths|)[k].0, IndexPairs(|paths|)[k].1;
  }

  /** The paths at positions `a < b` are compared in some row of a run. */
  lemma RunOfPair(paths: seq<string>, ratio: (string, string) -> Ratio, a: nat, b: nat) returns (k: nat)
    requires a < b < |paths|
    ensures k < |RunComparison(paths, ratio)|
    ensures RunComparison(paths, ratio)[k].file1 == Basename(paths[a])
    ensures RunComparison(paths, ratio)[k].file2 == Basename(paths[b])
  {
    CombinationsAreIndexPairs(paths);
    RunComparisonRows(paths, ratio);
    k :| 0 <= k < |IndexPairs(|paths|)| && IndexPairs(|paths|)[k] == (a, b);
  }

  lemma RunFilesAreBasenames(paths: seq<string>, ratio: (string, string) -> Ratio)
    ensures Files(RunComparison(paths, ratio)) <= Basenames(paths)
  {
    var rows := RunComparison(paths, ratio);
    forall f | f in Files(rows)
      ensures f in Basenames(paths)
    {
      var k :| 0 <= k < |rows| && (rows[k].file1 == f || rows[k].file2 == f);
      var a, b := RowOfRun(paths, ratio, k);
    }
  }

  lemma BasenamesAreRunFiles(paths: seq<string>, ratio: (string, string) -> Ratio)
    requires |paths| >= 2
    ensures Basenames(paths) <= Files(RunComparison(paths, ratio))
  {
    var rows := RunComparison(paths, ratio);
    var n := |paths|;
    forall i | 0 <= i < n
      ensures Basename(paths[i]) in Files(rows)
    {
      if i < n - 1 {
        var k := RunOfPair(paths, ratio, i, n - 1);
      } else {
        var k := RunOfPair(paths, ratio, 0, i);
      }
    }
  }

  /**
   The summary of a run over two or more paths counts every file once by
   its base name and reports `n(n-1)/2` pairs and a best score.
   */
  lemma SummaryOfRun(paths: seq<string>, ratio: (string, string) -> Ratio)
    requires |paths| >= 2
    ensures Files(RunComparison(paths, ratio)) == Basenames(paths)
    ensures Summarize(RunComparison(paths, ratio)).totalFiles == |Basenames(paths)|
    ensures Summarize(RunComparison(paths, ratio)).totalPairs == |paths| * (|paths| - 1) / 2
    ensures Summarize(RunComparison(paths, ratio)).highest.Some?
  {
    RunFilesAreBasenames(paths, ratio);
    BasenamesAreRunFiles(paths, ratio);
    assert |RunComparison(paths, ratio)| > 0 by {
      assert |paths| * (|paths| - 1) >= 2;
    }
  }

  // ---------------------------------------------------------------------
  // display_max_plagiarism_per_file

  /** One row of the per-file table: a file, the file it matched best, and their score. */
  datatype Match = Match(file: string, matchedWith: string, score: int)

  /**
   The `pd.concat` of the table read both ways: row `k` as
   `(file1, file2)` at position `k` and as `(file2, file1)` at position
   `|rows| + k`; both copies carry the index label `k`.
   */
  function Oriented(rows: seq<SimilarityRow>): (o: seq<Match>)
    ensures |o| == 2 * |rows|
    ensures forall k :: 0 <= k < |rows| ==> o[k] == Match(rows[k].file1, rows[k].file2, rows[k].score)
    ensures forall k :: 0 <= k < |rows| ==> o[|rows| + k] == Match(rows[k].file2, rows[k].file1, rows[k].score)
  {
    var n := |rows|;
    seq(2 * n, p requires 0 <= p < 2 * n =>
      if p < n then Match(rows[p].file1, rows[p].file2, rows[p].score)
      else Match(rows[p - n].file2, rows[p - n].file1, rows[p - n].score))
  }

  /** The files heading the rows of the concatenation, in order. */
  function Heads(rows: seq<SimilarityRow>): (hs: seq<string>)
    ensures |hs| == |Oriented(rows)|
    ensures forall p :: 0 <= p < |hs| ==> hs[p] == Oriented(rows)[p].file
  {
    var o := Oriented(rows);
    seq(|o|, p requires 0 <= p < |o| => o[p].file)
  }

  lemma HeadIsFile(rows: seq<SimilarityRow>, p: nat)
    requires p < |Oriented(rows)|
    ensures Oriented(rows)[p].file in Files(rows)
  {
    var n := |rows|;
    if p >= n {
      assert Oriented(rows)[n + (p - n)].file == rows[p - n].file2;
    }
  }

  /** The files heading the two copies of row `k`. */
  lemma OrientedAt(rows: seq<SimilarityRow>, k: nat)
    requires k < |rows|
    ensures Oriented(rows)[k].file == rows[k].file1
    ensures Oriented(rows)[|rows| + k].file == rows[k].file2
  {
  }

  lemma FileIsHead(rows: seq<SimilarityRow>, f: string) returns (p: nat)
    requires f in Files(rows)
    ensures p < |Oriented(rows)| && Oriented(rows)[p].file == f
  {
    var n := |rows|;
    assert exists k :: 0 <= k < n && (rows[k].file1 == f || rows[k].file2 == f);
    var k: nat :| k < n && (rows[k].file1 == f || rows[k].file2 == f);
    OrientedAt(rows, k);
    if rows[k].file1 == f {
      p := k;
    } else {
      p := n + k;
    }
  }

  lemma FileHeadsRow(rows: seq<SimilarityRow>, f: string)
    requires f in Files(rows)
    ensures exists p :: 0 <= p < |Oriented(rows)| && Oriented(rows)[p].file == f
  {
    var p := FileIsHead(rows, f);
  }

  /**
   The position `idxmax` picks for file `f` among the first `n` rows of
   `o`: a highest-scoring row of `f`, the first such.
   */
  function BestBefore(o: seq<Match>, f: string, n: nat): (p: Option<nat>)
    requires n <= |o|
    ensures p.None? <==> forall k :: 0 <= k < n ==> o[k].file != f
    ensures p.Some? ==> p.value < n && o[p.value].file == f
    ensures p.Some? ==> forall k :: 0 <= k < n && o[k].file == f ==> o[k].score <= o[p.value].score
    ensures p.Some? ==> forall k :: 0 <= k < p.value && o[k].file == f ==> o[k].score < o[p.value].score
  {
    if n == 0 then None
    else
      var p := BestBefore(o, f, n - 1);
      if o[n - 1].file != f then p
      else if p.None? || o[n - 1].score > o[p.value].score then Some(n - 1)
      else p
  }

  /** The distinct values of `xs[..n]`, in order of first appearance. */
  function DistinctBefore(xs: seq<string>, n: nat): (d: seq<string>)
    requires n <= |xs|
    ensures forall x :: x in d <==> exists k :: 0 <= k < n && xs[k] == x
    ensures forall i, j :: 0 <= i < j < |d| ==> d[i] != d[j]
  {
    if n == 0 then []
    else
      var d := DistinctBefore(xs, n - 1);
      if xs[n - 1] in d then d else d + [xs[n - 1]]
  }

  /** The set of a sequence's elements, built from the front. */
  function Elements(d: seq<string>): (s: set<string>)
    ensures forall x :: x in s <==> x in d
  {
    if d == [] then {} else {d[0]} + Elements(d[1..])
  }

  lemma {:induction false} DistinctCard(d: seq<string>)
    requires forall i, j :: 0 <= i < j < |d| ==> d[i] != d[j]
    ensures |Elements(d)| == |d|
  {
    if d != [] {
      DistinctCard(d[1..]);
      assert d[0] !in d[1..];
    }
  }

  /** The files of the table, each once, in order of first appearance in the concatenation. */
  function FileOrder(rows: seq<SimilarityRow>): (fs: seq<string>)
    ensures forall f :: f in fs <==> f in Files(rows)
    ensures forall i, j :: 0 <= i < j < |fs| ==> fs[i] != fs[j]
  {
    var hs := Heads(rows);
    var fs := DistinctBefore(hs, |hs|);
    forall f | f in Files(rows)
      ensures f in fs
    {
      var p := FileIsHead(rows, f);
      assert hs[p] == f;
    }
    forall f | f in fs
      ensures f in Files(rows)
    {
      var p :| 0 <= p < |hs| && hs[p] == f;
      HeadIsFile(rows, p);
    }
    fs
  }

  /** There are as many entries in the file order as there are files. */
  lemma FileOrderCount(rows: seq<SimilarityRow>)
    ensures |FileOrder(rows)| == |Files(rows)|
  {
    var fs := FileOrder(rows);
    DistinctCard(fs);
    assert Elements(fs) == Files(rows);
  }

  /** Each entry scores at least as much as the entry after it. */
  predicate Descending(t: seq<Match>) {
    forall i, j :: 0 <= i < j < |t| ==> t[i].score >= t[j].score
  }

  predicate DistinctFiles(t: seq<Match>) {
    forall i, j :: 0 <= i < j < |t| ==> t[i].file != t[j].file
  }

  /** Where `m` goes in a descending table: after every entry that scores more. */
  function InsertPos(m: Match, t: seq<Match>): (k: nat)
    ensures k <= |t|
    ensures forall i :: 0 <= i < k ==> t[i].score > m.score
    ensures k < |t| ==> t[k].score <= m.score
  {
    if t == [] || t[0].score <= m.score then 0
    else 1 + InsertPos(m, t[1..])
  }

  lemma InsertDescending(m: Match, t: seq<Match>, k: nat)
    requires Descending(t) && k <= |t|
    requires forall i :: 0 <= i < k ==> t[i].score > m.score
    requires k < |t| ==> t[k].score <= m.score
    ensures Descending(t[..k] + [m] + t[k..])
  {
    var r := t[..k] + [m] + t[k..];
    forall i, j | 0 <= i < j < |r|
      ensures r[i].score >= r[j].score
    {
      if j < k {
        assert r[i] == t[i] && r[j] == t[j];
      } else if j == k {
        assert r[i] == t[i] && r[j] == m;
      } else if i < k {
        assert r[i] == t[i] && r[j] == t[j - 1];
      } else if i == k {
        assert r[i] == m && r[j] == t[j - 1];
        assert t[k].score >= t[j - 1].score || k == j - 1;
      } else {
        assert r[i] == t[i - 1] && r[j] == t[j - 1];
      }
    }
  }

  lemma InsertDistinct(m: Match, t: seq<Match>, k: nat)
    requires k <= |t|
    ensures DistinctFiles(t) && (forall i :: 0 <= i < |t| ==> t[i].file != m.file) ==> DistinctFiles(t[..k] + [m] + t[k..])
  {
    if DistinctFiles(t) && (forall i :: 0 <= i < |t| ==> t[i].file != m.file) {
      InsertDistinctFiles(m, t, k);
    }
  }

  lemma InsertDistinctFiles(m: Match, t: seq<Match>, k: nat)
    requires DistinctFiles(t) && k <= |t|
    requires forall i :: 0 <= i < |t| ==> t[i].file != m.file
    ensures DistinctFiles(t[..k] + [m] + t[k..])
  {
    var r := t[..k] + [m] + t[k..];
    forall i, j | 0 <= i < j < |r|
      ensures r[i].file != r[j].file
    {
      var ti := if i < k then i else i - 1;
      var tj := if j <= k then j else j - 1;
      if i == k {
        assert r[i] == m && r[j] == t[tj];
      } else if j == k {
        assert r[i] == t[ti] && r[j] == m;
      } else {
        assert r[i] == t[ti] && r[j] == t[tj];
      }
    }
  }

  lemma InsertMultiset(m: Match, t: seq<Match>, k: nat)
    requires k <= |t|
    ensures multiset(t[..k] + [m] + t[k..]) == multiset(t) + multiset{m}
  {
    assert t == t[..k] + t[k..];
  }

  /** `m` placed into a descending table so that it stays descending. */
  function Insert(m: Match, t: seq<Match>): (r: seq<Match>)
    requires Descending(t)
    ensures Descending(r)
    ensures multiset(r) == multiset(t) + multiset{m}
    ensures |r| == |t| + 1
    ensures DistinctFiles(t) && (forall i :: 0 <= i < |t| ==> t[i].file != m.file) ==> DistinctFiles(r)
  {
    var k := InsertPos(m, t);
    InsertDescending(m, t, k);
    InsertMultiset(m, t, k);
    InsertDistinct(m, t, k);
    t[..k] + [m] + t[k..]
  }

  lemma LastFileNew(ms: seq<Match>, t: seq<Match>)
    requires ms != []
    requires multiset(t) == multiset(ms[..|ms| - 1])
    ensures DistinctFiles(ms) ==> DistinctFiles(ms[..|ms| - 1])
    ensures DistinctFiles(ms) ==> forall i :: 0 <= i < |t| ==> t[i].file != ms[|ms| - 1].file
  {
    if DistinctFiles(ms) {
      LastFileIsNew(ms, t);
    }
  }

  lemma LastFileIsNew(ms: seq<Match>, t: seq<Match>)
    requires ms != [] && DistinctFiles(ms)
    requires multiset(t) == multiset(ms[..|ms| - 1])
    ensures forall i :: 0 <= i < |t| ==> t[i].file != ms[|ms| - 1].file
  {
    var init := ms[..|ms| - 1];
    forall i | 0 <= i < |t|
      ensures t[i].file != ms[|ms| - 1].file
    {
      assert t[i] in multiset(t);
      assert t[i] in init;
      var j :| 0 <= j < |init| && init[j] == t[i];
      assert ms[j] == t[i];
    }
  }

  /**
   `sort_values(by="Similarity %", ascending=False)` of `ms`: descending
   scores, the same entries. The source's sort is not stable, so the order
   of equal scores is not fixed; this is one of the orders it may give.
   */
  function SortByScore(ms: seq<Match>): (r: seq<Match>)
    ensures Descending(r)
    ensures multiset(r) == multiset(ms)
    ensures |r| == |ms|
    ensures DistinctFiles(ms) ==> DistinctFiles(r)
  {
    if ms == [] then []
    else
      var init := ms[..|ms| - 1];
      var last := ms[|ms| - 1];
      assert ms == init + [last];
      var t := SortByScore(init);
      LastFileNew(ms, t);
      Insert(last, t)
  }

  lemma InSorted(ms: seq<Match>, x: Match)
    ensures x in SortByScore(ms) <==> x in ms
  {
    var r := SortByScore(ms);
    assert x in r <==> x in multiset(r);
    assert x in ms <==> x in multiset(ms);
  }

  /** The best match of `f` in the concatenation, as `idxmax` chooses it. */
  function BestMatch(rows: seq<SimilarityRow>, f: string): (p: nat)
    requires f in Files(rows)
    ensures p < |Oriented(rows)| && Oriented(rows)[p].file == f
    ensures forall k :: 0 <= k < |Oriented(rows)| && Oriented(rows)[k].file == f ==>
      Oriented(rows)[k].score <= Oriented(rows)[p].score
  {
    FileHeadsRow(rows, f);
    var o := Oriented(rows);
    BestBefore(o, f, |o|).value
  }

  /** The best row of every file, in file order. */
  function BestRows(rows: seq<SimilarityRow>): (best: seq<Match>)
    ensures |best| == |FileOrder(rows)|
    ensures forall i :: 0 <= i < |best| ==> best[i] == Oriented(rows)[BestMatch(rows, FileOrder(rows)[i])]
  {
    var fs := FileOrder(rows);
    seq(|fs|, i requires 0 <= i < |fs| => Oriented(rows)[BestMatch(rows, fs[i])])
  }

  lemma BestRowsFiles(rows: seq<SimilarityRow>)
    ensures forall i :: 0 <= i < |BestRows(rows)| ==> BestRows(rows)[i].file == FileOrder(rows)[i]
    ensures DistinctFiles(BestRows(rows))
  {
  }

  /**
   Each file's highest match, as the table evidently intends it: one
   entry per file of either column, that file's best-scoring pairing with
   its partner, most similar first.
   */
  function MaxMatchPerFile(rows: seq<SimilarityRow>): (t: seq<Match>)
    ensures Descending(t)
    ensures DistinctFiles(t)
    ensures forall x :: x in t <==> x in BestRows(rows)
  {
    BestRowsFiles(rows);
    var t := SortByScore(BestRows(rows));
    forall x
      ensures x in t <==> x in BestRows(rows)
    {
      InSorted(BestRows(rows), x);
    }
    t
  }

  lemma FileInPerFile(rows: seq<SimilarityRow>, f: string)
    requires f in Files(rows)
    ensures exists i :: 0 <= i < |MaxMatchPerFile(rows)| && MaxMatchPerFile(rows)[i].file == f
  {
    var t := MaxMatchPerFile(rows);
    var best := BestRows(rows);
    var fs := FileOrder(rows);
    BestRowsFiles(rows);
    assert f in fs;
    var j :| 0 <= j < |fs| && fs[j] == f;
    var x := best[j];
    assert x.file == f;
    assert x in best;
    assert x in t;
    var i :| 0 <= i < |t| && t[i] == x;
  }

  lemma PerFileIsFile(rows: seq<SimilarityRow>)
    ensures forall i :: 0 <= i < |MaxMatchPerFile(rows)| ==> MaxMatchPerFile(rows)[i].file in Files(rows)
  {
    var t := MaxMatchPerFile(rows);
    var best := BestRows(rows);
    BestRowsFiles(rows);
    forall i | 0 <= i < |t|
      ensures t[i].file in Files(rows)
    {
      assert t[i] in best;
      var j :| 0 <= j < |best| && best[j] == t[i];
      assert FileOrder(rows)[j] in FileOrder(rows);
    }
  }

  lemma PerFileCovers(rows: seq<SimilarityRow>, t: seq<Match>)
    requires t == MaxMatchPerFile(rows)
    ensures forall f :: f in Files(rows) <==> exists i :: 0 <= i < |t| && t[i].file == f
  {
    forall f | f in Files(rows)
      ensures exists i :: 0 <= i < |t| && t[i].file == f
    {
      FileInPerFile(rows, f);
    }
    PerFileIsFile(rows);
  }

  lemma PerFileBest(rows: seq<SimilarityRow>, t: seq<Match>)
    requires t == MaxMatchPerFile(rows)
    ensures forall i :: 0 <= i < |t| ==> t[i] in Oriented(rows)
    ensures forall i, k ::
      0 <= i < |t| && 0 <= k < |Oriented(rows)| && Oriented(rows)[k].file == t[i].file ==> Oriented(rows)[k].score <= t[i].score
  {
    var best := BestRows(rows);
    var o := Oriented(rows);
    BestRowsFiles(rows);
    forall i | 0 <= i < |t|
      ensures t[i] in o
      ensures forall k :: 0 <= k < |o| && o[k].file == t[i].file ==> o[k].score <= t[i].score
    {
      assert t[i] in best;
      var j :| 0 <= j < |best| && best[j] == t[i];
    }
  }

  /**
   The per-file table lists every file of either column exactly once, each
   with a row of the concatenation that no other row of that file outscores.
   */
  lemma MaxMatchPerFileComplete(rows: seq<SimilarityRow>, t: seq<Match>)
    requires t == MaxMatchPerFile(rows)
    ensures |t| == |Files(rows)|
    ensures forall f :: f in Files(rows) <==> exists i :: 0 <= i < |t| && t[i].file == f
    ensures forall i :: 0 <= i < |t| ==> t[i] in Oriented(rows)
    ensures forall i, k ::
      0 <= i < |t| && 0 <= k < |Oriented(rows)| && Oriented(rows)[k].file == t[i].file ==> Oriented(rows)[k].score <= t[i].score
  {
    FileOrderCount(rows);
    PerFileCovers(rows, t);
    PerFileBest(rows, t);
  }

  /** The rows naming `f` in either column, in table order (the detail view of a selected file). */
  function RowsOf(rows: seq<SimilarityRow>, f: string): (r: seq<SimilarityRow>)
    ensures |r| <= |rows|
    ensures forall x :: x in r <==> x in rows && (x.file1 == f || x.file2 == f)
  {
    if rows == [] then []
    else (if rows[0].file1 == f || rows[0].file2 == f then [rows[0]] else []) + RowsOf(rows[1..], f)
  }

  /**
   The detail view keeps the table's order: two tables end to end give
   their selections end to end.
   */
  lemma {:induction false} RowsOfAppend(a: seq<SimilarityRow>, b: seq<SimilarityRow>, f: string)
    ensures RowsOf(a + b, f) == RowsOf(a, f) + RowsOf(b, f)
  {
    if a != [] {
      var rest := a[1..];
      assert (a + b)[0] == a[0];
      assert (a + b)[1..] == rest + b;
      RowsOfAppend(rest, b, f);
    } else {
      assert a + b == b;
    }
  }

  /** A single row is kept exactly when it names `f`. */
  lemma RowsOfOne(x: SimilarityRow, f: string)
    ensures RowsOf([x], f) == if x.file1 == f || x.file2 == f then [x] else []
  {
    assert [x][1..] == [];
  }

  /** Each row scores at least as much as the row after it. */
  predicate RowsDescending(t: seq<SimilarityRow>) {
    forall i, j :: 0 <= i < j < |t| ==> t[i].score >= t[j].score
  }

  /** Where `x` goes in a descending table: after every row that scores more. */
  function RowInsertPos(x: SimilarityRow, t: seq<SimilarityRow>): (k: nat)
    ensures k <= |t|
    ensures forall i :: 0 <= i < k ==> t[i].score > x.score
    ensures k < |t| ==> t[k].score <= x.score
  {
    if t == [] || t[0].score <= x.score then 0
    else 1 + RowInsertPos(x, t[1..])
  }

  lemma RowInsertDescending(x: SimilarityRow, t: seq<SimilarityRow>, k: nat)
    requires RowsDescending(t) && k <= |t|
    requires forall i :: 0 <= i < k ==> t[i].score > x.score
    requires k < |t| ==> t[k].score <= x.score
    ensures RowsDescending(t[..k] + [x] + t[k..])
  {
    var r := t[..k] + [x] + t[k..];
    forall i, j | 0 <= i < j < |r|
      ensures r[i].score >= r[j].score
    {
      if j < k {
        assert r[i] == t[i] && r[j] == t[j];
      } else if j == k {
        assert r[i] == t[i] && r[j] == x;
      } else if i < k {
        assert r[i] == t[i] && r[j] == t[j - 1];
      } else if i == k {
        assert r[i] == x && r[j] == t[j - 1];
        assert t[k].score >= t[j - 1].score || k == j - 1;
      } else {
        assert r[i] == t[i - 1] && r[j] == t[j - 1];
      }
    }
  }

  /** `x` placed into a descending table of rows so that it stays descending. */
  function RowInsert(x: SimilarityRow, t: seq<SimilarityRow>): (r: seq<SimilarityRow>)
    requires RowsDescending(t)
    ensures RowsDescending(r)
    ensures multiset(r) == multiset(t) + multiset{x}
  {
    var k := RowInsertPos(x, t);
    RowInsertDescending(x, t, k);
    assert t == t[..k] + t[k..];
    t[..k] + [x] + t[k..]
  }

  /**
   `sort_values("Similarity %", ascending=False)` of a table of rows:
   descending scores, the same rows. As for `SortByScore`, the order of
   equal scores is one of those the source's unstable sort may give.
   */
  function SortRows(rows: seq<SimilarityRow>): (r: seq<SimilarityRow>)
    ensures RowsDescending(r)
    ensures multiset(r) == multiset(rows)
  {
    if rows == [] then []
    else
      var init := rows[..|rows| - 1];
      assert rows == init + [rows[|rows| - 1]];
      RowInsert(rows[|rows| - 1], SortRows(init))
  }

  lemma SameMembers(a: seq<SimilarityRow>, b: seq<SimilarityRow>)
    requires multiset(a) == multiset(b)
    ensures forall x :: x in a <==> x in b
  {
    forall x
      ensures x in a <==> x in b
    {
      assert x in a <==> x in multiset(a);
      assert x in b <==> x in multiset(b);
    }
  }

  /**
   The detail view of a selected file: the rows naming it in either
   column, highest score first, each row as often as in the table.
   */
  function DetailView(rows: seq<SimilarityRow>, f: string): (r: seq<SimilarityRow>)
    ensures RowsDescending(r)
    ensures multiset(r) == multiset(RowsOf(rows, f))
    ensures forall x :: x in r <==> x in rows && (x.file1 == f || x.file2 == f)
  {
    var r := SortRows(RowsOf(rows, f));
    SameMembers(r, RowsOf(rows, f));
    r
  }

  /** A row that names `f` scores no more than the highest row naming `f`. */
  lemma BelowHighestOf(rows: seq<SimilarityRow>, f: string, x: SimilarityRow)
    requires x in rows && (x.file1 == f || x.file2 == f)
    ensures RowsOf(rows, f) != []
    ensures x.score <= Highest(RowsOf(rows, f)).value
  {
    var sub := RowsOf(rows, f);
    assert x in sub;
    var i :| 0 <= i < |sub| && sub[i] == x;
  }

  /** The row of the table that `f`'s best match is a copy of. */
  lemma BestMatchRow(rows: seq<SimilarityRow>, f: string) returns (j: nat)
    requires f in Files(rows)
    ensures j < |rows| && (rows[j].file1 == f || rows[j].file2 == f)
    ensures rows[j].score == Oriented(rows)[BestMatch(rows, f)].score
  {
    var p := BestMatch(rows, f);
    j := OrientedRow(rows, p);
  }

  /** Every entry of the two-way table copies some row, read one way or the other. */
  lemma OrientedRow(rows: seq<SimilarityRow>, p: nat) returns (j: nat)
    requires p < 2 * |rows|
    ensures j < |rows|
    ensures Oriented(rows)[p].file == rows[j].file1 || Oriented(rows)[p].file == rows[j].file2
    ensures Oriented(rows)[p].score == rows[j].score
  {
    var n := |rows|;
    if p < n {
      j := p;
    } else {
      j := p - n;
      assert Oriented(rows)[n + j] == Oriented(rows)[p];
    }
  }

  /** A row that names `f` scores no more than `f`'s best match. */
  lemma RowBelowBest(rows: seq<SimilarityRow>, f: string, j: nat)
    requires j < |rows| && (rows[j].file1 == f || rows[j].file2 == f)
    ensures f in Files(rows)
    ensures rows[j].score <= Oriented(rows)[BestMatch(rows, f)].score
  {
    var n := |rows|;
    var o := Oriented(rows);
    if rows[j].file1 == f {
      assert o[j].file == f && o[j].score == rows[j].score;
    } else {
      assert o[n + j].file == f && o[n + j].score == rows[j].score;
    }
  }

  lemma BestAtMostHighest(rows: seq<SimilarityRow>, f: string)
    requires f in Files(rows)
    ensures RowsOf(rows, f) != []
    ensures Oriented(rows)[BestMatch(rows, f)].score <= Highest(RowsOf(rows, f)).value
  {
    var j := BestMatchRow(rows, f);
    BelowHighestOf(rows, f, rows[j]);
  }

  lemma HighestAtMostBest(rows: seq<SimilarityRow>, f: string)
    requires f in Files(rows) && RowsOf(rows, f) != []
    ensures Highest(RowsOf(rows, f)).value <= Oriented(rows)[BestMatch(rows, f)].score
  {
    var sub := RowsOf(rows, f);
    var m := Highest(sub).value;
    var k :| 0 <= k < |sub| && sub[k].score == m;
    var x := sub[k];
    assert x in sub;
    var j :| 0 <= j < |rows| && rows[j] == x;
    RowBelowBest(rows, f, j);
  }

  /**
   The score of a file's best match is the highest score among the rows
   that name the file in either column.
   */
  lemma BestMatchIsHighest(rows: seq<SimilarityRow>, f: string)
    requires f in Files(rows)
    ensures Highest(RowsOf(rows, f)).Some?
    ensures Oriented(rows)[BestMatch(rows, f)].score == Highest(RowsOf(rows, f)).value
  {
    BestAtMostHighest(rows, f);
    HighestAtMostBest(rows, f);
  }

  /** The table row that the best match of `f` is a copy of, as a label of the concatenation. */
  function BestRow(rows: seq<SimilarityRow>, f: string): (k: nat)
    requires f in Files(rows)
    ensures k < |rows|
    ensures k == BestMatch(rows, f) % |rows|
  {
    BestMatch(rows, f) % |rows|
  }

  lemma FilesTail(rows: seq<SimilarityRow>, fs: seq<string>)
    requires fs != [] && forall i :: 0 <= i < |fs| ==> fs[i] in Files(rows)
    ensures forall i :: 0 <= i < |fs[1..]| ==> fs[1..][i] in Files(rows)
  {
    forall i | 0 <= i < |fs[1..]|
      ensures fs[1..][i] in Files(rows)
    {
      assert fs[1..][i] == fs[i + 1];
    }
  }

  /** Both copies of the best row of each file of `fs`, in the order of `fs`. */
  function Copies(rows: seq<SimilarityRow>, fs: seq<string>): (picked: seq<Match>)
    requires forall i :: 0 <= i < |fs| ==> fs[i] in Files(rows)
    ensures |picked| == 2 * |fs|
    ensures forall x :: x in picked ==> x in Oriented(rows)
  {
    if fs == [] then []
    else
      var o := Oriented(rows);
      var k := BestRow(rows, fs[0]);
      FilesTail(rows, fs);
      [o[k], o[|rows| + k]] + Copies(rows, fs[1..])
  }

  /** Both copies of the best row of every file, in file order. */
  function PickedRows(rows: seq<SimilarityRow>): (picked: seq<Match>)
    ensures |picked| == 2 * |FileOrder(rows)|
    ensures forall x :: x in picked ==> x in Oriented(rows)
  {
    Copies(rows, FileOrder(rows))
  }

  /**
   `display_max_plagiarism_per_file` as written. `idxmax` returns index
   labels, and the concatenation carries every label twice (once per
   orientation), so `.loc` with the label of each file's best row selects
   both copies of that row: twice as many rows as there are files.
   */
  function MaxMatchAsWritten(rows: seq<SimilarityRow>): (t: seq<Match>)
    ensures Descending(t)
    ensures |t| == 2 * |FileOrder(rows)|
    ensures forall x :: x in t ==> x in Oriented(rows)
  {
    var picked := PickedRows(rows);
    var t := SortByScore(picked);
    forall x | x in t
      ensures x in Oriented(rows)
    {
      InSorted(picked, x);
    }
    t
  }

  /** The table as written has twice as many rows as the table has files, so it repeats files. */
  lemma AsWrittenDoublesRows(rows: seq<SimilarityRow>)
    ensures |MaxMatchAsWritten(rows)| == 2 * |Files(rows)|
    ensures |MaxMatchPerFile(rows)| == |Files(rows)|
  {
    FileOrderCount(rows);
    MaxMatchPerFileComplete(rows, MaxMatchPerFile(rows));
  }

  /**
   A table of one pair: the intended table lists each of the two files
   once; the table as written lists each of the two oriented rows twice.
   */
  lemma OnePairFiles(x: string, y: string, s: int)
    requires x != y
    ensures Files([SimilarityRow(x, y, s)]) == {x, y}
    ensures |FileOrder([SimilarityRow(x, y, s)])| == 2
  {
    var rows := [SimilarityRow(x, y, s)];
    assert rows[0].file1 == x && rows[0].file2 == y;
    assert Files(rows) == {x, y};
    FileOrderCount(rows);
  }

  /** With a single row, every file's copies are that row's two orientations. */
  lemma {:induction false} CopiesOfOneRow(rows: seq<SimilarityRow>, fs: seq<string>)
    requires |rows| == 1
    requires forall i :: 0 <= i < |fs| ==> fs[i] in Files(rows)
    ensures forall q :: 0 <= q < |Copies(rows, fs)| ==> Copies(rows, fs)[q] == Oriented(rows)[q % 2]
  {
    if fs != [] {
      CopiesOfOneRow(rows, fs[1..]);
      var o := Oriented(rows);
      var c := Copies(rows, fs);
      var r := Copies(rows, fs[1..]);
      assert c == [o[0], o[1]] + r;
      forall q | 2 <= q < |c|
        ensures c[q] == o[q % 2]
      {
        assert c[q] == r[q - 2];
      }
    }
  }

  lemma OnePairPicked(x: string, y: string, s: int)
    requires x != y
    ensures PickedRows([SimilarityRow(x, y, s)]) == [Match(x, y, s), Match(y, x, s), Match(x, y, s), Match(y, x, s)]
  {
    var rows := [SimilarityRow(x, y, s)];
    OnePairFiles(x, y, s);
    var o := Oriented(rows);
    assert o[0] == Match(x, y, s) && o[1 + 0] == Match(y, x, s);
    CopiesOfOneRow(rows, FileOrder(rows));
    var picked := PickedRows(rows);
    assert |picked| == 4;
    assert picked[0] == o[0] && picked[1] == o[1] && picked[2] == o[0] && picked[3] == o[1];
  }

  /**
   A table of one pair: the intended table lists each of the two files
   once; the table as written lists each of the two oriented rows twice.
   */
  lemma OnePairTables(x: string, y: string, s: int)
    requires x != y
    ensures |MaxMatchPerFile([SimilarityRow(x, y, s)])| == 2
    ensures multiset(MaxMatchAsWritten([SimilarityRow(x, y, s)]))
      == multiset{Match(x, y, s), Match(y, x, s), Match(x, y, s), Match(y, x, s)}
  {
    OnePairFiles(x, y, s);
    AsWrittenDoublesRows([SimilarityRow(x, y, s)]);
    OnePairPicked(x, y, s);
  }
}

=== FILE: text.dfy ===
/**
 Character classes and small string helpers shared by the whole model.

 Python's `str.isspace`, `str.strip()` and the regular-expression class `\s`
 (for `str` patterns) all use the same Unicode whitespace table, reproduced
 here as `IsSpace`. Case conversion is ASCII only.
 */
module Text {

  datatype Option<+T> = None | Some(value: T)

  /** Unicode whitespace as Python classifies it. */
  predicate IsSpace(c: char) {
    || c == ' ' || c == '\t' || c == '\n' || c == '\r'
    || c == '\U{000B}' || c == '\U{000C}'
    || ('\U{001C}' <= c <= '\U{001F}')
    || c == '\U{0085}' || c == '\U{00A0}' || c == '\U{1680}'
    || ('\U{2000}' <= c <= '\U{200A}')
    || c == '\U{2028}' || c == '\U{2029}' || c == '\U{202F}' || c == '\U{205F}'
    || c == '\U{3000}'
  }

  predicate IsUpper(c: char) {
    'A' <= c <= 'Z'
  }

  function LowerChar(c: char): (d: char)
    ensures !IsUpper(d)
    ensures IsSpace(d) == IsSpace(c)
    ensures !IsUpper(c) ==> d == c
  {
    if IsUpper(c) then (c as int + 32) as char else c
  }

  /** ASCII `str.lower()`. */
  function Lower(s: string): (r: string)
    ensures |r| == |s|
    ensures forall i :: 0 <= i < |s| ==> r[i] == LowerChar(s[i])
  {
    seq(|s|, i requires 0 <= i < |s| => LowerChar(s[i]))
  }

  predicate NoUpper(s: string) {
    forall i :: 0 <= i < |s| ==> !IsUpper(s[i])
  }

  predicate StartsWith(s: string, p: string) {
    |p| <= |s| && s[..|p|] == p
  }

  predicate EndsWith(s: string, p: string) {
    |p| <= |s| && s[|s| - |p|..] == p
  }

  /** True when `p` occurs somewhere in `s`. */
  predicate Contains(s: string, p: string) {
    exists i :: 0 <= i <= |s| && StartsWith(s[i..], p)
  }

  /** The first index at which `p` occurs in `s`, or `|s|` when it does not. */
  function Find(s: string, p: string): (k: nat)
    requires |p| > 0
    ensures k <= |s|
    ensures k < |s| ==> StartsWith(s[k..], p)
    ensures forall j :: 0 <= j < k ==> !StartsWith(s[j..], p)
    decreases |s|
  {
    if s == [] || StartsWith(s, p) then 0
    else
      var k := 1 + Find(s[1..], p);
      assert forall j :: 1 <= j < k ==> s[j..] == s[1..][j - 1..];
      k
  }

  /** The index of the first `'\n'` in `s`, or `|s|`: the length of the current line. */
  function LineLength(s: string): (k: nat)
    ensures k <= |s|
    ensures k < |s| ==> s[k] == '\n'
    ensures forall j :: 0 <= j < k ==> s[j] != '\n'
  {
    if s == [] || s[0] == '\n' then 0 else 1 + LineLength(s[1..])
  }

  /** The length of the run of whitespace that starts `s`. */
  function SpaceRun(s: string): (k: nat)
    ensures k <= |s|
    ensures k < |s| ==> !IsSpace(s[k])
    ensures forall j :: 0 <= j < k ==> IsSpace(s[j])
  {
    if s == [] || !IsSpace(s[0]) then 0 else 1 + SpaceRun(s[1..])
  }

  /** Index of the last occurrence of `c` in `s`, or -1. */
  function LastIndexOf(s: string, c: char): (k: int)
    ensures -1 <= k < |s|
    ensures k >= 0 ==> s[k] == c
    ensures forall j :: k < j < |s| ==> s[j] != c
  {
    LastIndexBefore(s, c, |s|)
  }

  /** Index of the last occurrence of `c` in `s[..n]`, or -1. */
  function LastIndexBefore(s: string, c: char, n: nat): (k: int)
    requires n <= |s|
    ensures -1 <= k < n
    ensures k >= 0 ==> s[k] == c
    ensures forall j :: k < j < n ==> s[j] != c
  {
    if n == 0 then -1
    else if s[n - 1] == c then n - 1
    else LastIndexBefore(s, c, n - 1)
  }

  /** The three properties of `LastIndexOf` determine it. */
  lemma LastIndexOfUnique(s: string, c: char, k: int)
    requires -1 <= k < |s|
    requires k >= 0 ==> s[k] == c
    requires forall j :: k < j < |s| ==> s[j] != c
    ensures LastIndexOf(s, c) == k
  {
    var m := LastIndexOf(s, c);
    assert m >= 0 ==> s[m] == c;
    assert k >= 0 ==> s[k] == c;
  }

  /** Python `str.replace(p, "")`: every non-overlapping occurrence of `p`, scanned from the left, removed. */
  function RemoveAll(s: string, p: string): (r: string)
    requires |p| > 0
    ensures |r| <= |s|
    ensures forall c :: c in r ==> c in s
    decreases |s|
  {
    if s == [] then []
    else if StartsWith(s, p) then RemoveAll(s[|p|..], p)
    else [s[0]] + RemoveAll(s[1..], p)
  }
}

=== FILE: uploads.dfy ===
/**
 The upload step of `process_uploaded_files`: the all-or-nothing
 validation of the batch and the sanitised names the files are stored
 under. The batch is checked in full before anything is written, so a
 rejection carries no writes.
 */
module Uploads {
  import opened Text
  import opened Paths

  const ValidExtensions: set<string> := {".py", ".cpp", ".h", ".cc", ".cxx", ".java"}
  const MaxFileSizeMB := 10
  const MaxFileSize := MaxFileSizeMB * 1024 * 1024

  /** An uploaded file: the name the browser sent and its bytes (its size is their number). */
  datatype Upload = Upload(name: string, bytes: seq<bv8>)

  /** The type check: the lower-cased pathlib suffix of the name is a supported extension. */
  predicate TypeOk(f: Upload) {
    Lower(Suffix(PathName(f.name))) in ValidExtensions
  }

  /** The size check: at most 10 MiB, the limit itself included. */
  predicate SizeOk(f: Upload) {
    |f.bytes| <= MaxFileSize
  }

  datatype Rejection = NoFiles | InvalidType(index: nat) | TooLarge(index: nat)

  datatype StoredFile = StoredFile(path: string, bytes: seq<bv8>)

  datatype UploadOutcome = Rejected(why: Rejection) | Saved(files: seq<StoredFile>)

  /** The outcome of the two checks on one file. */
  datatype Check = Check(typeOk: bool, sizeOk: bool)

  function CheckFile(f: Upload): (c: Check)
    ensures c.typeOk == TypeOk(f) && c.sizeOk == SizeOk(f)
  {
    Check(TypeOk(f), SizeOk(f))
  }

  /**
   The validation loop from position `from` on: the first file that fails,
   with the type checked before the size, or `None` when all pass.
   */
  function FirstProblem(checks: seq<Check>, from: nat): (p: Option<Rejection>)
    requires from <= |checks|
    ensures p.None? <==> forall i :: from <= i < |checks| ==> checks[i].typeOk && checks[i].sizeOk
    ensures p.Some? ==> !p.value.NoFiles?
    ensures p.Some? && p.value.InvalidType? ==>
      from <= p.value.index < |checks| && !checks[p.value.index].typeOk
      && forall i :: from <= i < p.value.index ==> checks[i].typeOk && checks[i].sizeOk
    ensures p.Some? && p.value.TooLarge? ==>
      from <= p.value.index < |checks| && checks[p.value.index].typeOk && !checks[p.value.index].sizeOk
      && forall i :: from <= i < p.value.index ==> checks[i].typeOk && checks[i].sizeOk
    decreases |checks| - from
  {
    if from == |checks| then None
    else if !checks[from].typeOk then Some(InvalidType(from))
    else if !checks[from].sizeOk then Some(TooLarge(from))
    else FirstProblem(checks, from + 1)
  }

  /** `safe_name`: the pathlib name with `..`, then `/`, then `\` removed. */
  function SafeName(name: string): (r: string)
    ensures '/' !in r && '\\' !in r
  {
    var a := RemoveAll(PathName(name), "..");
    var b := RemoveAll(a, "/");
    RemoveAllChar(a, '/');
    var c := RemoveAll(b, "\\");
    RemoveAllChar(b, '\\');
    c
  }

  function CheckAll(files: seq<Upload>): (c: seq<Check>)
    ensures |c| == |files|
    ensures forall i :: 0 <= i < |files| ==> c[i].typeOk == TypeOk(files[i]) && c[i].sizeOk == SizeOk(files[i])
  {
    seq(|files|, i requires 0 <= i < |files| => CheckFile(files[i]))
  }

  /**
   The validation loop over the whole batch: `None` when every file passes,
   otherwise the first failing file and the check it fails.
   */
  function Validate(files: seq<Upload>): (p: Option<Rejection>)
    ensures p.None? <==> forall i :: 0 <= i < |files| ==> TypeOk(files[i]) && SizeOk(files[i])
    ensures p.Some? ==> !p.value.NoFiles?
    ensures p.Some? && p.value.InvalidType? ==>
      p.value.index < |files| && !TypeOk(files[p.value.index])
      && forall i :: 0 <= i < p.value.index ==> TypeOk(files[i]) && SizeOk(files[i])
    ensures p.Some? && p.value.TooLarge? ==>
      p.value.index < |files| && TypeOk(files[p.value.index]) && !SizeOk(files[p.value.index])
      && forall i :: 0 <= i < p.value.index ==> TypeOk(files[i]) && SizeOk(files[i])
  {
    FirstProblem(CheckAll(files), 0)
  }

  /** The writes of the upload loop, in order. */
  function StoreAll(files: seq<Upload>): (w: seq<StoredFile>)
    ensures |w| == |files|
    ensures forall i :: 0 <= i < |files| ==>
      w[i].bytes == files[i].bytes && w[i].path == Join(UploadDir, SafeName(files[i].name))
  {
    seq(|files|, i requires 0 <= i < |files| => StoredFile(Join(UploadDir, SafeName(files[i].name)), files[i].bytes))
  }

  /**
   The upload step of `process_uploaded_files`: an empty batch, or the first
   file failing a check, rejects the whole batch with no file written;
   otherwise every file is stored, in order, under the upload directory
   with its sanitised name.
   */
  function ProcessUploads(files: seq<Upload>): (o: UploadOutcome)
    ensures files == [] ==> o == Rejected(NoFiles)
    ensures o.Saved? <==> files != [] && Validate(files).None?
    ensures o.Rejected? && files != [] ==> Validate(files) == Some(o.why)
    ensures o.Saved? ==> o.files == StoreAll(files)
  {
    if files == [] then Rejected(NoFiles)
    else match Validate(files)
      case Some(why) => Rejected(why)
      case None => Saved(StoreAll(files))
  }

  // ---------------------------------------------------------------------
  // Lemmas about `str.replace`

  lemma {:induction false} RemoveAllChar(s: string, c: char)
    ensures c !in RemoveAll(s, [c])
    ensures c !in s ==> RemoveAll(s, [c]) == s
    decreases |s|
  {
    if s != [] {
      RemoveAllChar(s[1..], c);
      if !StartsWith(s, [c]) {
        assert s[0] != c;
        if c !in s {
          assert c !in s[1..];
          assert s == [s[0]] + s[1..];
        }
      }
    }
  }

  /** No two adjacent dots. */
  predicate NoDotPair(t: string) {
    forall j :: 0 <= j < |t| - 1 ==> !(t[j] == '.' && t[j + 1] == '.')
  }

  lemma {:induction false} RemoveDotDotNoPair(s: string)
    ensures NoDotPair(RemoveAll(s, ".."))
    ensures s != [] && s[0] != '.' ==> RemoveAll(s, "..") != [] && RemoveAll(s, "..")[0] == s[0]
    decreases |s|
  {
    if s != [] {
      if StartsWith(s, "..") {
        RemoveDotDotNoPair(s[2..]);
      } else {
        RemoveDotDotNoPair(s[1..]);
        var t := RemoveAll(s[1..], "..");
        assert RemoveAll(s, "..") == [s[0]] + t;
        assert s[0] == '.' && |s| > 1 ==> s[1] != '.';
      }
    }
  }

  // ---------------------------------------------------------------------
  // Properties of safe_name

  /**
   `safe_name` does not rule out `..`: removing the backslash after the
   `..` pass joins two dots.
   */
  lemma SafeNameCanYieldDotDot()
    ensures SafeName(".\\.") == ".."
  {
    var n := ".\\.";
    assert n != [] && n != "." && '/' !in n;
    PathNamePlain(n);
    DotsKept(n);
    RemoveAllChar(n, '/');
    BackslashDropped(n);
  }

  lemma DotsKept(n: string)
    requires n == ".\\."
    ensures RemoveAll(n, "..") == n
  {
    var t := n[1..];
    var u := t[1..];
    assert n[1] == '\\' && t[0] == '\\' && |t| == 2 && u == ".";
    assert n[..2][1] == '\\';
    assert t[..2][0] == '\\';
    assert RemoveAll(u, "..") == [u[0]] + RemoveAll(u[1..], "..");
    assert RemoveAll(u, "..") == u;
    assert RemoveAll(t, "..") == [t[0]] + u;
    assert [t[0]] + u == t;
    assert RemoveAll(n, "..") == [n[0]] + t;
    assert [n[0]] + t == n;
  }

  lemma BackslashDropped(n: string)
    requires n == ".\\."
    ensures RemoveAll(n, "\\") == ".."
  {
    var t := n[1..];
    var u := t[1..];
    assert n[0] == '.' && t[0] == '\\' && u == ".";
    assert n[..1][0] == '.';
    assert t[..1] == "\\";
    assert u[..1] == ".";
    assert RemoveAll(u, "\\") == [u[0]] + RemoveAll(u[1..], "\\");
    assert RemoveAll(u, "\\") == u;
    assert RemoveAll(t, "\\") == u;
    assert RemoveAll(n, "\\") == [n[0]] + u;
  }

  lemma NoDotPairNoContains(t: string)
    requires NoDotPair(t)
    ensures !Contains(t, "..")
  {
    forall i | 0 <= i <= |t|
      ensures !StartsWith(t[i..], "..")
    {
      if i + 1 < |t| {
        assert t[i..][..2] == [t[i], t[i + 1]];
      }
    }
  }

  lemma SafeNameIsDotPass(name: string)
    requires '\\' !in name
    ensures SafeName(name) == RemoveAll(PathName(name), "..")
  {
    var a := RemoveAll(PathName(name), "..");
    assert '/' !in a;
    assert '\\' !in a;
    RemoveAllChar(a, '/');
    RemoveAllChar(a, '\\');
  }

  /** Without backslashes in the uploaded name, `safe_name` contains no `..`. */
  lemma SafeNameNoDotDot(name: string)
    requires '\\' !in name
    ensures !Contains(SafeName(name), "..")
  {
    SafeNameIsDotPass(name);
    RemoveDotDotNoPair(PathName(name));
    NoDotPairNoContains(SafeName(name));
  }

  lemma {:induction false} RemoveAllAbsent(s: string, p: string)
    requires |p| > 0
    requires forall j :: 0 <= j < |s| ==> !StartsWith(s[j..], p)
    ensures RemoveAll(s, p) == s
    decreases |s|
  {
    if s != [] {
      assert !StartsWith(s[0..], p);
      assert s[0..] == s;
      forall j | 0 <= j < |s[1..]|
        ensures !StartsWith(s[1..][j..], p)
      {
        assert s[1..][j..] == s[j + 1..];
      }
      RemoveAllAbsent(s[1..], p);
      assert s == [s[0]] + s[1..];
    }
  }

  /** An ordinary file name is kept as it is. */
  lemma SafeNameKeepsPlainName(name: string)
    requires name != [] && name != "."
    requires '/' !in name && '\\' !in name && !Contains(name, "..")
    ensures SafeName(name) == name
  {
    assert Basename(name) == name by {
      assert LastIndexOf(name, '/') == -1;
    }
    assert forall j :: 0 <= j < |name| ==> !StartsWith(name[j..], "..");
    RemoveAllAbsent(name, "..");
    RemoveAllChar(name, '/');
    RemoveAllChar(name, '\\');
  }
}
